=== FILE: README.md ===
# Clinic territory targeting, modelled in Dafny

This project models the territory geometry and the Facebook-targeting export of the
clinic-manager application, and proves properties of that model.

Two parts of the application are covered:

- **The geometry and rule library** (`lib/geo-utils.ts`):
  - the tiered radius table;
  - the drive-time estimate;
  - the even-odd ray-casting test;
  - the clamped point-to-segment distance;
  - Douglas-Peucker simplification and the tolerance search around it;
  - strided boundary exclusion circles.
- **The pure logic of the clinic territory manager** (`components/ClinicTerritoryManager.tsx`):
  - choosing a clinic's geometry and the no-boundary exit;
  - the bounding box and territory size;
  - competitor selection and competitor radii;
  - the interior and exterior rejection samplers;
  - the distance sort and greedy spacing filter;
  - radius assignment with its fallbacks;
  - assembly of the targeting document and its summary;
  - the merge of territory and location rows, the sorted state list and the clinic search filter.

All numbers are Dafny `real`s, so floating-point rounding, NaN and infinities are not modelled.
Three things the program obtains from outside become parameters:

- the Haversine distance is `dist(lat1, lon1, lat2, lon2)`;
- `Math.random` is a stream `rand: nat -> real`, with every draw in [0, 1);
- the reverse-geocoding lookup is an oracle `addr(lat, lng): Option<string>`.

The stream is read in a fixed order. Interior trial `t` uses draws `2t` (latitude) and
`2t + 1` (longitude). Exterior trial `t` uses draws `base + 3t` (side), `base + 3t + 1` and
`base + 3t + 2`, where `base` is twice the number of interior trials.

## Modules

| file | module | what it holds |
|---|---|---|
| wrappers.dfy | Wrappers | `Option` and `Result` |
| types.dfy | Types | positions, GeoJSON shapes, clinics and targeting locations |
| seqs.dfy | Seqs | subsequences (embeddings), filtering, a stable sort by key, sorted distinct values |
| decimal.dfy | Decimal | decimal rendering of naturals, for the numbered location names |
| geo.dfy | Geo | `estimateDriveTime` and `selectRadii` |
| raycast.dfy | RayCast | `isPointInPolygon` |
| simplify.dfy | Simplify | `perpendicularDistance`, `douglasPeucker` and `simplifyPolygon` |
| circles.dfy | Circles | `calculateExclusionCircles` |
| geojson.dfy | GeoJson | `getGeometry` and the choice of the outer ring |
| territory.dfy | Territory | the bounding box and the territory width, height and size |
| competitors.dfy | Competitors | competitor selection, radius tiers and competitor exclusions |
| sampling.dfy | Sampling | the two rejection samplers, the spacing filter and the top-10 cut |
| targeting.dfy | Targeting | radius assignment, location lists, the summary and the whole export |
| clinics.dfy | ClinicList | the territory/location merge, the state list and the search filter |

String fields of the clinic rows keep JavaScript's `undefined` and `null` apart (`Types.Text`),
because a template literal prints them differently in the name and address fallbacks. In the
numeric fields both are `None`, since `??` treats them alike.

Positions follow GeoJSON order: `Pos(x, y)` has x as longitude and y as latitude.

`perpendicularDistance` is modelled as the squared distance, and Douglas-Peucker compares it with
the squared tolerance. For a non-negative tolerance this keeps every decision of the source,
because the square root is strictly increasing on non-negative numbers.

## Model

| member | source | states |
|---|---|---|
| Geo.Speed | lib/geo-utils.ts:39-40 | The speed used for any metro type is strictly positive, so the division never fails. |
| Geo.EstimateDriveTime | lib/geo-utils.ts:38-42 | Minutes times the speed equals miles times 60. Urban, suburban and rural use 25, 35 and 45 mph; any other type uses 35 mph. A non-negative distance gives a non-negative time. |
| Geo.DriveTimeOrdering | lib/geo-utils.ts:38-42 | For the same non-negative distance, urban takes at least as long as suburban, and suburban at least as long as rural. An unknown type takes exactly as long as suburban. |
| Geo.DriveTimeMonotone | lib/geo-utils.ts:38-42 | A longer distance never gives a shorter drive time. |
| Geo.DriveTimeExamples | lib/geo-utils.ts:38-42 | 30 urban miles take 72 minutes; 30 miles of an unknown type take 360/7 minutes. |
| Geo.SelectRadii | lib/geo-utils.ts:185-190 | For a count of at least zero, exactly min(count, 10) radii come back. Radius i is entry i mod 3 of the size tier's three-value cycle, and every radius is positive. |
| Geo.SelectRadiiTiers | lib/geo-utils.ts:186-189 | The tiers use strict thresholds: below 20 gives 1, 3, 5; below 40 gives 3, 5, 10; below 60 gives 5, 10, 15; anything else gives 10, 15, 25. |
| Geo.SelectRadiiMonotone | lib/geo-utils.ts:185-190 | A larger territory never gets a smaller radius at the same position. |
| RayCast.ScanCountsCrossings | lib/geo-utils.ts:26-33 | Running the toggling loop from edge i flips the start value exactly when an odd number of the remaining edges cross the ray. |
| RayCast.PointInPolygon | lib/geo-utils.ts:24-35 | A point is inside exactly when an odd number of polygon edges cross the horizontal ray to its east (the even-odd rule). |
| RayCast.CrossesSymmetric | lib/geo-utils.ts:30-31 | The crossing test gives the same answer whichever end of the edge comes first. Its division is only evaluated when the two end latitudes differ. |
| RayCast.CrossingBetweenEnds | lib/geo-utils.ts:30-31 | Where an edge straddles the ray, the crossing x lies no further east than the edge's eastern end. |
| RayCast.FewVerticesOutside | lib/geo-utils.ts:24-35 | A polygon with fewer than three vertices contains no point. |
| RayCast.AboveAllOutside | lib/geo-utils.ts:24-35 | A point whose latitude is at least every vertex's latitude is outside. |
| RayCast.BelowAllOutside | lib/geo-utils.ts:24-35 | A point whose latitude is below every vertex's latitude is outside. |
| RayCast.EastOfAllOutside | lib/geo-utils.ts:24-35 | A point whose longitude is at least every vertex's longitude is outside. |
| RayCast.UnitSquareExample | lib/geo-utils.ts:24-35 | The centre of the unit square is inside it, and (5, 5) is outside it. |
| Simplify.PerpendicularDistance | lib/geo-utils.ts:45-81 | The (squared) distance is never negative, and it is zero when the point is the segment's start. |
| Simplify.NearestBeforeStart | lib/geo-utils.ts:63-69 | When the projection parameter is negative, the start point is at least as close as any point of the segment. |
| Simplify.NearestAfterEnd | lib/geo-utils.ts:63-72 | When the projection parameter exceeds 1, the end point is at least as close as any point of the segment. |
| Simplify.NearestAtFoot | lib/geo-utils.ts:63-76 | When the projection parameter is in [0, 1], the foot of the perpendicular is at least as close as any point of the segment. |
| Simplify.PerpendicularDistanceIsMinimal | lib/geo-utils.ts:45-81 | The result is no larger than the squared distance to any point of the segment, including a degenerate one. |
| Simplify.PerpendicularDistanceIsAttained | lib/geo-utils.ts:45-81 | Some point of the segment is at exactly the result, so the result is the segment's minimum distance. |
| Simplify.PerpendicularDistanceAtEnd | lib/geo-utils.ts:45-81 | The segment's end point is at distance zero. |
| Simplify.Farthest | lib/geo-utils.ts:87-98 | The result is at least every interior vertex's deviation. Either nothing beat the starting value and the starting index is kept, or the index is an interior vertex whose deviation is the result and strictly exceeds the starting value. In the second case every vertex scanned before that index deviates strictly less, so ties go to the first farthest vertex. |
| Simplify.Join | lib/geo-utils.ts:103 | Joining drops the shared middle vertex once, and keeps the left half's first and the right half's last point. |
| Simplify.Reduce | lib/geo-utils.ts:84-107 | For a tolerance of at least zero the recursion terminates. Inputs of at most two points keep their length. Longer inputs give between 2 and n points and keep the first and last. |
| Simplify.DouglasPeucker | lib/geo-utils.ts:84-107 | Inputs of at most two points come back unchanged. Otherwise the result has 2 to n points and starts and ends where the input does. |
| Simplify.ReduceIsSubsequence | lib/geo-utils.ts:84-107 | The result is an order-preserving subsequence of the input that keeps both ends. |
| Simplify.DouglasPeuckerIsSubsequence | lib/geo-utils.ts:84-107 | The simplified polygon is an order-preserving subsequence of the input that keeps both ends. |
| Simplify.ReduceKeepsEndsWhenNear | lib/geo-utils.ts:104-106 | When no interior vertex deviates more than the tolerance, only the two ends remain. |
| Simplify.ReduceSplitsWhenFar | lib/geo-utils.ts:100-103 | When some interior vertex deviates more than the tolerance, at least three points remain. |
| Simplify.ReduceSplitShape | lib/geo-utils.ts:100-103 | A split at the farthest vertex returns the left half's result, without its last point, followed by the right half's result. |
| Simplify.ReduceCollapses | lib/geo-utils.ts:100-106 | The result is exactly the two ends if and only if every interior deviation is within the tolerance. |
| Simplify.DouglasPeuckerCollapses | lib/geo-utils.ts:100-106 | A polygon collapses to its two ends if and only if every interior vertex is within the tolerance of the end-to-end chord. |
| Simplify.ChordVertexDropped | lib/geo-utils.ts:94-105 | A vertex lying on the chord between its neighbours is dropped, even at tolerance zero. |
| Simplify.SimplifyPolygon | lib/geo-utils.ts:110-130 | An input no longer than the target comes back unchanged, and no simplification runs. Otherwise: simplification runs 1 to 31 times; the final tolerance stays above 0.00008; and the result is Douglas-Peucker of the original input at that tolerance. The result is never longer than the input, has at least two points when the input does, and keeps both ends. |
| Circles.Step | lib/geo-utils.ts:164 | The stride is at least 1. It is 1 below 40 vertices and floor(n/20) from 40 on. |
| Circles.VisitedCount | lib/geo-utils.ts:166 | The number of visited indices times the stride is less than the remaining length plus one stride. |
| Circles.VisitedAtMost39 | lib/geo-utils.ts:164-166 | The loop visits at most 39 vertices, whatever the boundary's length. |
| Circles.CirclesFromShape | lib/geo-utils.ts:170-177 | The circles are numbered consecutively from the starting number. Each has radius 25 and unit "mile", sits on its vertex with latitude and longitude swapped, and is more than 5 miles from the centre. |
| Circles.CirclesFromCentres | lib/geo-utils.ts:166-179 | The circle centres are exactly the visited vertices farther than 5 miles from the centre, in order. |
| Circles.AllCircles | lib/geo-utils.ts:164-179 | From index 0 with the real stride: the centres are the far visited vertices in order, there are no more circles than visited vertices, and circle k is named "Boundary exclusion k+1". |
| Circles.CalculateExclusionCircles | lib/geo-utils.ts:145-182 | The loop's output: its centres are the visited vertices more than 5 miles away, in order. It has at most one circle per visited vertex. Circle k is "Boundary exclusion k+1", with radius 25 and unit "mile", on its vertex with the coordinates swapped. |
| GeoJson.GetGeometry | components/ClinicTerritoryManager.tsx:85-101 | A truthy JSON value that is not an object (a number, `true`, a doubly encoded string) makes the lookup throw, and nothing else does. A geometry is found only for parsed GeoJSON of a recognised shape. A bare geometry is returned as it is. |
| GeoJson.GetGeometryLastFeatureWins | components/ClinicTerritoryManager.tsx:90-92 | A collection yields its last feature's geometry. A null last entry, a last feature without a geometry, or an empty collection yields none. |
| GeoJson.GetGeometryOfFeature | components/ClinicTerritoryManager.tsx:87-100 | A feature yields its own geometry, possibly none. A bare geometry yields itself. Unparsable or unrecognised input yields none. A primitive throws. |
| GeoJson.OuterRing | components/ClinicTerritoryManager.tsx:492-494 | A ring is found exactly when a Polygon has a non-empty first ring, or a MultiPolygon has a non-empty first ring in its first polygon; that ring is returned. An empty ring, and any other shape, are told apart as two errors. |
| GeoJson.OuterRingIgnoresTheRest | components/ClinicTerritoryManager.tsx:492-494 | Holes and later polygons never change the ring used. |
| Territory.MinOf | components/ClinicTerritoryManager.tsx:498-500 | The minimum is at most every value and is one of them. |
| Territory.MaxOf | components/ClinicTerritoryManager.tsx:499-501 | The maximum is at least every value and is one of them. |
| Territory.BoundingBox | components/ClinicTerritoryManager.tsx:496-501 | Every ring vertex lies in the box, and each of its four sides touches some vertex. |
| Territory.BoundingBoxIsSmallest | components/ClinicTerritoryManager.tsx:496-501 | Any box holding all ring vertices contains the bounding box. |
| Territory.MeasureExtent | components/ClinicTerritoryManager.tsx:503-505 | The width is measured east-west along the centre latitude and the height north-south along the centre longitude. The size is the larger of the two. |
| Competitors.CompetitorRadius | components/ClinicTerritoryManager.tsx:534-538 | The radius is 5 exactly below 10 miles, 10 exactly in [10, 20), 15 exactly in [20, 30), and 25 exactly from 30 miles on. |
| Competitors.CompetitorRadiusMonotone | components/ClinicTerritoryManager.tsx:534-538 | A farther competitor never gets a smaller radius. |
| Competitors.LargestRadiusOnlyAtRuralLimit | components/ClinicTerritoryManager.tsx:528-538 | Because of the 40-minute cut, a competitor gets radius 25 only when the selected clinic is rural and the competitor is exactly 30 miles away. |
| Competitors.AddressOr | components/ClinicTerritoryManager.tsx:542 | A non-empty address found by the lookup is used; a missing or empty one falls back. |
| Competitors.CompetitorExclusion | components/ClinicTerritoryManager.tsx:540-549 | The exclusion is named "Competing Clinic: " plus the clinic's name and sits at the clinic's coordinates. Its radius is one of 5, 10, 15, 25 in miles. It records the distance from the selected clinic, the radius tier of that distance, and a drive time consistent with the selected clinic's speed. Its address is the looked-up one when that is non-empty, and otherwise the clinic's name, a comma and its state as a template literal prints it (`undefined` or `null` when missing). |
| Competitors.IsCompetitor | components/ClinicTerritoryManager.tsx:520-533 | A clinic competes exactly when its id differs from the selected clinic's under `===`, both coordinates are finite, and its distance times 60 is at most 40 minutes times the selected clinic's metro speed. |
| Competitors.Competing | components/ClinicTerritoryManager.tsx:520-531 | Every selected clinic passes the competitor test and is not the selected clinic itself. |
| Competitors.CompetingSelectsExactly | components/ClinicTerritoryManager.tsx:520-531 | The selection is an order-preserving subsequence of the clinic list. It holds a clinic's position exactly when that clinic is another clinic with finite coordinates within 40 minutes, at the selected clinic's metro-type speed. |
| Competitors.CompetitorExclusions | components/ClinicTerritoryManager.tsx:520-553 | There is one exclusion per competitor, in order, with its name and coordinates. Every exclusion is within 40 minutes of the selected clinic, and its radius is between 5 and 25. |
| Sampling.ScaleBounds | components/ClinicTerritoryManager.tsx:560-561 | A draw in [0, 1) scaled to [lo, hi] stays in [lo, hi]. |
| Sampling.RunSampler | components/ClinicTerritoryManager.tsx:559-567 | The rejection loop runs at most 1000 trials and keeps at most 10 points. It never loses an accepted point, accepts at most one point per trial, and stops before 1000 trials only once it holds 10 points. |
| Sampling.RunSamplerKeepsHits | components/ClinicTerritoryManager.tsx:563-566 | Every trial that passes the test, among those run, contributes its candidate. |
| Sampling.RunSamplerPointsSatisfy | components/ClinicTerritoryManager.tsx:563-566 | Every kept point satisfies whatever property every accepted candidate satisfies. |
| Sampling.InteriorCandidate | components/ClinicTerritoryManager.tsx:560-561 | Trial t's candidate uses draws 2t and 2t + 1. When both are in [0, 1) and the box is ordered, the candidate lies in the bounding box. |
| Sampling.InteriorCandidateInBox | components/ClinicTerritoryManager.tsx:560-561 | With draws in [0, 1), every interior candidate lies in the bounding box. |
| Sampling.SampleInterior | components/ClinicTerritoryManager.tsx:559-567 | The interior sampler runs at most 1000 trials and returns at most 10 points, never more than its trials. |
| Sampling.SampleInteriorPoints | components/ClinicTerritoryManager.tsx:559-567 | Every accepted interior point lies in the bounding box and passes the ray-casting test. Its sort key is its distance from the clinic. |
| Sampling.Spread | components/ClinicTerritoryManager.tsx:571-584 | The spacing filter never drops an already kept point and never holds more than 10 points. |
| Sampling.SpreadSpaced | components/ClinicTerritoryManager.tsx:576-581 | Every later kept point is at least the minimum gap away from every earlier kept point. |
| Sampling.SpreadIsSubsequence | components/ClinicTerritoryManager.tsx:572-584 | The newly kept points are an order-preserving subsequence of the candidates. |
| Sampling.SpreadCovers | components/ClinicTerritoryManager.tsx:572-584 | Unless the filter stopped at 10 points, every candidate was kept or is closer than the gap to a kept point. |
| Sampling.SpreadKeepsFirst | components/ClinicTerritoryManager.tsx:573-574 | The first candidate is always kept. |
| Sampling.DistributeInclusions | components/ClinicTerritoryManager.tsx:569-584 | The distributed inclusions number at most 10, and never more than the candidates. |
| Sampling.DistributeInclusionsKeepsClosest | components/ClinicTerritoryManager.tsx:569-574 | With any candidates at all, the first distributed point is the closest candidate to the clinic (the first after the sort). |
| Sampling.SpreadOfSorted | components/ClinicTerritoryManager.tsx:572-584 | Filtering a sorted list gives a sorted, spaced, order-preserving subsequence of it. |
| Sampling.DistributeInclusionsIsSortedSubsequence | components/ClinicTerritoryManager.tsx:569-584 | The distributed inclusions are an order-preserving subsequence of the candidates sorted by distance from the clinic. They are sorted, and pairwise at least 0.15 times the territory size apart. |
| Sampling.DistributeKeeps | components/ClinicTerritoryManager.tsx:569-584 | Sorting and spacing only choose among the candidates, so any property of all candidates holds of all distributed points. |
| Sampling.SideOf | components/ClinicTerritoryManager.tsx:592-603 | The side draw picks north exactly below 0.25, south in [0.25, 0.5), east in [0.5, 0.75), and west from 0.75. |
| Sampling.OverhangBounds | components/ClinicTerritoryManager.tsx:595-605 | The overhang beyond the box is between zero and 0.3 times the box's extent. |
| Sampling.ExteriorCandidate | components/ClinicTerritoryManager.tsx:592-606 | Trial t's side comes from draw base + 3t. When the next two draws are in [0, 1) and the box is ordered, the candidate lies in the band of that side. |
| Sampling.ExteriorCandidateInBand | components/ClinicTerritoryManager.tsx:592-606 | Every exterior candidate lies in the band its side draw chose: beyond that side of the box, by at most 0.3 of the box's extent, and within the box's span along that side. |
| Sampling.BandsMeetOnlyOnEdges | components/ClinicTerritoryManager.tsx:592-606 | A point in two different bands lies on an edge line of the box. |
| Sampling.BandsOverlapAtCorner | components/ClinicTerritoryManager.tsx:598-605 | The south and west bands share the box's south-west corner, so bands are not disjoint. |
| Sampling.NorthAndEastNeverInside | components/ClinicTerritoryManager.tsx:594-608 | A point in the north or east band always fails the ray-casting test. |
| Sampling.DistToRing | components/ClinicTerritoryManager.tsx:609-611 | The boundary distance is at most the distance to every ring vertex and equals the distance to one of them. |
| Sampling.SampleExterior | components/ClinicTerritoryManager.tsx:588-614 | The exterior sampler runs at most 1000 trials and returns at most 10 points, never more than its trials. |
| Sampling.SampleExteriorPoints | components/ClinicTerritoryManager.tsx:588-614 | Every accepted exterior point fails the ray-casting test and lies in one of the four bands. Its sort key is its distance to the nearest ring vertex. |
| Sampling.NorthAndEastTrialsKept | components/ClinicTerritoryManager.tsx:592-612 | Every trial run that drew north or east contributes its candidate. |
| Sampling.TopExclusions | components/ClinicTerritoryManager.tsx:616-617 | The top exclusions are sorted by boundary distance and number min(n, 10). They are drawn from the candidates, with multiplicity. No candidate left out is nearer the boundary than any kept one. |
| Sampling.TopExclusionsKeepsAll | components/ClinicTerritoryManager.tsx:616-617 | With at most 10 candidates, the top exclusions are a permutation of all of them. |
| Sampling.DistributedInside | components/ClinicTerritoryManager.tsx:559-584 | Every distributed inclusion lies in the bounding box and passes the ray-casting test. |
| Sampling.TopOutside | components/ClinicTerritoryManager.tsx:588-617 | Every top exclusion fails the ray-casting test and lies in one of the bands. |
| Seqs.Filter | components/ClinicTerritoryManager.tsx:824-827 | A filter keeps only elements that pass, keeps every element that passes, and adds nothing. |
| Seqs.FilterSelectsExactly | components/ClinicTerritoryManager.tsx:824-827 | A filter is an order-preserving subsequence holding exactly the positions whose elements pass. |
| Seqs.SortByKey | components/ClinicTerritoryManager.tsx:569 | Sorting by key gives a list sorted ascending by key that is a permutation of the input. |
| Seqs.SortedPrefixKeepsLeast | components/ClinicTerritoryManager.tsx:616-617 | A prefix of a sorted permutation of a list is sorted, is drawn from the list with multiplicity, and no element left out has a smaller key than any kept. |
| Seqs.InsertByKeyStable | components/ClinicTerritoryManager.tsx:569 | Inserting an element keeps it ahead of the elements with the same key, as if it had been put in front. |
| Seqs.SortByKeyStable | components/ClinicTerritoryManager.tsx:569 | The sort is stable: for every key, the elements with that key appear in their input order. |
| Seqs.SortedDistinct | components/ClinicTerritoryManager.tsx:698-699 | Deduplicating and sorting gives a strictly increasing list with exactly the input's values. |
| Decimal.Decimal | components/ClinicTerritoryManager.tsx:638 | A rendered number is a non-empty string of digits without a leading zero. |
| Decimal.ParseDecimalRoundTrip | components/ClinicTerritoryManager.tsx:638 | Reading a rendered number back gives the number. |
| Decimal.DecimalInjective | components/ClinicTerritoryManager.tsx:638 | Two numbers render alike if and only if they are equal. |
| Decimal.OrdinalNamesDistinct | components/ClinicTerritoryManager.tsx:663 | Names with one prefix and different numbers differ. |
| Targeting.CoverageStrategy | components/ClinicTerritoryManager.tsx:700-702 | The label is "Dense (small territory)" exactly below 20. It is "Medium coverage" exactly in [20, 40), "Wide coverage" exactly in [40, 60), and "Very wide coverage" exactly from 60 on. |
| Targeting.CoverageMatchesRadiusTier | components/ClinicTerritoryManager.tsx:700-702 | The coverage label and the radius table use the same size tier. |
| Targeting.RadiusOr | components/ClinicTerritoryManager.tsx:642 | A present, non-zero radius is used; a missing or zero radius falls back. |
| Targeting.RadiusFallbackUnreachable | components/ClinicTerritoryManager.tsx:642 | For at most 10 locations, the fallback never applies: location i gets radius i of the table. |
| Targeting.NumberedLocations | components/ClinicTerritoryManager.tsx:633-647 | There is one location per point, in order. Location i is named with the prefix and i+1, sits at point i, has radius i (or the fallback), and uses miles. Its address is the looked-up one when non-empty, else "Address not found". It records no distance and no drive time. |
| Targeting.NumberedNamesDistinct | components/ClinicTerritoryManager.tsx:638 | No two numbered locations share a name. |
| Targeting.RadiiUsed | components/ClinicTerritoryManager.tsx:698-699 | The radii-used list is strictly increasing. It holds a radius exactly when some location has it. |
| Targeting.InclusionsLayout | components/ClinicTerritoryManager.tsx:633-647 | Inclusion i is "Inclusion i+1" at distributed point i, with radius i of the size's radius table. |
| Targeting.ExclusionsLayout | components/ClinicTerritoryManager.tsx:658-674 | The exclusions are the competitor exclusions unchanged, followed by one "Boundary Exclusion j+1" per top point. Each sits at its point, with radius j of the size's table. |
| Targeting.ExclusionRadiiPositive | components/ClinicTerritoryManager.tsx:667-674 | When the competitor radii are positive, every exclusion radius is positive. |
| Targeting.Document | components/ClinicTerritoryManager.tsx:674-704 | The document carries the clinic's id and name, the given timestamp and the inclusion and exclusion lists. Each list of radii used is the sorted distinct radii of its list. Each total equals its list's length. Total exclusions are the competitor count plus the boundary count. The territory block holds the centre and the measured extent. The coverage label follows the size. |
| Targeting.FrameOf | components/ClinicTerritoryManager.tsx:496-501 | The sampling frame of a non-empty ring is well formed and keeps the ring and the centre. |
| Targeting.InclusionSamples | components/ClinicTerritoryManager.tsx:559-584 | At most 10 inclusion points are produced. |
| Targeting.BoundarySamples | components/ClinicTerritoryManager.tsx:588-617 | At most 10 boundary exclusion points are produced. |
| Targeting.Assemble | components/ClinicTerritoryManager.tsx:674-704 | The exported document carries the selected clinic's id and name and the given timestamp, and its centre is the clinic's position. |
| Targeting.AssembleSummary | components/ClinicTerritoryManager.tsx:676-704 | The exported document has the clinic's id and name and at most 10 inclusions. Total exclusions are the competitor count plus at most 10 boundary exclusions. The centre is the clinic's, and the size and coverage label come from the ring's bounding box. |
| Targeting.AssembleCompetitorsFirst | components/ClinicTerritoryManager.tsx:674 | The exclusion list starts with the competitor exclusions, in order. |
| Targeting.Export | components/ClinicTerritoryManager.tsx:475-724 | The export fails as unreadable exactly when the geometry lookup throws. It fails with "no boundary" exactly when the lookup finds no geometry. It fails on the shape exactly when a geometry is found but has no usable outer ring. Otherwise it produces the document assembled from that ring. |
| Targeting.InclusionSamplesInside | components/ClinicTerritoryManager.tsx:559-584 | Every inclusion point is in the bounding box and inside the territory. |
| Targeting.BoundarySamplesOutside | components/ClinicTerritoryManager.tsx:588-617 | Every boundary exclusion point is outside the territory and in one of the bands. |
| Targeting.InclusionsAtInteriorPoints | components/ClinicTerritoryManager.tsx:633-647 | Inclusions built from interior points all lie inside the territory and its box. |
| Targeting.ExclusionsAtExteriorPoints | components/ClinicTerritoryManager.tsx:658-674 | The boundary exclusions built from exterior points all lie outside the territory, in a band. |
| Targeting.InclusionsInsideTerritory | components/ClinicTerritoryManager.tsx:559-647 | Every inclusion of the exported document passes the ray-casting test on the ring and lies in its bounding box. |
| Targeting.BoundaryExclusionsOutsideTerritory | components/ClinicTerritoryManager.tsx:588-674 | Every exclusion after the competitors fails the ray-casting test on the ring and lies in a band around its box. |
| Targeting.InclusionsRadiusPositive | components/ClinicTerritoryManager.tsx:619-647 | Every inclusion of the exported document has a positive radius. |
| Targeting.ExclusionsRadiusPositive | components/ClinicTerritoryManager.tsx:534-674 | Every exclusion of the exported document, competitor or boundary, has a positive radius. |
| ClinicList.Or | components/ClinicTerritoryManager.tsx:300-303 | A present, non-empty value wins; otherwise the alternative is used, as with `\|\|`. |
| ClinicList.Coalesce | components/ClinicTerritoryManager.tsx:304-305 | A present value wins, even an empty one; only a missing one falls through, as with `??`. |
| ClinicList.IndexById | components/ClinicTerritoryManager.tsx:289-293 | The index has a key exactly when some location row carries that non-empty id. |
| ClinicList.IndexByIdLastWins | components/ClinicTerritoryManager.tsx:290-293 | A key maps to the last location row with that id. |
| ClinicList.Match | components/ClinicTerritoryManager.tsx:296-297 | A territory finds a location exactly when its id is non-empty and indexed; the location is the indexed row. |
| ClinicList.MergeOne | components/ClinicTerritoryManager.tsx:294-310 | The clinic keeps the territory's id and geometry, and its latitude and longitude when present. Its name is the territory's when non-empty, else the matched location's when non-empty, else "Clinic " plus the id as printed. Its metro type defaults to "unknown". With a matched location: state and city fall back from the territory to the location; the address prefers the location's `Address`, then `address`, then the territory's; each missing coordinate comes from the location's upper-case column, then its lower-case one. Without a location every field comes from the territory alone, with a falsy state or city becoming `undefined`. |
| ClinicList.NameFallbackShowsMissingId | components/ClinicTerritoryManager.tsx:295-300 | A territory with no name and no `clinic_id` is called "Clinic null" when its `ClinicID` is null and "Clinic undefined" when that is missing. |
| ClinicList.Merge | components/ClinicTerritoryManager.tsx:295-309 | The merge gives one clinic per territory row, in order, each merged against the index of all location rows. |
| ClinicList.MergeNameFromLastLocation | components/ClinicTerritoryManager.tsx:289-300 | A territory without a name takes the name of the last location row sharing its id. |
| ClinicList.MergeWithoutLocation | components/ClinicTerritoryManager.tsx:295-305 | A territory no location row matches keeps its own state, with a falsy one becoming `undefined`, and its own coordinates. |
| ClinicList.LexLessIsStrictTotalOrder | components/ClinicTerritoryManager.tsx:314 | The string order used for sorting states is a strict total order. |
| ClinicList.PresentStates | components/ClinicTerritoryManager.tsx:313 | The kept states are exactly the clinics' non-empty states. |
| ClinicList.UniqueStates | components/ClinicTerritoryManager.tsx:313-314 | The state list is strictly increasing in string order. It holds exactly the non-empty states some clinic has. |
| ClinicList.UniqueStatesDistinct | components/ClinicTerritoryManager.tsx:313 | The state list has no duplicates. |
| ClinicList.CodePointOrderExample | components/ClinicTerritoryManager.tsx:314 | The model's state order puts U+FF21 before U+1F600, the case where it departs from the UTF-16 order of the default sort. |
| ClinicList.LowerChar | components/ClinicTerritoryManager.tsx:825 | Upper-case ASCII letters become lower case; other characters are unchanged. No upper-case letter remains. |
| ClinicList.Lower | components/ClinicTerritoryManager.tsx:825 | Lower-casing keeps the length and lower-cases each character. |
| ClinicList.LowerIdempotent | components/ClinicTerritoryManager.tsx:825 | Lower-casing twice is the same as lower-casing once. |
| ClinicList.Includes | components/ClinicTerritoryManager.tsx:825-826 | A string includes another exactly when the other occurs in it at some position. |
| ClinicList.IncludesEmpty | components/ClinicTerritoryManager.tsx:825-826 | Every string includes the empty string. |
| ClinicList.SearchFilter | components/ClinicTerritoryManager.tsx:824-827 | Every clinic shown matches the search: by name ignoring case, or by id. |
| ClinicList.SearchSelectsExactly | components/ClinicTerritoryManager.tsx:824-827 | The shown clinics are an order-preserving subsequence of the list, holding exactly the clinics that match. |
| ClinicList.EmptySearchShowsAll | components/ClinicTerritoryManager.tsx:824-827 | An empty search shows every clinic, in order. |
| ClinicList.NameMatchIgnoresCase | components/ClinicTerritoryManager.tsx:825 | The name match does not change when the search term is lower-cased first. |

## Left out

- Haversine `calculateDistance` (`lib/geo-utils.ts:11-21`) uses trigonometry and a square root. It is the parameter `dist`, and no property of it is assumed.
- `Math.random` is the stream parameter `rand`. Its distribution is not modelled; only that each draw is in [0, 1).
- The reverse-geocoding fetch `getAddress` and the 100 ms pauses between lookups are network I/O and timing. They are the oracle `addr`, and the pauses are dropped.
- Supabase fetches, saving and overlap analysis are remote I/O. So are the map, the drawing control, React state, status strings, alerts, the JSON download and the JSX.
- `generateColor` and `parseJSON` are left out. `raw_geojson` is taken as already parsed (`Option<RawGeoJson>`). `None` stands for text that does not parse and for a falsy parsed value; a truthy non-object value is `Primitive`.
- Competitors.CompetitorExclusion: the distance and drive time are stored unrounded. The source rounds them to one decimal and to whole minutes, and floating-point formatting is not modelled.
- Targeting.Document: the territory width, height and size are stored unrounded. The source rounds them to one decimal.
- The `generated_at` timestamp is wall-clock time, so it is the parameter `generatedAt`.
- Floating point is replaced by exact reals. NaN, infinities and non-finite coordinates are not modelled. A clinic's coordinates are `None` when they do not convert to a finite number.
- Targeting.Export: requires the selected clinic's coordinates to be finite numbers. With non-finite ones the source computes with NaN, which is not modelled.
- GeoJson.OuterRing: an empty outer ring is reported as the error `EmptyRing`, and the model stops there. The source goes on. Its bounds become plus and minus infinity. No interior candidate passes the ray test and every exterior candidate does, so it emits ten "Boundary Exclusion" locations at NaN or infinite coordinates, each with an infinite boundary distance. The NaN territory size then selects the last radius tier and the "Very wide coverage" label. NaN and infinities are not modelled. A geometry whose coordinates do not nest as a polygon's makes the source throw and catch a TypeError; the model reports it as `Malformed`.
- Simplify.SimplifyPolygon: the target is an integer point count. The source accepts any number, and a fractional target can change the `length < target * 0.8` test. The component never calls the function.
- Simplify.Reduce: requires a non-negative tolerance, because with a negative one collinear points recurse forever. Every tolerance `simplifyPolygon` uses is positive.
- Simplify.PerpendicularDistance: returns the squared distance, and Douglas-Peucker compares it with the squared tolerance. This makes the same decisions as the source's square root.
- Geo.SelectRadii: requires a count of at least zero, since a negative slice end would return a prefix. Every caller passes a list length.
- Geo.Speed: metro types are plain strings. JavaScript's inherited object keys (such as `"constructor"`) are not modelled.
- Holes and all polygons after the first are ignored by the source, so they are not part of the model's territory.
- ClinicList.LowerChar, ClinicList.Lower: lower-casing covers ASCII letters only, while `toLowerCase` also folds letters of other scripts.
- ClinicList.UniqueStates, ClinicList.LexLess: states are sorted in code-point order, while the default `sort()` compares UTF-16 code units. The two orders agree except when, at the first differing position, one character lies above U+FFFF and the other in U+E000 to U+FFFF. For "\u{FF21}" against "\u{1F600}", code-point order puts U+FF21 first (`ClinicList.CodePointOrderExample`), and JavaScript puts the emoji first, since its leading code unit 0xD83D is below 0xFF21.
- The export's early return when no clinic is selected is UI glue. The model always receives a selected clinic.
- `parseFloat(String(...))` on latitude and longitude is not modelled: coordinates arrive as `Option<real>`.

## Behaviour of the code worth knowing

Four behaviours of the code are easy to misread. The model follows the code in each.

- `simplifyPolygon` shares the `iterations < 30` bound between both loops. Douglas-Peucker therefore runs at most 31 times, counting the first call, and not 51.
- A tolerance of zero still drops vertices lying exactly on a chord (`Simplify.ChordVertexDropped`). This is because the test is `maxDist > tolerance`.
- The four exterior bands overlap at the box's corners (`Sampling.BandsOverlapAtCorner`), so a candidate can be in two bands.
- A north or east exterior candidate can never pass the ray-casting test (`Sampling.NorthAndEastNeverInside`). A north point is at or above every vertex, and an east point is at or east of every vertex, so no edge crossing lies to its east.

=== FILE: circles.dfy ===
/** `calculateExclusionCircles`: strided sampling of boundary vertices, each
    far vertex becoming a 25-mile exclusion circle. */
module Circles {
  import opened Types
  import opened Geo
  import Decimal
  import Seqs

  /** One circle of the result; the source's record has exactly these fields. */
  datatype Circle = Circle(name: string, latitude: real, longitude: real, radius: int, distanceUnit: string)

  /** `Math.max(1, Math.floor(n / 20))`: about twenty vertices are visited. */
  function Step(n: nat): (step: nat)
    ensures step >= 1
    ensures n < 40 ==> step == 1
    ensures n >= 40 ==> step == n / 20
  {
    if n / 20 > 1 then n / 20 else 1
  }

  /** The vertices at indices `i, i + step, i + 2 * step, ...` below `|coords|`. */
  function Visited(coords: seq<Pos>, step: nat, i: nat): (vs: seq<Pos>)
    requires step >= 1
    decreases |coords| - i
  {
    if i >= |coords| then [] else [coords[i]] + Visited(coords, step, i + step)
  }

  /** The stride covers the list: one visit per `step` vertices, rounded up. */
  lemma {:induction false} VisitedCount(coords: seq<Pos>, step: nat, i: nat)
    requires step >= 1 && i <= |coords|
    decreases |coords| - i
    ensures |Visited(coords, step, i)| * step < |coords| - i + step
  {
    if i < |coords| {
      var v := |Visited(coords, step, i + step)|;
      assert |Visited(coords, step, i)| == v + 1;
      if i + step < |coords| {
        VisitedCount(coords, step, i + step);
      } else {
        assert v == 0;
      }
      MulSucc(v, step);
    }
  }

  lemma MulSucc(v: int, step: int)
    ensures (v + 1) * step == v * step + step
  {
  }

  /** However long the ring, at most 39 vertices are visited. */
  lemma VisitedAtMost39(coords: seq<Pos>)
    ensures |Visited(coords, Step(|coords|), 0)| <= 39
  {
    var n, step := |coords|, Step(|coords|);
    var v := |Visited(coords, step, 0)|;
    VisitedCount(coords, step, 0);
    if n >= 40 {
      assert n < 20 * step + 20;
      assert v * step < 31 * step;
      if v >= 31 {
        MulMonotone(31, v, step);
      }
    }
  }

  lemma MulMonotone(a: int, b: int, c: int)
    requires a <= b && c >= 0
    ensures a * c <= b * c
  {
  }

  /** The vertices more than five miles from the centre, as a filter predicate. */
  function FarFromCentre(centerLat: real, centerLng: real, dist: DistFn): Pos -> bool
  {
    (p: Pos) => dist(centerLat, centerLng, p.y, p.x) > 5.0
  }

  /** `Boundary exclusion ${k}`. */
  function CircleName(k: nat): string
  {
    "Boundary exclusion " + Decimal.Decimal(k)
  }

  /** The circle for vertex `p` (`[lon, lat]`), the `k`-th emitted. */
  function CircleAt(p: Pos, k: nat): (c: Circle)
    ensures c.latitude == p.y && c.longitude == p.x
  {
    Circle(CircleName(k), p.y, p.x, 25, "mile")
  }

  /** The circles' centres as positions, `[longitude, latitude]` again. */
  function Centres(circles: seq<Circle>): (ps: seq<Pos>)
    ensures |ps| == |circles|
    ensures forall k :: 0 <= k < |ps| ==> ps[k] == Pos(circles[k].longitude, circles[k].latitude)
  {
    seq(|circles|, k requires 0 <= k < |circles| => Pos(circles[k].longitude, circles[k].latitude))
  }

  /** The circles emitted from index `i` on, numbering from `k`: the loop as a recursion. */
  function CirclesFrom(coords: seq<Pos>, step: nat, i: nat, k: nat, centerLat: real, centerLng: real, dist: DistFn)
    : seq<Circle>
    requires step >= 1
    decreases |coords| - i
  {
    if i >= |coords| then []
    else
      var p := coords[i];
      if dist(centerLat, centerLng, p.y, p.x) > 5.0 then
        [CircleAt(p, k)] + CirclesFrom(coords, step, i + step, k + 1, centerLat, centerLng, dist)
      else
        CirclesFrom(coords, step, i + step, k, centerLat, centerLng, dist)
  }

  /** Circle number `k`: its name, a 25-mile radius, and a centre more than five miles out. */
  predicate CircleShape(c: Circle, k: nat, centerLat: real, centerLng: real, dist: DistFn)
  {
    && c.name == CircleName(k)
    && c.radius == 25 && c.distanceUnit == "mile"
    && dist(centerLat, centerLng, c.latitude, c.longitude) > 5.0
  }

  /** Names run on from `k` without gaps; every circle is a 25-mile circle
      more than five miles from the centre. */
  lemma {:induction false} CirclesFromShape(coords: seq<Pos>, step: nat, i: nat, k: nat,
                                            centerLat: real, centerLng: real, dist: DistFn)
    requires step >= 1
    decreases |coords| - i
    ensures forall j :: 0 <= j < |CirclesFrom(coords, step, i, k, centerLat, centerLng, dist)| ==>
              CircleShape(CirclesFrom(coords, step, i, k, centerLat, centerLng, dist)[j], k + j, centerLat, centerLng, dist)
  {
    if i < |coords| {
      var p := coords[i];
      if dist(centerLat, centerLng, p.y, p.x) > 5.0 {
        var later := CirclesFrom(coords, step, i + step, k + 1, centerLat, centerLng, dist);
        CirclesFromShape(coords, step, i + step, k + 1, centerLat, centerLng, dist);
        var cs := [CircleAt(p, k)] + later;
        assert CirclesFrom(coords, step, i, k, centerLat, centerLng, dist) == cs;
        forall j | 0 <= j < |cs|
          ensures CircleShape(cs[j], k + j, centerLat, centerLng, dist)
        {
          if j > 0 {
            assert cs[j] == later[j - 1];
          }
        }
      } else {
        CirclesFromShape(coords, step, i + step, k, centerLat, centerLng, dist);
      }
    }
  }

  lemma CentresCons(c: Circle, later: seq<Circle>)
    ensures Centres([c] + later) == [Pos(c.longitude, c.latitude)] + Centres(later)
  {
    var lhs, rhs := Centres([c] + later), [Pos(c.longitude, c.latitude)] + Centres(later);
    assert |lhs| == |rhs|;
    forall k | 0 <= k < |lhs|
      ensures lhs[k] == rhs[k]
    {
      if k > 0 {
        assert ([c] + later)[k] == later[k - 1];
      }
    }
  }

  /** The circles from index `i` on are centred on exactly the visited vertices
      far from the centre, in order. */
  ghost predicate CentresMatch(coords: seq<Pos>, step: nat, i: nat, k: nat, centerLat: real, centerLng: real, dist: DistFn)
    requires step >= 1
  {
    Centres(CirclesFrom(coords, step, i, k, centerLat, centerLng, dist))
    == Seqs.Filter(Visited(coords, step, i), FarFromCentre(centerLat, centerLng, dist))
  }

  /** One step of `CirclesFromCentres`: vertex `i` is far and becomes circle `k`. */
  lemma CentresFarStep(coords: seq<Pos>, step: nat, i: nat, k: nat, centerLat: real, centerLng: real, dist: DistFn)
    requires step >= 1 && i < |coords|
    requires dist(centerLat, centerLng, coords[i].y, coords[i].x) > 5.0
    requires CentresMatch(coords, step, i + step, k + 1, centerLat, centerLng, dist)
    ensures CentresMatch(coords, step, i, k, centerLat, centerLng, dist)
  {
    var far := FarFromCentre(centerLat, centerLng, dist);
    var p := coords[i];
    var rest := Visited(coords, step, i + step);
    var later := CirclesFrom(coords, step, i + step, k + 1, centerLat, centerLng, dist);
    Seqs.FilterCons(p, rest, far);
    CentresCons(CircleAt(p, k), later);
    calc {
      Centres(CirclesFrom(coords, step, i, k, centerLat, centerLng, dist));
      Centres([CircleAt(p, k)] + later);
      [p] + Centres(later);
      [p] + Seqs.Filter(rest, far);
      Seqs.Filter([p] + rest, far);
      Seqs.Filter(Visited(coords, step, i), far);
    }
  }

  /** One step of `CirclesFromCentres`: vertex `i` is near and is skipped. */
  lemma CentresNearStep(coords: seq<Pos>, step: nat, i: nat, k: nat, centerLat: real, centerLng: real, dist: DistFn)
    requires step >= 1 && i < |coords|
    requires dist(centerLat, centerLng, coords[i].y, coords[i].x) <= 5.0
    requires CentresMatch(coords, step, i + step, k, centerLat, centerLng, dist)
    ensures CentresMatch(coords, step, i, k, centerLat, centerLng, dist)
  {
    var far := FarFromCentre(centerLat, centerLng, dist);
    var rest := Visited(coords, step, i + step);
    Seqs.FilterCons(coords[i], rest, far);
    assert Visited(coords, step, i) == [coords[i]] + rest;
  }

  /** Past the last vertex there are no circles and no visits. */
  lemma CentresAtEnd(coords: seq<Pos>, step: nat, i: nat, k: nat, centerLat: real, centerLng: real, dist: DistFn)
    requires step >= 1 && i >= |coords|
    ensures CentresMatch(coords, step, i, k, centerLat, centerLng, dist)
  {
    assert CirclesFrom(coords, step, i, k, centerLat, centerLng, dist) == [];
    assert Visited(coords, step, i) == [];
    assert Centres([]) == [];
  }

  /** The centres are exactly the visited vertices far from the centre, in order. */
  lemma {:induction false} CirclesFromCentres(coords: seq<Pos>, step: nat, i: nat, k: nat,
                                              centerLat: real, centerLng: real, dist: DistFn)
    requires step >= 1
    decreases |coords| - i
    ensures CentresMatch(coords, step, i, k, centerLat, centerLng, dist)
  {
    if i >= |coords| {
      CentresAtEnd(coords, step, i, k, centerLat, centerLng, dist);
    } else if dist(centerLat, centerLng, coords[i].y, coords[i].x) > 5.0 {
      CirclesFromCentres(coords, step, i + step, k + 1, centerLat, centerLng, dist);
      CentresFarStep(coords, step, i, k, centerLat, centerLng, dist);
    } else {
      CirclesFromCentres(coords, step, i + step, k, centerLat, centerLng, dist);
      CentresNearStep(coords, step, i, k, centerLat, centerLng, dist);
    }
  }

  /** The loop's invariant: the circles emitted so far, followed by those the
      rest of the walk emits from vertex `i`, are all the circles. */
  ghost predicate Emitted(circles: seq<Circle>, coords: seq<Pos>, step: nat, i: nat,
                          centerLat: real, centerLng: real, dist: DistFn, all: seq<Circle>)
    requires step >= 1
  {
    circles + CirclesFrom(coords, step, i, |circles| + 1, centerLat, centerLng, dist) == all
  }

  /** A far vertex is emitted as the next circle. */
  lemma EmitFar(circles: seq<Circle>, coords: seq<Pos>, step: nat, i: nat,
                centerLat: real, centerLng: real, dist: DistFn, all: seq<Circle>)
    requires step >= 1 && i < |coords|
    requires dist(centerLat, centerLng, coords[i].y, coords[i].x) > 5.0
    requires Emitted(circles, coords, step, i, centerLat, centerLng, dist, all)
    ensures Emitted(circles + [CircleAt(coords[i], |circles| + 1)], coords, step, i + step, centerLat, centerLng, dist, all)
  {
    var circle := CircleAt(coords[i], |circles| + 1);
    var rest := CirclesFrom(coords, step, i + step, |circles| + 2, centerLat, centerLng, dist);
    assert CirclesFrom(coords, step, i, |circles| + 1, centerLat, centerLng, dist) == [circle] + rest;
    assert circles + ([circle] + rest) == (circles + [circle]) + rest;
  }

  /** A near vertex is skipped. */
  lemma SkipNear(circles: seq<Circle>, coords: seq<Pos>, step: nat, i: nat,
                 centerLat: real, centerLng: real, dist: DistFn, all: seq<Circle>)
    requires step >= 1 && i < |coords|
    requires dist(centerLat, centerLng, coords[i].y, coords[i].x) <= 5.0
    requires Emitted(circles, coords, step, i, centerLat, centerLng, dist, all)
    ensures Emitted(circles, coords, step, i + step, centerLat, centerLng, dist, all)
  {
    assert CirclesFrom(coords, step, i, |circles| + 1, centerLat, centerLng, dist)
           == CirclesFrom(coords, step, i + step, |circles| + 1, centerLat, centerLng, dist);
  }

  /** The whole recursion from vertex 0, numbering from 1: the circles sit on
      the visited far vertices in order, each a 25-mile circle named by its
      position. */
  lemma AllCircles(coords: seq<Pos>, centerLat: real, centerLng: real, dist: DistFn)
    ensures var circles := CirclesFrom(coords, Step(|coords|), 0, 1, centerLat, centerLng, dist);
            && Centres(circles) == Seqs.Filter(Visited(coords, Step(|coords|), 0), FarFromCentre(centerLat, centerLng, dist))
            && |circles| <= |Visited(coords, Step(|coords|), 0)|
            && forall k :: 0 <= k < |circles| ==> CircleShape(circles[k], k + 1, centerLat, centerLng, dist)
  {
    CirclesFromShape(coords, Step(|coords|), 0, 1, centerLat, centerLng, dist);
    CirclesFromCentres(coords, Step(|coords|), 0, 1, centerLat, centerLng, dist);
  }

  method CalculateExclusionCircles(coords: seq<Pos>, centerLat: real, centerLng: real, dist: DistFn)
    returns (circles: seq<Circle>)
    ensures Centres(circles) == Seqs.Filter(Visited(coords, Step(|coords|), 0), FarFromCentre(centerLat, centerLng, dist))
    ensures |circles| <= |Visited(coords, Step(|coords|), 0)|
    ensures forall k :: 0 <= k < |circles| ==> CircleShape(circles[k], k + 1, centerLat, centerLng, dist)
  {
    var step := if |coords| / 20 > 1 then |coords| / 20 else 1;
    assert step == Step(|coords|);
    ghost var all := CirclesFrom(coords, step, 0, 1, centerLat, centerLng, dist);
    circles := [];
    var i: nat := 0;
    while i < |coords|
      invariant Emitted(circles, coords, step, i, centerLat, centerLng, dist, all)
      decreases |coords| - i
    {
      var lon, lat := coords[i].x, coords[i].y;
      var distFromCenter := dist(centerLat, centerLng, lat, lon);
      if distFromCenter > 5.0 {
        EmitFar(circles, coords, step, i, centerLat, centerLng, dist, all);
        circles := circles + [CircleAt(coords[i], |circles| + 1)];
      } else {
        SkipNear(circles, coords, step, i, centerLat, centerLng, dist, all);
      }
      i := i + step;
    }
    assert CirclesFrom(coords, step, i, |circles| + 1, centerLat, centerLng, dist) == [];
    assert circles + [] == circles;
    AllCircles(coords, centerLat, centerLng, dist);
  }
}

=== FILE: clinics.dfy ===
/** The clinic list: the merge of territory rows with geocoded location rows
    (`loadClinics`), the sorted list of states, and the sidebar search filter. */
module ClinicList {
  import opened Wrappers
  import opened Types
  import Seqs

  // ---------------------------------------------------------------------------
  // JavaScript's `||` and `??`

  /** `a || b` on string fields: a non-empty string wins, anything else
      (`undefined`, `null`, `""`) gives `b`. */
  function Or(a: Text, b: Text): (r: Text)
    ensures Truthy(a) ==> r == a
    ensures !Truthy(a) ==> r == b
  {
    if Truthy(a) then a else b
  }

  /** `a ?? b` on numeric fields: only a missing or null value falls through. */
  function Coalesce<T>(a: Option<T>, b: Option<T>): (r: Option<T>)
    ensures a.Some? ==> r == a
    ensures a.None? ==> r == b
  {
    if a.Some? then a else b
  }

  // ---------------------------------------------------------------------------
  // Rows as fetched

  /** A `clinic_territories` row; a numeric `None` is a missing or null column. */
  datatype TerritoryRow = TerritoryRow(
    clinicId: Text,                 // clinic_id
    clinicIdAlt: Text,              // ClinicID
    clinicName: Text,
    state: Text,
    city: Text,
    address: Text,
    latitude: Option<real>,
    longitude: Option<real>,
    rawGeojson: Option<RawGeoJson>,
    metroType: Text)

  /** A geocoded location row, with both spellings of the columns the merge reads. */
  datatype LocationRow = LocationRow(
    clinicIdAlt: Text,              // ClinicID
    clinicId: Text,                 // clinic_id
    name: Text,                     // Name
    state: Text,                    // State
    cityUpper: Text,                // City
    city: Text,                     // city
    addressUpper: Text,             // Address
    address: Text,                  // address
    latitudeUpper: Option<real>,    // Latitude
    latitude: Option<real>,         // latitude
    longitudeUpper: Option<real>,   // Longitude
    longitude: Option<real>)        // longitude

  /** `loc.ClinicID || loc.clinic_id`. */
  function LocationId(l: LocationRow): Text
  {
    Or(l.clinicIdAlt, l.clinicId)
  }

  // ---------------------------------------------------------------------------
  // The `locById` index

  /** `locations.forEach(loc => { if (id) locById[id] = loc })`: a later row with the same id overwrites. */
  function IndexById(locations: seq<LocationRow>): (index: map<string, LocationRow>)
    ensures forall k :: k in index <==>
              exists i :: 0 <= i < |locations| && Truthy(LocationId(locations[i])) && LocationId(locations[i]).value == k
  {
    if |locations| == 0 then map[]
    else
      var rest := locations[..|locations| - 1];
      var l := locations[|locations| - 1];
      var index := IndexById(rest);
      assert forall i :: 0 <= i < |rest| ==> rest[i] == locations[i];
      if Truthy(LocationId(l)) then index[LocationId(l).value := l] else index
  }

  /** The index holds, for every id, the LAST row carrying it. */
  lemma {:induction false} IndexByIdLastWins(locations: seq<LocationRow>, i: nat)
    requires i < |locations| && Truthy(LocationId(locations[i]))
    requires forall j :: i < j < |locations| ==> LocationId(locations[j]) != LocationId(locations[i])
    ensures LocationId(locations[i]).value in IndexById(locations)
    ensures IndexById(locations)[LocationId(locations[i]).value] == locations[i]
    decreases |locations|
  {
    if i < |locations| - 1 {
      var rest := locations[..|locations| - 1];
      assert rest[i] == locations[i];
      IndexByIdLastWins(rest, i);
    }
  }

  // ---------------------------------------------------------------------------
  // The merge

  /** `loc?.field` for a string column: `undefined` without a location. */
  function LocText(loc: Option<LocationRow>, field: LocationRow -> Text): Text
  {
    if loc.Some? then field(loc.value) else Undefined
  }

  /** `loc?.field` for a numeric column. */
  function LocNumber(loc: Option<LocationRow>, field: LocationRow -> Option<real>): Option<real>
  {
    if loc.Some? then field(loc.value) else None
  }

  /** The id a territory row is merged under: `t.clinic_id || t.ClinicID`. */
  function TerritoryId(t: TerritoryRow): Text
  {
    Or(t.clinicId, t.clinicIdAlt)
  }

  /** The location row a territory row is joined with, if its id is truthy and indexed. */
  function Match(t: TerritoryRow, index: map<string, LocationRow>): (loc: Option<LocationRow>)
    ensures loc.Some? <==> Truthy(TerritoryId(t)) && TerritoryId(t).value in index
    ensures loc.Some? ==> loc.value == index[TerritoryId(t).value]
  {
    var id := TerritoryId(t);
    if Truthy(id) && id.value in index then Some(index[id.value]) else None
  }

  /** One merged clinic: territory columns first, location columns as fallback
      (the address prefers the location's). */
  function MergeOne(t: TerritoryRow, index: map<string, LocationRow>): (c: Clinic)
    ensures c.clinicId == TerritoryId(t)
    ensures Truthy(t.clinicName) ==> c.clinicName == t.clinicName.value
    ensures !Truthy(t.clinicName) && Match(t, index).Some? && Truthy(Match(t, index).value.name) ==>
              c.clinicName == Match(t, index).value.name.value
    ensures !Truthy(t.clinicName) && (Match(t, index).None? || !Truthy(Match(t, index).value.name)) ==>
              c.clinicName == "Clinic " + Show(TerritoryId(t))
    ensures c.metroType == (if Truthy(t.metroType) then t.metroType.value else "unknown")
    ensures c.rawGeojson == t.rawGeojson
    ensures t.latitude.Some? ==> c.latitude == t.latitude
    ensures t.longitude.Some? ==> c.longitude == t.longitude
    ensures Match(t, index).Some? ==>
              var l := Match(t, index).value;
              && c.state == (if Truthy(t.state) then t.state else l.state)
              && c.city == (if Truthy(t.city) then t.city else if Truthy(l.cityUpper) then l.cityUpper else l.city)
              && c.address == (if Truthy(l.addressUpper) then l.addressUpper else if Truthy(l.address) then l.address else t.address)
              && (t.latitude.None? ==> c.latitude == (if l.latitudeUpper.Some? then l.latitudeUpper else l.latitude))
              && (t.longitude.None? ==> c.longitude == (if l.longitudeUpper.Some? then l.longitudeUpper else l.longitude))
    ensures Match(t, index).None? ==>
              && c.state == (if Truthy(t.state) then t.state else Undefined)
              && c.city == (if Truthy(t.city) then t.city else Undefined)
              && c.address == t.address
              && c.latitude == t.latitude && c.longitude == t.longitude
  {
    var id := TerritoryId(t);
    var loc := Match(t, index);
    var name := Or(Or(t.clinicName, LocText(loc, (l: LocationRow) => l.name)), Str("Clinic " + Show(id)));
    Clinic(
      id,
      name.value,
      Or(t.state, LocText(loc, (l: LocationRow) => l.state)),
      Or(Or(t.city, LocText(loc, (l: LocationRow) => l.cityUpper)), LocText(loc, (l: LocationRow) => l.city)),
      Or(Or(LocText(loc, (l: LocationRow) => l.addressUpper), LocText(loc, (l: LocationRow) => l.address)), t.address),
      Coalesce(Coalesce(t.latitude, LocNumber(loc, (l: LocationRow) => l.latitudeUpper)), LocNumber(loc, (l: LocationRow) => l.latitude)),
      Coalesce(Coalesce(t.longitude, LocNumber(loc, (l: LocationRow) => l.longitudeUpper)), LocNumber(loc, (l: LocationRow) => l.longitude)),
      t.rawGeojson,
      if Truthy(t.metroType) then t.metroType.value else "unknown")
  }

  /** Missing and null ids print differently in the name fallback: a territory
      with neither name nor `clinic_id`, whose `ClinicID` is null, is called
      `Clinic null`; with `ClinicID` missing too, `Clinic undefined`. */
  lemma NameFallbackShowsMissingId(t: TerritoryRow, index: map<string, LocationRow>)
    requires !Truthy(t.clinicName) && !Truthy(t.clinicId)
    ensures t.clinicIdAlt == Null ==> MergeOne(t, index).clinicName == "Clinic null"
    ensures t.clinicIdAlt == Undefined ==> MergeOne(t, index).clinicName == "Clinic undefined"
  {
  }

  /** `territories.map(...)`: one clinic per territory row, in order. */
  function Merge(territories: seq<TerritoryRow>, locations: seq<LocationRow>): (clinics: seq<Clinic>)
    ensures |clinics| == |territories|
    ensures forall i :: 0 <= i < |clinics| ==> clinics[i] == MergeOne(territories[i], IndexById(locations))
  {
    var index := IndexById(locations);
    seq(|territories|, i requires 0 <= i < |territories| => MergeOne(territories[i], index))
  }

  /** A territory row without a name takes the name of the last location row
      carrying its id, when that name is set. */
  lemma MergeNameFromLastLocation(territories: seq<TerritoryRow>, locations: seq<LocationRow>, i: nat, j: nat)
    requires i < |territories| && j < |locations|
    requires !Truthy(territories[i].clinicName)
    requires Truthy(TerritoryId(territories[i])) && LocationId(locations[j]) == TerritoryId(territories[i])
    requires forall k :: j < k < |locations| ==> LocationId(locations[k]) != LocationId(locations[j])
    requires Truthy(locations[j].name)
    ensures Merge(territories, locations)[i].clinicName == locations[j].name.value
  {
    IndexByIdLastWins(locations, j);
  }

  /** A territory row whose id no location row carries keeps its own columns. */
  lemma MergeWithoutLocation(territories: seq<TerritoryRow>, locations: seq<LocationRow>, i: nat)
    requires i < |territories|
    requires forall j :: 0 <= j < |locations| ==> LocationId(locations[j]) != TerritoryId(territories[i])
    ensures Merge(territories, locations)[i].state == (if Truthy(territories[i].state) then territories[i].state else Undefined)
    ensures Merge(territories, locations)[i].latitude == territories[i].latitude
    ensures Merge(territories, locations)[i].longitude == territories[i].longitude
  {
  }

  // ---------------------------------------------------------------------------
  // The state list

  /** `String.prototype < `: code-unit order, a proper prefix first. */
  predicate LexLess(a: string, b: string)
  {
    if |a| == 0 then |b| > 0
    else if |b| == 0 then false
    else a[0] < b[0] || (a[0] == b[0] && LexLess(a[1..], b[1..]))
  }

  /** Code-point order puts U+FF21 before U+1F600. JavaScript's default sort
      compares UTF-16 code units and puts U+1F600 (leading unit 0xD83D) first. */
  lemma CodePointOrderExample()
    ensures LexLess("\U{FF21}", "\U{1F600}")
    ensures !LexLess("\U{1F600}", "\U{FF21}")
  {
  }

  lemma {:induction false} LexLessIrreflexive(a: string)
    ensures !LexLess(a, a)
  {
    if |a| > 0 {
      LexLessIrreflexive(a[1..]);
    }
  }

  lemma {:induction false} LexLessTransitive(a: string, b: string, c: string)
    requires LexLess(a, b) && LexLess(b, c)
    ensures LexLess(a, c)
  {
    if |a| > 0 && a[0] == b[0] && b[0] == c[0] {
      LexLessTransitive(a[1..], b[1..], c[1..]);
    }
  }

  lemma {:induction false} LexLessTotal(a: string, b: string)
    requires a != b
    ensures LexLess(a, b) || LexLess(b, a)
  {
    if |a| > 0 && |b| > 0 && a[0] == b[0] {
      assert a == [a[0]] + a[1..] && b == [b[0]] + b[1..];
      LexLessTotal(a[1..], b[1..]);
    }
  }

  lemma LexLessIsStrictTotalOrder()
    ensures Seqs.StrictTotalOrder(LexLess)
  {
    forall a: string
      ensures !LexLess(a, a)
    {
      LexLessIrreflexive(a);
    }
    forall a: string, b: string, c: string | LexLess(a, b) && LexLess(b, c)
      ensures LexLess(a, c)
    {
      LexLessTransitive(a, b, c);
    }
    forall a: string, b: string | a != b
      ensures LexLess(a, b) || LexLess(b, a)
    {
      LexLessTotal(a, b);
    }
  }

  /** `merged.map(c => c.state).filter(Boolean)`. */
  function PresentStates(clinics: seq<Clinic>): (states: seq<string>)
    ensures forall s :: s in states <==> exists i :: 0 <= i < |clinics| && Truthy(clinics[i].state) && clinics[i].state.value == s
  {
    if |clinics| == 0 then []
    else
      var rest := PresentStates(clinics[1..]);
      assert forall i :: 1 <= i < |clinics| ==> clinics[1..][i - 1] == clinics[i];
      (if Truthy(clinics[0].state) then [clinics[0].state.value] else []) + rest
  }

  /** `[...new Set(states)].sort()`: each non-empty state once, in code-unit order. */
  function UniqueStates(clinics: seq<Clinic>): (states: seq<string>)
    ensures forall i, j :: 0 <= i < j < |states| ==> LexLess(states[i], states[j])
    ensures forall s :: s in states <==> exists i :: 0 <= i < |clinics| && clinics[i].state == Str(s) && s != ""
  {
    LexLessIsStrictTotalOrder();
    Seqs.SortedDistinct(PresentStates(clinics), LexLess)
  }

  /** The state list has no repeats. */
  lemma UniqueStatesDistinct(clinics: seq<Clinic>)
    ensures forall i, j :: 0 <= i < j < |UniqueStates(clinics)| ==> UniqueStates(clinics)[i] != UniqueStates(clinics)[j]
  {
    LexLessIsStrictTotalOrder();
    Seqs.StrictlyIncreasingIsDistinct(UniqueStates(clinics), LexLess);
  }

  // ---------------------------------------------------------------------------
  // The search filter

  /** `toLowerCase` on ASCII letters; every other character is kept. */
  function LowerChar(c: char): (d: char)
    ensures 'A' <= c <= 'Z' ==> d as int == c as int + 32
    ensures !('A' <= c <= 'Z') ==> d == c
    ensures !('A' <= d <= 'Z')
  {
    if 'A' <= c <= 'Z' then (c as int + 32) as char else c
  }

  function Lower(s: string): (r: string)
    ensures |r| == |s|
    ensures forall i :: 0 <= i < |s| ==> r[i] == LowerChar(s[i])
  {
    seq(|s|, i requires 0 <= i < |s| => LowerChar(s[i]))
  }

  /** Lower-casing twice is lower-casing once. */
  lemma LowerIdempotent(s: string)
    ensures Lower(Lower(s)) == Lower(s)
  {
  }

  /** `t` occurs in `s` starting at index `i`. */
  predicate OccursAt(s: string, t: string, i: int)
  {
    0 <= i <= |s| - |t| && s[i..i + |t|] == t
  }

  /** `s.includes(t)`, scanning start positions from the left. */
  function Includes(s: string, t: string): (b: bool)
    ensures b <==> exists i :: OccursAt(s, t, i)
    decreases |s|
  {
    if |t| <= |s| && s[..|t|] == t then
      assert OccursAt(s, t, 0);
      true
    else if |s| == 0 then false
    else
      var r := Includes(s[1..], t);
      assert forall i :: OccursAt(s[1..], t, i) <==> OccursAt(s, t, i + 1) by {
        forall i
          ensures OccursAt(s[1..], t, i) <==> OccursAt(s, t, i + 1)
        {
          if 0 <= i <= |s[1..]| - |t| {
            assert s[1..][i..i + |t|] == s[i + 1..i + 1 + |t|];
          }
        }
      }
      assert (exists i :: OccursAt(s, t, i)) ==> r by {
        if exists i :: OccursAt(s, t, i) {
          var i :| OccursAt(s, t, i);
          assert i != 0;
          assert OccursAt(s[1..], t, i - 1);
        }
      }
      r
  }

  /** The empty term is contained in every string. */
  lemma IncludesEmpty(s: string)
    ensures Includes(s, "")
  {
    assert OccursAt(s, "", 0);
  }

  /** The name matches case-insensitively; the id matches as typed. */
  predicate MatchesSearch(c: Clinic, term: string)
  {
    Includes(Lower(c.clinicName), Lower(term)) || (c.clinicId.Str? && Includes(c.clinicId.value, term))
  }

  function SearchMatcher(term: string): Clinic -> bool
  {
    c => MatchesSearch(c, term)
  }

  /** `filteredClinics`. */
  function SearchFilter(clinics: seq<Clinic>, term: string): (shown: seq<Clinic>)
    ensures forall k :: 0 <= k < |shown| ==> MatchesSearch(shown[k], term)
  {
    Seqs.Filter(clinics, SearchMatcher(term))
  }

  /** A clinic is shown exactly when it matches, and the shown ones keep their order. */
  lemma SearchSelectsExactly(clinics: seq<Clinic>, term: string)
    ensures exists idx :: Seqs.Embedding(SearchFilter(clinics, term), clinics, idx)
              && forall j :: 0 <= j < |clinics| ==> (MatchesSearch(clinics[j], term) <==> j in idx)
  {
    var p := SearchMatcher(term);
    Seqs.FilterSelectsExactly(clinics, p);
    var idx :| Seqs.Embedding(Seqs.Filter(clinics, p), clinics, idx)
               && forall j :: 0 <= j < |clinics| ==> (p(clinics[j]) <==> j in idx);
    forall j | 0 <= j < |clinics|
      ensures MatchesSearch(clinics[j], term) <==> j in idx
    {
      assert p(clinics[j]) == MatchesSearch(clinics[j], term);
    }
    assert SearchFilter(clinics, term) == Seqs.Filter(clinics, p);
  }

  /** An empty search shows every clinic. */
  lemma {:induction false} EmptySearchShowsAll(clinics: seq<Clinic>)
    ensures SearchFilter(clinics, "") == clinics
  {
    if |clinics| > 0 {
      IncludesEmpty(Lower(clinics[0].clinicName));
      assert Lower("") == "";
      EmptySearchShowsAll(clinics[1..]);
      assert SearchFilter(clinics[1..], "") == Seqs.Filter(clinics[1..], SearchMatcher(""));
    }
  }

  /** The name test ignores the case of the term: typing `ABC` or `abc` finds the same names. */
  lemma NameMatchIgnoresCase(c: Clinic, term: string)
    ensures Includes(Lower(c.clinicName), Lower(term)) == Includes(Lower(c.clinicName), Lower(Lower(term)))
  {
    LowerIdempotent(term);
  }
}

=== FILE: competitors.dfy ===
/** Nearby competing clinics become exclusions (`exportFacebookTargeting`,
    the loop over the clinic list). */
module Competitors {
  import opened Wrappers
  import opened Types
  import opened Geo
  import Seqs

  /** The drive-time limit, in minutes, within which a sibling clinic competes. */
  const MaxDriveMinutes: real := 40.0

  /** A sibling competes when it is not the selected clinic (same id, both
      possibly absent), its coordinates are finite, and the drive there at the
      SELECTED clinic's metro speed takes at most 40 minutes; equivalently, the
      distance is at most 40 minutes' worth of miles at that speed. */
  predicate IsCompetitor(c: Clinic, selected: Clinic, lat: real, lng: real, dist: DistFn): (b: bool)
    ensures b <==> && c.clinicId != selected.clinicId
                   && c.latitude.Some? && c.longitude.Some?
                   && dist(lat, lng, c.latitude.value, c.longitude.value) * 60.0
                        <= MaxDriveMinutes * Speed(selected.metroType)
  {
    if c.clinicId != selected.clinicId && c.latitude.Some? && c.longitude.Some? then
      var d := dist(lat, lng, c.latitude.value, c.longitude.value);
      WithinDriveTime(d, selected.metroType, MaxDriveMinutes);
      EstimateDriveTime(d, selected.metroType) <= MaxDriveMinutes
    else
      false
  }

  /** The exclusion radius in miles for a competitor this far away. */
  function CompetitorRadius(distanceMiles: real): (r: int)
    ensures r == 5 <==> distanceMiles < 10.0
    ensures r == 10 <==> 10.0 <= distanceMiles < 20.0
    ensures r == 15 <==> 20.0 <= distanceMiles < 30.0
    ensures r == 25 <==> 30.0 <= distanceMiles
  {
    if distanceMiles < 10.0 then 5
    else if distanceMiles < 20.0 then 10
    else if distanceMiles < 30.0 then 15
    else 25
  }

  /** A farther competitor never gets a smaller radius. */
  lemma CompetitorRadiusMonotone(d1: real, d2: real)
    requires d1 <= d2
    ensures CompetitorRadius(d1) <= CompetitorRadius(d2)
  {
  }

  /** The largest radius is nearly out of reach: a competitor is at most 30
      miles away (at the fastest speed, 45 mph for rural), so radius 25 needs
      a rural selected clinic and a competitor exactly 30 miles away. */
  lemma LargestRadiusOnlyAtRuralLimit(c: Clinic, selected: Clinic, lat: real, lng: real, dist: DistFn)
    requires IsCompetitor(c, selected, lat, lng, dist)
    ensures var d := dist(lat, lng, c.latitude.value, c.longitude.value);
            CompetitorRadius(d) == 25 ==> selected.metroType == "rural" && d == 30.0
  {
    var d := dist(lat, lng, c.latitude.value, c.longitude.value);
    var s := Speed(selected.metroType);
    assert EstimateDriveTime(d, selected.metroType) * s == d * 60.0;
    if d >= 30.0 {
      assert s <= 45.0;
      assert EstimateDriveTime(d, selected.metroType) * s <= 40.0 * s;
      assert s == 45.0;
    }
  }

  /** Reads the address oracle as `address || fallback`: no result and an
      empty string both fall back. */
  function AddressOr(found: Option<string>, fallback: string): (s: string)
    ensures found.Some? && found.value != "" ==> s == found.value
    ensures found.None? || found.value == "" ==> s == fallback
  {
    if found.Some? && found.value != "" then found.value else fallback
  }

  /** The exclusion for one competitor. Distance and drive time are kept
      unrounded. */
  function CompetitorExclusion(c: Clinic, selected: Clinic, lat: real, lng: real, dist: DistFn,
                               addr: (real, real) -> Option<string>): (loc: Location)
    requires c.latitude.Some? && c.longitude.Some?
    ensures loc.name == "Competing Clinic: " + c.clinicName
    ensures loc.latitude == c.latitude.value && loc.longitude == c.longitude.value
    ensures loc.radius in {5, 10, 15, 25} && loc.distanceUnit == "mile"
    ensures loc.distanceMiles == Some(dist(lat, lng, loc.latitude, loc.longitude))
    ensures loc.radius == CompetitorRadius(loc.distanceMiles.value)
    ensures loc.driveTimeMin.Some? && loc.driveTimeMin.value * Speed(selected.metroType) == loc.distanceMiles.value * 60.0
    ensures loc.address == AddressOr(addr(loc.latitude, loc.longitude), c.clinicName + ", " + Show(c.state))
  {
    var cLat, cLng := c.latitude.value, c.longitude.value;
    var d := dist(lat, lng, cLat, cLng);
    Location(
      "Competing Clinic: " + c.clinicName,
      AddressOr(addr(cLat, cLng), c.clinicName + ", " + Show(c.state)),
      cLat, cLng, CompetitorRadius(d), "mile",
      Some(d), Some(EstimateDriveTime(d, selected.metroType)))
  }

  /** `IsCompetitor` as a filter predicate. */
  function CompetesWith(selected: Clinic, lat: real, lng: real, dist: DistFn): Clinic -> bool
  {
    c => IsCompetitor(c, selected, lat, lng, dist)
  }

  /** The competing siblings, in clinic-list order. */
  function Competing(clinics: seq<Clinic>, selected: Clinic, lat: real, lng: real, dist: DistFn): (cs: seq<Clinic>)
    ensures forall k :: 0 <= k < |cs| ==> IsCompetitor(cs[k], selected, lat, lng, dist)
    ensures forall k :: 0 <= k < |cs| ==> cs[k].clinicId != selected.clinicId
  {
    Seqs.Filter(clinics, CompetesWith(selected, lat, lng, dist))
  }

  /** A sibling is kept exactly when it competes, and the kept ones keep their order. */
  lemma CompetingSelectsExactly(clinics: seq<Clinic>, selected: Clinic, lat: real, lng: real, dist: DistFn)
    ensures exists idx :: Seqs.Embedding(Competing(clinics, selected, lat, lng, dist), clinics, idx)
              && forall j :: 0 <= j < |clinics| ==>
                   (IsCompetitor(clinics[j], selected, lat, lng, dist) <==> j in idx)
  {
    var p := CompetesWith(selected, lat, lng, dist);
    Seqs.FilterSelectsExactly(clinics, p);
    var idx :| Seqs.Embedding(Seqs.Filter(clinics, p), clinics, idx)
               && forall j :: 0 <= j < |clinics| ==> (p(clinics[j]) <==> j in idx);
    forall j | 0 <= j < |clinics|
      ensures IsCompetitor(clinics[j], selected, lat, lng, dist) <==> j in idx
    {
      assert p(clinics[j]) == IsCompetitor(clinics[j], selected, lat, lng, dist);
    }
    assert Competing(clinics, selected, lat, lng, dist) == Seqs.Filter(clinics, p);
  }

  /** The exclusions for all competitors, one per competing sibling. */
  function CompetitorExclusions(clinics: seq<Clinic>, selected: Clinic, lat: real, lng: real, dist: DistFn,
                                addr: (real, real) -> Option<string>): (locs: seq<Location>)
    ensures var cs := Competing(clinics, selected, lat, lng, dist);
            |locs| == |cs|
            && forall k :: 0 <= k < |locs| ==>
                 locs[k].name == "Competing Clinic: " + cs[k].clinicName
                 && locs[k].latitude == cs[k].latitude.value && locs[k].longitude == cs[k].longitude.value
    ensures forall k :: 0 <= k < |locs| ==>
              EstimateDriveTime(dist(lat, lng, locs[k].latitude, locs[k].longitude), selected.metroType) <= MaxDriveMinutes
    ensures forall k :: 0 <= k < |locs| ==> 5 <= locs[k].radius <= 25
    ensures forall k :: 0 <= k < |locs| ==>
              locs[k].radius == CompetitorRadius(dist(lat, lng, locs[k].latitude, locs[k].longitude))
    ensures var cs := Competing(clinics, selected, lat, lng, dist);
            forall k :: 0 <= k < |locs| ==>
              locs[k].address == AddressOr(addr(locs[k].latitude, locs[k].longitude),
                                           cs[k].clinicName + ", " + Show(cs[k].state))
  {
    var cs := Competing(clinics, selected, lat, lng, dist);
    seq(|cs|, k requires 0 <= k < |cs| => CompetitorExclusion(cs[k], selected, lat, lng, dist, addr))
  }
}

=== FILE: decimal.dfy ===
/** Decimal rendering of natural numbers, as JavaScript template literals
    (`${i + 1}`) print the ordinal in location names. */
module Decimal {

  predicate IsDigit(c: char) { '0' <= c <= '9' }

  function DigitChar(d: nat): (c: char)
    requires d < 10
    ensures IsDigit(c)
    ensures c as int - '0' as int == d
  {
    "0123456789"[d]
  }

  function DigitValue(c: char): (d: nat)
    requires IsDigit(c)
    ensures d < 10
  {
    c as int - '0' as int
  }

  /** Shortest base-10 rendering of `n`: no leading zero except for 0 itself. */
  function Decimal(n: nat): (s: string)
    ensures |s| >= 1
    ensures forall k :: 0 <= k < |s| ==> IsDigit(s[k])
    ensures |s| > 1 ==> s[0] != '0'
  {
    if n < 10 then [DigitChar(n)] else Decimal(n / 10) + [DigitChar(n % 10)]
  }

  /** Reads a string of digits back as a number. */
  function ParseDecimal(s: string): nat
    requires forall k :: 0 <= k < |s| ==> IsDigit(s[k])
  {
    if |s| == 0 then 0
    else ParseDecimal(s[..|s| - 1]) * 10 + DigitValue(s[|s| - 1])
  }

  lemma {:induction false} ParseDecimalRoundTrip(n: nat)
    ensures ParseDecimal(Decimal(n)) == n
  {
    if n >= 10 {
      var s := Decimal(n);
      ParseDecimalRoundTrip(n / 10);
      assert s[..|s| - 1] == Decimal(n / 10);
    }
  }

  /** Distinct numbers print differently, so ordinal names never collide. */
  lemma DecimalInjective(m: nat, n: nat)
    ensures Decimal(m) == Decimal(n) <==> m == n
  {
    if Decimal(m) == Decimal(n) {
      ParseDecimalRoundTrip(m);
      ParseDecimalRoundTrip(n);
    }
  }

  /** `prefix + Decimal(n)` names distinct items for distinct `n`. */
  lemma OrdinalNamesDistinct(prefix: string, m: nat, n: nat)
    requires m != n
    ensures prefix + Decimal(m) != prefix + Decimal(n)
  {
    if prefix + Decimal(m) == prefix + Decimal(n) {
      assert Decimal(m) == (prefix + Decimal(m))[|prefix|..];
      assert Decimal(n) == (prefix + Decimal(n))[|prefix|..];
      DecimalInjective(m, n);
    }
  }
}

=== FILE: geo.dfy ===
/** The small numeric helpers of `lib/geo-utils.ts`: drive-time estimate and
    radius schedule. Great-circle distance is not computed here; callers pass
    it in as a `DistFn`. */
module Geo {

  /** `calculateDistance(lat1, lon1, lat2, lon2)` in miles (Haversine), left abstract. */
  type DistFn = (real, real, real, real) -> real

  // ---------------------------------------------------------------------------
  // Drive time

  /** The `speeds` record: miles per hour by metro type. */
  const Speeds: map<string, real> := map["urban" := 25.0, "suburban" := 35.0, "rural" := 45.0]

  /** `speeds[metroType] || 35`: an absent key (or a zero entry) falls back to 35 mph. */
  function Speed(metroType: string): (mph: real)
    ensures mph > 0.0
  {
    if metroType in Speeds && Speeds[metroType] != 0.0 then Speeds[metroType] else 35.0
  }

  /** Minutes to drive `distanceMiles` at the metro type's average speed. */
  function EstimateDriveTime(distanceMiles: real, metroType: string): (minutes: real)
    ensures minutes * Speed(metroType) == distanceMiles * 60.0
    ensures metroType == "urban" ==> minutes == distanceMiles * 12.0 / 5.0
    ensures metroType == "suburban" ==> minutes == distanceMiles * 12.0 / 7.0
    ensures metroType == "rural" ==> minutes == distanceMiles * 4.0 / 3.0
    ensures metroType !in {"urban", "suburban", "rural"} ==> minutes == distanceMiles * 12.0 / 7.0
    ensures distanceMiles >= 0.0 ==> minutes >= 0.0
  {
    distanceMiles / Speed(metroType) * 60.0
  }

  /** A drive-time limit is a distance limit at the metro type's speed. */
  lemma WithinDriveTime(distanceMiles: real, metroType: string, limit: real)
    ensures EstimateDriveTime(distanceMiles, metroType) <= limit <==> distanceMiles * 60.0 <= limit * Speed(metroType)
  {
    var t, s := EstimateDriveTime(distanceMiles, metroType), Speed(metroType);
    if t <= limit {
      assert t * s <= limit * s;
    } else {
      assert t * s > limit * s;
    }
  }

  /** Slower traffic takes longer: urban >= suburban >= rural, and unknown types drive like suburban. */
  lemma DriveTimeOrdering(distanceMiles: real, other: string)
    requires distanceMiles >= 0.0
    requires other !in {"urban", "suburban", "rural"}
    ensures EstimateDriveTime(distanceMiles, "urban") >= EstimateDriveTime(distanceMiles, "suburban")
    ensures EstimateDriveTime(distanceMiles, "suburban") >= EstimateDriveTime(distanceMiles, "rural")
    ensures EstimateDriveTime(distanceMiles, other) == EstimateDriveTime(distanceMiles, "suburban")
  {
  }

  /** Drive time grows with distance for every metro type. */
  lemma DriveTimeMonotone(d1: real, d2: real, metroType: string)
    requires d1 <= d2
    ensures EstimateDriveTime(d1, metroType) <= EstimateDriveTime(d2, metroType)
  {
    var s := Speed(metroType);
    assert EstimateDriveTime(d2, metroType) - EstimateDriveTime(d1, metroType) == (d2 - d1) / s * 60.0;
  }

  /** The worked values: 30 miles urban is 72 minutes, 30 miles of an unknown type 360/7. */
  lemma DriveTimeExamples()
    ensures EstimateDriveTime(30.0, "urban") == 72.0
    ensures EstimateDriveTime(30.0, "unknown-type") == 360.0 / 7.0
  {
  }

  // ---------------------------------------------------------------------------
  // Radius schedule

  /** Territory size tier: the thresholds 20, 40 and 60 miles are strict. */
  function SizeTier(size: real): (t: nat)
    ensures t < 4
  {
    if size < 20.0 then 0 else if size < 40.0 then 1 else if size < 60.0 then 2 else 3
  }

  /** The three radii each tier cycles through. */
  function TierCycle(tier: nat): (c: seq<int>)
    requires tier < 4
    ensures |c| == 3
  {
    [[1, 3, 5], [3, 5, 10], [5, 10, 15], [10, 15, 25]][tier]
  }

  /** `[...].slice(0, count)` of a ten-entry table; `count` is a sample count, never negative. */
  function SelectRadii(size: real, count: int): (radii: seq<int>)
    requires count >= 0
    ensures |radii| == if count < 10 then count else 10
    ensures forall i :: 0 <= i < |radii| ==> radii[i] == TierCycle(SizeTier(size))[i % 3]
    ensures forall i :: 0 <= i < |radii| ==> radii[i] > 0
  {
    var table :=
      if size < 20.0 then [1, 3, 5, 1, 3, 5, 1, 3, 5, 1]
      else if size < 40.0 then [3, 5, 10, 3, 5, 10, 3, 5, 10, 3]
      else if size < 60.0 then [5, 10, 15, 5, 10, 15, 5, 10, 15, 5]
      else [10, 15, 25, 10, 15, 25, 10, 15, 25, 10];
    table[..if count < 10 then count else 10]
  }

  /** The tier thresholds as seen in the result: the first three radii of each band. */
  lemma SelectRadiiTiers(size: real)
    ensures size < 20.0 ==> SelectRadii(size, 3) == [1, 3, 5]
    ensures 20.0 <= size < 40.0 ==> SelectRadii(size, 3) == [3, 5, 10]
    ensures 40.0 <= size < 60.0 ==> SelectRadii(size, 3) == [5, 10, 15]
    ensures 60.0 <= size ==> SelectRadii(size, 3) == [10, 15, 25]
  {
  }

  /** A larger territory never gets a smaller radius at the same position. */
  lemma SelectRadiiMonotone(small: real, large: real, count: int)
    requires small <= large
    requires count >= 0
    ensures forall i :: 0 <= i < |SelectRadii(small, count)| ==>
              SelectRadii(small, count)[i] <= SelectRadii(large, count)[i]
  {
    forall i | 0 <= i < |SelectRadii(small, count)|
      ensures SelectRadii(small, count)[i] <= SelectRadii(large, count)[i]
    {
      var ts, tl := SizeTier(small), SizeTier(large);
      assert ts <= tl;
      assert TierCycle(ts)[i % 3] <= TierCycle(tl)[i % 3];
    }
  }
}

=== FILE: geojson.dfy ===
/** `getGeometry` and the choice of the ring the export works on. The JSON
    text is taken as already parsed into `RawGeoJson`. */
module GeoJson {
  import opened Wrappers
  import opened Types

  /** The TypeError `'type' in raw` raises when `raw` is not an object. */
  datatype GeometryError = NotAnObject

  /** `getGeometry(clinic)`: the last feature's geometry of a non-empty
      FeatureCollection, a Feature's own geometry, a bare geometry itself, and
      nothing otherwise. A missing or null entry yields nothing (`?.geometry || null`).
      A truthy primitive makes the `in` test throw. */
  function GetGeometry(raw: Option<RawGeoJson>): (r: Result<Option<Geometry>, GeometryError>)
    ensures r.Failure? <==> raw == Some(Primitive)
    ensures r.Success? && r.value.Some? ==> raw.Some? && !raw.value.Unrecognised?
    ensures raw.Some? && raw.value.BareGeometry? ==> r == Success(Some(raw.value.geometry))
  {
    match raw
    case None => Success(None)
    case Some(FeatureCollection(features)) =>
      if |features| == 0 then Success(None)
      else
        var last := features[|features| - 1];
        Success(if last.Some? then last.value.geometry else None)
    case Some(SingleFeature(feature)) => Success(feature.geometry)
    case Some(BareGeometry(geometry)) => Success(Some(geometry))
    case Some(Unrecognised) => Success(None)
    case Some(Primitive) => Failure(NotAnObject)
  }

  /** The last feature wins, whatever comes before it; a last entry that is
      null or has no geometry, and an empty collection, give no geometry. */
  lemma GetGeometryLastFeatureWins(earlier: seq<Option<Feature>>, g: Geometry)
    ensures GetGeometry(Some(FeatureCollection(earlier + [Some(Feature(Some(g)))]))) == Success(Some(g))
    ensures GetGeometry(Some(FeatureCollection(earlier + [Some(Feature(None))]))) == Success(None)
    ensures GetGeometry(Some(FeatureCollection(earlier + [None]))) == Success(None)
    ensures GetGeometry(Some(FeatureCollection([]))) == Success(None)
  {
  }

  /** A Feature contributes exactly its geometry; a bare geometry is itself;
      a primitive throws. */
  lemma GetGeometryOfFeature(f: Feature, g: Geometry)
    ensures GetGeometry(Some(SingleFeature(f))) == Success(f.geometry)
    ensures GetGeometry(Some(BareGeometry(g))) == Success(Some(g))
    ensures GetGeometry(Some(Unrecognised)) == Success(None) && GetGeometry(None) == Success(None)
    ensures GetGeometry(Some(Primitive)) == Failure(NotAnObject)
  {
  }

  /** Why no ring could be taken: `Malformed` stands for the TypeError the
      source raises (and catches) when the coordinates do not nest as a
      polygon's; `EmptyRing` for a ring without positions. */
  datatype ShapeError = Malformed | EmptyRing

  /** `geometry.type === 'Polygon' ? coordinates[0] : coordinates[0][0]`:
      the first ring of a Polygon, otherwise the first ring of the first polygon. */
  function OuterRing(g: Geometry): (r: Result<seq<Pos>, ShapeError>)
    ensures r.Success? ==> |r.value| > 0
    ensures r.Success? <==>
              || (g.Polygon? && |g.rings| > 0 && |g.rings[0]| > 0)
              || (g.MultiPolygon? && |g.polygons| > 0 && |g.polygons[0]| > 0 && |g.polygons[0][0]| > 0)
    ensures r.Success? && g.Polygon? ==> r.value == g.rings[0]
    ensures r.Success? && g.MultiPolygon? ==> r.value == g.polygons[0][0]
    ensures r == Failure(EmptyRing) <==>
              || (g.Polygon? && |g.rings| > 0 && |g.rings[0]| == 0)
              || (g.MultiPolygon? && |g.polygons| > 0 && |g.polygons[0]| > 0 && |g.polygons[0][0]| == 0)
  {
    var ring: Option<seq<Pos>> :=
      match g
      case Polygon(rings) => if |rings| > 0 then Some(rings[0]) else None
      case MultiPolygon(polygons) =>
        if |polygons| > 0 && |polygons[0]| > 0 then Some(polygons[0][0]) else None
      case _ => None;
    if ring.None? then Failure(Malformed)
    else if |ring.value| == 0 then Failure(EmptyRing)
    else Success(ring.value)
  }

  /** Only the outer ring of the first polygon matters: holes and further polygons never do. */
  lemma OuterRingIgnoresTheRest(outer: seq<Pos>, holes: seq<seq<Pos>>, others: seq<seq<seq<Pos>>>)
    requires |outer| > 0
    ensures OuterRing(Polygon([outer] + holes)) == Success(outer)
    ensures OuterRing(MultiPolygon([[outer] + holes] + others)) == Success(outer)
  {
  }
}

=== FILE: raycast.dfy ===
/** `isPointInPolygon`: the even-odd ray-casting test. A horizontal ray runs
    from the point towards +x; every edge it crosses flips `inside`. */
module RayCast {
  import opened Types

  /** Index of the edge's other end: `j` trails `i` by one, wrapping to the last vertex. */
  function Prev(n: nat, i: nat): (j: nat)
    requires i < n
    ensures j < n
  {
    if i == 0 then n - 1 else i - 1
  }

  /** The ray from `p` crosses the edge from `vi` to `vj`. The first conjunct
      implies `vi.y != vj.y`, so the division is always defined. */
  predicate Crosses(p: Pos, vi: Pos, vj: Pos)
  {
    && ((vi.y > p.y) != (vj.y > p.y))
    && p.x < (vj.x - vi.x) * (p.y - vi.y) / (vj.y - vi.y) + vi.x
  }

  /** The loop from index `i` on, with the parity accumulated so far. */
  function Scan(p: Pos, poly: seq<Pos>, i: nat, inside: bool): bool
    requires i <= |poly|
    decreases |poly| - i
  {
    if i == |poly| then inside
    else
      var crosses := Crosses(p, poly[i], poly[Prev(|poly|, i)]);
      Scan(p, poly, i + 1, if crosses then !inside else inside)
  }

  /** Inside exactly when the ray crosses an odd number of edges (the
      even-odd rule); `Crossings` below counts them. */
  function PointInPolygon(p: Pos, poly: seq<Pos>): (b: bool)
    ensures b <==> Crossings(p, poly, 0) % 2 == 1
  {
    ScanCountsCrossings(p, poly, 0, false);
    Scan(p, poly, 0, false)
  }

  // ---------------------------------------------------------------------------
  // The even-odd rule as a count

  /** Number of edges with index `i` or later that the ray crosses. */
  function Crossings(p: Pos, poly: seq<Pos>, i: nat): nat
    requires i <= |poly|
    decreases |poly| - i
  {
    if i == |poly| then 0
    else (if Crosses(p, poly[i], poly[Prev(|poly|, i)]) then 1 else 0) + Crossings(p, poly, i + 1)
  }

  lemma {:induction false} ScanCountsCrossings(p: Pos, poly: seq<Pos>, i: nat, inside: bool)
    requires i <= |poly|
    ensures Scan(p, poly, i, inside) == (inside != (Crossings(p, poly, i) % 2 == 1))
    decreases |poly| - i
  {
    if i < |poly| {
      var crosses := Crosses(p, poly[i], poly[Prev(|poly|, i)]);
      ScanCountsCrossings(p, poly, i + 1, if crosses then !inside else inside);
    }
  }

  /** With no crossing edge the point is outside. */
  lemma {:induction false} NoCrossingsOutside(p: Pos, poly: seq<Pos>, i: nat)
    requires i <= |poly|
    requires forall k :: i <= k < |poly| ==> !Crosses(p, poly[k], poly[Prev(|poly|, k)])
    ensures Crossings(p, poly, i) == 0
    decreases |poly| - i
  {
    if i < |poly| {
      NoCrossingsOutside(p, poly, i + 1);
    }
  }

  // ---------------------------------------------------------------------------
  // Geometry of one edge

  /** Measured from the other end, the crossing's fraction along the edge is
      the complement. */
  lemma FlipRatio(y: real, y0: real, y1: real)
    requires y0 != y1
    ensures (y - y1) / (y0 - y1) == 1.0 - (y - y0) / (y1 - y0)
  {
    var t := (y - y0) / (y1 - y0);
    assert t * (y1 - y0) == y - y0;
    assert t * (y0 - y1) == -(t * (y1 - y0));
    assert (1.0 - t) * (y0 - y1) == (y0 - y1) - t * (y0 - y1);
    assert (1.0 - t) * (y0 - y1) == y - y1;
    var s := (y - y1) / (y0 - y1);
    assert s * (y0 - y1) == y - y1;
    assert (s - (1.0 - t)) * (y0 - y1) == s * (y0 - y1) - (1.0 - t) * (y0 - y1);
    ZeroFactor(s - (1.0 - t), y0 - y1);
  }

  lemma ZeroFactor(x: real, d: real)
    requires x * d == 0.0 && d != 0.0
    ensures x == 0.0
  {
  }

  /** Scaling by the complement of a fraction. */
  lemma ScaleComplement(a: real, t: real)
    ensures -a * (1.0 - t) == a * t - a
  {
  }

  /** The crossing point does not depend on which end is called `vi`. */
  lemma CrossingXSymmetric(p: Pos, u: Pos, v: Pos)
    requires u.y != v.y
    ensures (v.x - u.x) * (p.y - u.y) / (v.y - u.y) + u.x == (u.x - v.x) * (p.y - v.y) / (u.y - v.y) + v.x
  {
    var a := v.x - u.x;
    var t := (p.y - u.y) / (v.y - u.y);
    MulDivAssoc(a, p.y - u.y, v.y - u.y);
    MulDivAssoc(u.x - v.x, p.y - v.y, u.y - v.y);
    FlipRatio(p.y, u.y, v.y);
    ScaleComplement(a, t);
    assert u.x - v.x == -a;
  }

  /** The edge meets the ray's line at the same x whichever end is called `vi`. */
  lemma CrossesSymmetric(p: Pos, u: Pos, v: Pos)
    ensures Crosses(p, u, v) == Crosses(p, v, u)
  {
    if (u.y > p.y) != (v.y > p.y) {
      CrossingXSymmetric(p, u, v);
    }
  }

  /** A ratio whose numerator lies between 0 and its denominator is in [0, 1]. */
  lemma RatioInUnit(num: real, den: real)
    requires (0.0 <= num <= den && den > 0.0) || (den <= num <= 0.0 && den < 0.0)
    ensures 0.0 <= num / den <= 1.0
  {
    var t := num / den;
    assert t * den == num;
    if den > 0.0 {
      assert t < 0.0 ==> t * den < 0.0;
      assert t > 1.0 ==> t * den > den;
    } else {
      assert t < 0.0 ==> t * den > 0.0;
      assert t > 1.0 ==> t * den < den;
    }
  }

  lemma MulDivAssoc(a: real, b: real, c: real)
    requires c != 0.0
    ensures a * b / c == a * (b / c)
  {
    var q := b / c;
    var r := a * b / c;
    assert q * c == b;
    assert r * c == a * b;
    assert (r - a * q) * c == 0.0;
  }

  /** Where the ray's line meets a crossing edge lies between the edge's two x values. */
  lemma CrossingBetweenEnds(p: Pos, vi: Pos, vj: Pos)
    requires (vi.y > p.y) != (vj.y > p.y)
    ensures var cx := (vj.x - vi.x) * (p.y - vi.y) / (vj.y - vi.y) + vi.x;
            cx <= (if vi.x >= vj.x then vi.x else vj.x)
  {
    var t := (p.y - vi.y) / (vj.y - vi.y);
    RatioInUnit(p.y - vi.y, vj.y - vi.y);
    var dx := vj.x - vi.x;
    MulDivAssoc(dx, p.y - vi.y, vj.y - vi.y);
    if dx >= 0.0 {
      assert dx * t <= dx * 1.0;
    } else {
      assert dx * t <= 0.0;
    }
  }

  // ---------------------------------------------------------------------------
  // When the answer is `false` regardless of the edges

  /** Fewer than three vertices never enclose a point. */
  lemma FewVerticesOutside(p: Pos, poly: seq<Pos>)
    requires |poly| < 3
    ensures !PointInPolygon(p, poly)
  {
    if |poly| == 2 {
      CrossesSymmetric(p, poly[0], poly[1]);
      assert Crossings(p, poly, 2) == 0;
      assert Crossings(p, poly, 0) % 2 == 0;
    } else if |poly| == 1 {
      assert Crossings(p, poly, 1) == 0;
    }
  }

  /** A point on or above the highest vertex is outside. */
  lemma AboveAllOutside(p: Pos, poly: seq<Pos>)
    requires forall k :: 0 <= k < |poly| ==> poly[k].y <= p.y
    ensures !PointInPolygon(p, poly)
  {
    NoCrossingsOutside(p, poly, 0);
  }

  /** A point strictly below the lowest vertex is outside. */
  lemma BelowAllOutside(p: Pos, poly: seq<Pos>)
    requires forall k :: 0 <= k < |poly| ==> poly[k].y > p.y
    ensures !PointInPolygon(p, poly)
  {
    NoCrossingsOutside(p, poly, 0);
  }

  /** A point on or east of the easternmost vertex is outside: the ray meets no edge. */
  lemma EastOfAllOutside(p: Pos, poly: seq<Pos>)
    requires forall k :: 0 <= k < |poly| ==> poly[k].x <= p.x
    ensures !PointInPolygon(p, poly)
  {
    forall k | 0 <= k < |poly|
      ensures !Crosses(p, poly[k], poly[Prev(|poly|, k)])
    {
      var j := Prev(|poly|, k);
      var vi, vj := poly[k], poly[j];
      assert vi.x <= p.x && vj.x <= p.x;
      if (vi.y > p.y) != (vj.y > p.y) {
        CrossingBetweenEnds(p, vi, vj);
        var cx := (vj.x - vi.x) * (p.y - vi.y) / (vj.y - vi.y) + vi.x;
        assert cx <= p.x;
        assert !Crosses(p, vi, vj);
      }
      assert !Crosses(p, vi, vj);
    }
    NoCrossingsOutside(p, poly, 0);
  }

  /** The worked example: the unit square holds its centre and not a far point. */
  lemma UnitSquareExample()
    ensures PointInPolygon(Pos(0.5, 0.5), [Pos(0.0, 0.0), Pos(1.0, 0.0), Pos(1.0, 1.0), Pos(0.0, 1.0)])
    ensures !PointInPolygon(Pos(5.0, 5.0), [Pos(0.0, 0.0), Pos(1.0, 0.0), Pos(1.0, 1.0), Pos(0.0, 1.0)])
  {
    var sq := [Pos(0.0, 0.0), Pos(1.0, 0.0), Pos(1.0, 1.0), Pos(0.0, 1.0)];
    AboveAllOutside(Pos(5.0, 5.0), sq);
  }
}

=== FILE: sampling.dfy ===
/** The random point generators of `exportFacebookTargeting`: rejection
    sampling inside the territory for inclusions, in four bands around its
    bounding box for exclusions, then the spacing filter and the top-ten cut.

    `Math.random` is a stream `rand` of draws in [0, 1): the k-th call reads
    `rand(k)`. The interior sampler makes two calls per trial (latitude, then
    longitude); the exterior sampler, which runs next, three (side, latitude,
    longitude). */
module Sampling {
  import opened Types
  import opened Geo
  import opened Territory
  import opened RayCast
  import Seqs

  /** Both samplers stop after this many trials ... */
  const MaxTrials: nat := 1000
  /** ... or once they hold this many points; the spacing filter keeps at most as many. */
  const MaxPoints: nat := 10

  ghost predicate ValidStream(rand: nat -> real)
  {
    forall k: nat :: 0.0 <= rand(k) < 1.0
  }

  /** What the samplers work on: the outer ring, its bounding box and the
      selected clinic's coordinates (the centre). */
  datatype Frame = Frame(ring: seq<Pos>, box: Box, lat: real, lng: real)

  /** The ring is non-empty and the box holds every vertex (as `BoundingBox` does). */
  ghost predicate ValidFrame(f: Frame)
  {
    |f.ring| > 0 && forall k :: 0 <= k < |f.ring| ==> InBox(f.box, f.ring[k].y, f.ring[k].x)
  }

  lemma FrameBoxOrdered(f: Frame)
    requires ValidFrame(f)
    ensures f.box.minLat <= f.box.maxLat && f.box.minLng <= f.box.maxLng
  {
    assert InBox(f.box, f.ring[0].y, f.ring[0].x);
  }

  /** An accepted point with its sort key: distance from the centre for
      inclusions, distance to the nearest ring vertex for exclusions. */
  datatype Sample = Sample(lat: real, lng: real, key: real)

  function Key(s: Sample): real { s.key }

  /** The ray-casting test on `[lng, lat]`. */
  predicate Inside(f: Frame, lat: real, lng: real)
  {
    PointInPolygon(Pos(lng, lat), f.ring)
  }

  lemma ProductNonNegative(a: real, b: real)
    requires a >= 0.0 && b >= 0.0
    ensures a * b >= 0.0
  {
  }

  /** `lo + (hi - lo) * u`: how both samplers spread a draw over an interval. */
  function Scale(lo: real, hi: real, u: real): real
  {
    lo + (hi - lo) * u
  }

  /** A draw in [0, 1) lands in [lo, hi]. */
  lemma ScaleBounds(lo: real, hi: real, u: real)
    ensures lo <= hi && 0.0 <= u < 1.0 ==> lo <= Scale(lo, hi, u) <= hi
  {
    if lo <= hi && 0.0 <= u < 1.0 {
      ProductNonNegative(hi - lo, u);
      ProductNonNegative(hi - lo, 1.0 - u);
    }
  }

  // ---------------------------------------------------------------------------
  // The rejection loop both samplers share

  /** A sampler's accepted points and the number of trials it ran. */
  datatype Run = Run(points: seq<Sample>, trials: nat)

  /** `for (i = t; i < 1000 && points.length < 10; i++) if (hit(i)) points.push(draw(i))`,
      with `acc` accepted before trial `t`. */
  function RunSampler(hit: nat -> bool, draw: nat -> Sample, t: nat, acc: seq<Sample>): (r: Run)
    requires t <= MaxTrials && |acc| <= MaxPoints
    decreases MaxTrials - t
    ensures t <= r.trials <= MaxTrials
    ensures |acc| <= |r.points| <= MaxPoints && r.points[..|acc|] == acc
    ensures |r.points| - |acc| <= r.trials - t
    ensures r.trials < MaxTrials ==> |r.points| == MaxPoints
  {
    if t == MaxTrials || |acc| == MaxPoints then Run(acc, t)
    else
      var next := if hit(t) then acc + [draw(t)] else acc;
      var r := RunSampler(hit, draw, t + 1, next);
      assert r.points[..|acc|] == next[..|acc|];
      r
  }

  /** Nothing is rejected that should have been kept: every hit among the trials run is kept. */
  lemma {:induction false} RunSamplerKeepsHits(hit: nat -> bool, draw: nat -> Sample, t: nat, acc: seq<Sample>)
    requires t <= MaxTrials && |acc| <= MaxPoints
    decreases MaxTrials - t
    ensures var r := RunSampler(hit, draw, t, acc);
            forall u :: t <= u < r.trials && hit(u) ==> draw(u) in r.points
  {
    if t < MaxTrials && |acc| < MaxPoints {
      var next := if hit(t) then acc + [draw(t)] else acc;
      RunSamplerKeepsHits(hit, draw, t + 1, next);
      var r := RunSampler(hit, draw, t + 1, next);
      assert r.points[..|next|] == next;
      if hit(t) {
        assert r.points[|acc|] == draw(t);
      }
    }
  }

  /** A property of every accepted trial's point, and of every point already
      held, holds for every point kept. */
  lemma {:induction false} RunSamplerPointsSatisfy(hit: nat -> bool, draw: nat -> Sample, P: Sample -> bool,
                                                   t: nat, acc: seq<Sample>)
    requires t <= MaxTrials && |acc| <= MaxPoints
    requires forall u: nat :: hit(u) ==> P(draw(u))
    requires forall k :: 0 <= k < |acc| ==> P(acc[k])
    decreases MaxTrials - t
    ensures forall k :: 0 <= k < |RunSampler(hit, draw, t, acc).points| ==> P(RunSampler(hit, draw, t, acc).points[k])
  {
    if t < MaxTrials && |acc| < MaxPoints {
      var next := if hit(t) then acc + [draw(t)] else acc;
      forall k | 0 <= k < |next|
        ensures P(next[k])
      {
        if k < |acc| {
          assert next[k] == acc[k];
        }
      }
      RunSamplerPointsSatisfy(hit, draw, P, t + 1, next);
      assert RunSampler(hit, draw, t, acc) == RunSampler(hit, draw, t + 1, next);
    }
  }

  // ---------------------------------------------------------------------------
  // Interior sampler

  /** Trial `t`'s candidate `(lat, lng)`, from draws `2t` and `2t + 1`: with
      both draws in [0, 1), a point of the bounding box. */
  function InteriorCandidate(f: Frame, rand: nat -> real, t: nat): (p: (real, real))
    ensures && f.box.minLat <= f.box.maxLat && f.box.minLng <= f.box.maxLng
            && 0.0 <= rand(2 * t) < 1.0 && 0.0 <= rand(2 * t + 1) < 1.0
            ==> InBox(f.box, p.0, p.1)
  {
    var b := f.box;
    ScaleBounds(b.minLat, b.maxLat, rand(2 * t));
    ScaleBounds(b.minLng, b.maxLng, rand(2 * t + 1));
    (Scale(b.minLat, b.maxLat, rand(2 * t)), Scale(b.minLng, b.maxLng, rand(2 * t + 1)))
  }

  lemma InteriorCandidateInBox(f: Frame, rand: nat -> real, t: nat)
    requires ValidFrame(f) && ValidStream(rand)
    ensures var p := InteriorCandidate(f, rand, t); InBox(f.box, p.0, p.1)
  {
    FrameBoxOrdered(f);
  }

  /** Whether trial `t` is accepted: its candidate is inside the ring. */
  function InteriorHits(f: Frame, rand: nat -> real): nat -> bool
  {
    (t: nat) => var p := InteriorCandidate(f, rand, t); Inside(f, p.0, p.1)
  }

  /** The point trial `t` records, keyed by its distance from the centre. */
  function InteriorDraws(f: Frame, rand: nat -> real, dist: DistFn): nat -> Sample
  {
    (t: nat) => var p := InteriorCandidate(f, rand, t); Sample(p.0, p.1, dist(f.lat, f.lng, p.0, p.1))
  }

  /** The interior sampler, from the first draw of the stream. */
  function SampleInterior(f: Frame, rand: nat -> real, dist: DistFn): (r: Run)
    ensures r.trials <= MaxTrials && |r.points| <= MaxPoints && |r.points| <= r.trials
  {
    RunSampler(InteriorHits(f, rand), InteriorDraws(f, rand, dist), 0, [])
  }

  /** Every accepted interior point lies in the box and inside the ring, and
      its key is its distance from the centre. */
  lemma SampleInteriorPoints(f: Frame, rand: nat -> real, dist: DistFn)
    requires ValidFrame(f) && ValidStream(rand)
    ensures var r := SampleInterior(f, rand, dist);
            forall k :: 0 <= k < |r.points| ==>
              && InBox(f.box, r.points[k].lat, r.points[k].lng)
              && Inside(f, r.points[k].lat, r.points[k].lng)
              && r.points[k].key == dist(f.lat, f.lng, r.points[k].lat, r.points[k].lng)
  {
    var hit, draw := InteriorHits(f, rand), InteriorDraws(f, rand, dist);
    var P := (s: Sample) =>
      InBox(f.box, s.lat, s.lng) && Inside(f, s.lat, s.lng) && s.key == dist(f.lat, f.lng, s.lat, s.lng);
    forall u: nat | hit(u)
      ensures P(draw(u))
    {
      InteriorCandidateInBox(f, rand, u);
    }
    RunSamplerPointsSatisfy(hit, draw, P, 0, []);
  }

  // ---------------------------------------------------------------------------
  // Spacing filter

  /** `distributed.some(e => Dist(e, p) < minGap)`. */
  predicate TooClose(kept: seq<Sample>, p: Sample, minGap: real, dist: DistFn)
  {
    exists k :: 0 <= k < |kept| && dist(kept[k].lat, kept[k].lng, p.lat, p.lng) < minGap
  }

  /** Every kept point is at least `minGap` from each point kept before it. */
  ghost predicate Spaced(s: seq<Sample>, minGap: real, dist: DistFn)
  {
    forall i, j :: 0 <= i < j < |s| ==> dist(s[i].lat, s[i].lng, s[j].lat, s[j].lng) >= minGap
  }

  /** The greedy pass over `points` with `kept` already chosen: the first point
      is always taken, a later one only when no kept point is too close, and
      the pass stops once ten are kept. */
  function Spread(points: seq<Sample>, kept: seq<Sample>, minGap: real, dist: DistFn): (r: seq<Sample>)
    requires |kept| <= MaxPoints
    decreases |points|
    ensures |kept| <= |r| <= MaxPoints && r[..|kept|] == kept
    ensures |r| - |kept| <= |points|
  {
    if |points| == 0 || |kept| == MaxPoints then kept
    else
      var p := points[0];
      var next := if |kept| == 0 || !TooClose(kept, p, minGap, dist) then kept + [p] else kept;
      var r := Spread(points[1..], next, minGap, dist);
      assert r[..|kept|] == next[..|kept|];
      r
  }

  /** Each point taken is far enough from all taken before it. */
  lemma {:induction false} SpreadSpaced(points: seq<Sample>, kept: seq<Sample>, minGap: real, dist: DistFn)
    requires |kept| <= MaxPoints
    requires Spaced(kept, minGap, dist)
    decreases |points|
    ensures Spaced(Spread(points, kept, minGap, dist), minGap, dist)
  {
    if |points| > 0 && |kept| < MaxPoints {
      var p := points[0];
      var take := |kept| == 0 || !TooClose(kept, p, minGap, dist);
      var next := if take then kept + [p] else kept;
      if take {
        forall i, j | 0 <= i < j < |next|
          ensures dist(next[i].lat, next[i].lng, next[j].lat, next[j].lng) >= minGap
        {
          if j == |kept| {
            assert !(0 <= i < |kept| && dist(kept[i].lat, kept[i].lng, p.lat, p.lng) < minGap);
          }
        }
      }
      SpreadSpaced(points[1..], next, minGap, dist);
    }
  }

  /** The kept points come from `points`, in order. */
  lemma {:induction false} SpreadIsSubsequence(points: seq<Sample>, kept: seq<Sample>, minGap: real, dist: DistFn)
    requires |kept| <= MaxPoints
    decreases |points|
    ensures exists idx :: Seqs.Embedding(Spread(points, kept, minGap, dist)[|kept|..], points, idx)
  {
    var r := Spread(points, kept, minGap, dist);
    if |points| == 0 || |kept| == MaxPoints {
      assert Seqs.Embedding(r[|kept|..], points, []);
    } else {
      var p := points[0];
      var take := |kept| == 0 || !TooClose(kept, p, minGap, dist);
      var next := if take then kept + [p] else kept;
      assert r == Spread(points[1..], next, minGap, dist);
      SpreadIsSubsequence(points[1..], next, minGap, dist);
      var it :| Seqs.Embedding(r[|next|..], points[1..], it);
      if take {
        assert r[..|next|] == next;
        assert r[|kept|] == p;
        Seqs.EmbeddingTake(r, |kept|, points, it);
        assert Seqs.Embedding(r[|kept|..], points, [0] + Seqs.Shift(it, 1));
      } else {
        Seqs.EmbeddingSkip(r[|kept|..], points, it);
      }
    }
  }

  /** Nothing is dropped without cause: unless ten points were kept, every
      point is kept or lies too close to a kept one. */
  lemma {:induction false} SpreadCovers(points: seq<Sample>, kept: seq<Sample>, minGap: real, dist: DistFn)
    requires |kept| <= MaxPoints
    decreases |points|
    ensures var r := Spread(points, kept, minGap, dist);
            |r| < MaxPoints ==>
              forall j :: 0 <= j < |points| ==> points[j] in r || TooClose(r, points[j], minGap, dist)
  {
    var r := Spread(points, kept, minGap, dist);
    if |points| > 0 && |kept| < MaxPoints {
      var p := points[0];
      var take := |kept| == 0 || !TooClose(kept, p, minGap, dist);
      var next := if take then kept + [p] else kept;
      SpreadCovers(points[1..], next, minGap, dist);
      if |r| < MaxPoints {
        forall j | 0 <= j < |points|
          ensures points[j] in r || TooClose(r, points[j], minGap, dist)
        {
          if j > 0 {
            assert points[j] == points[1..][j - 1];
          } else if take {
            assert r[|kept|] == p;
          } else {
            var k :| 0 <= k < |kept| && dist(kept[k].lat, kept[k].lng, p.lat, p.lng) < minGap;
            assert r[k] == kept[k];
          }
        }
      }
    }
  }

  /** The first point is always kept. */
  lemma SpreadKeepsFirst(points: seq<Sample>, minGap: real, dist: DistFn)
    ensures |points| > 0 ==> |Spread(points, [], minGap, dist)| > 0 && Spread(points, [], minGap, dist)[0] == points[0]
  {
    if |points| > 0 {
      var r := Spread(points[1..], [] + [points[0]], minGap, dist);
      assert r[..1] == [points[0]];
    }
  }

  /** `inclusionPoints.sort(...)` then the spacing filter at 15% of the territory size. */
  function DistributeInclusions(points: seq<Sample>, size: real, dist: DistFn): (r: seq<Sample>)
    ensures |r| <= MaxPoints && |r| <= |points|
  {
    Spread(Seqs.SortByKey(points, Key), [], size * 0.15, dist)
  }

  /** The sample closest to the centre always survives the spacing filter, first. */
  lemma DistributeInclusionsKeepsClosest(points: seq<Sample>, size: real, dist: DistFn)
    requires |points| > 0
    ensures var r := DistributeInclusions(points, size, dist);
            |r| > 0 && r[0] == Seqs.SortByKey(points, Key)[0]
  {
    var sorted := Seqs.SortByKey(points, Key);
    assert |sorted| > 0;
    SpreadKeepsFirst(sorted, size * 0.15, dist);
    assert DistributeInclusions(points, size, dist) == Spread(sorted, [], size * 0.15, dist);
  }

  /** `r` is spaced by `minGap`, and a subsequence of `sorted` sorted as it is. */
  ghost predicate SpacedSortedSubsequence(r: seq<Sample>, sorted: seq<Sample>, minGap: real, dist: DistFn)
  {
    Spaced(r, minGap, dist) && Seqs.IsSubsequence(r, sorted) && Seqs.SortedByKey(r, Key)
  }

  /** The spacing filter over a sorted list keeps a spaced, sorted subsequence. */
  lemma SpreadOfSorted(sorted: seq<Sample>, minGap: real, dist: DistFn)
    requires Seqs.SortedByKey(sorted, Key)
    ensures SpacedSortedSubsequence(Spread(sorted, [], minGap, dist), sorted, minGap, dist)
  {
    var r := Spread(sorted, [], minGap, dist);
    SpreadSpaced(sorted, [], minGap, dist);
    SpreadIsSubsequence(sorted, [], minGap, dist);
    assert r[0..] == r;
    var idx :| Seqs.Embedding(r[0..], sorted, idx);
    Seqs.EmbeddingKeepsSorted(r, sorted, idx, Key);
  }

  /** The distributed inclusions are pairwise at least 15% of the territory
      size apart, and a subsequence of the sorted points, so themselves sorted
      by distance from the centre. */
  lemma DistributeInclusionsIsSortedSubsequence(points: seq<Sample>, size: real, dist: DistFn)
    ensures SpacedSortedSubsequence(DistributeInclusions(points, size, dist), Seqs.SortByKey(points, Key), size * 0.15, dist)
  {
    var sorted := Seqs.SortByKey(points, Key);
    SpreadOfSorted(sorted, size * 0.15, dist);
    assert DistributeInclusions(points, size, dist) == Spread(sorted, [], size * 0.15, dist);
  }

  // ---------------------------------------------------------------------------
  // Exterior sampler

  /** Which band a trial samples, chosen by its first draw. */
  datatype Side = North | South | East | West

  function SideOf(u: real): (s: Side)
    ensures s == North <==> u < 0.25
    ensures s == South <==> 0.25 <= u < 0.5
    ensures s == East <==> 0.5 <= u < 0.75
    ensures s == West <==> 0.75 <= u
  {
    if u < 0.25 then North else if u < 0.5 then South else if u < 0.75 then East else West
  }

  /** `(hi - lo) * u * 0.3`: up to 30% of the box's extent beyond an edge. */
  function Overhang(lo: real, hi: real, u: real): real
  {
    (hi - lo) * u * 0.3
  }

  lemma OverhangBounds(lo: real, hi: real, u: real)
    ensures lo <= hi && 0.0 <= u < 1.0 ==> 0.0 <= Overhang(lo, hi, u) <= (hi - lo) * 0.3
  {
    ScaleBounds(0.0, hi - lo, u);
    assert Scale(0.0, hi - lo, u) == (hi - lo) * u;
  }

  /** Trial `t` of the exterior sampler, whose draws start at `base`: draw
      `base + 3t` picks the side, the next two place the point; with those two
      in [0, 1), the point is in the band of the side picked. */
  function ExteriorCandidate(f: Frame, rand: nat -> real, base: nat, t: nat): (p: (real, real))
    ensures && f.box.minLat <= f.box.maxLat && f.box.minLng <= f.box.maxLng
            && 0.0 <= rand(base + 3 * t + 1) < 1.0 && 0.0 <= rand(base + 3 * t + 2) < 1.0
            ==> InBand(f.box, SideOf(rand(base + 3 * t)), p.0, p.1)
  {
    var b := f.box;
    var v, w := rand(base + 3 * t + 1), rand(base + 3 * t + 2);
    OverhangBounds(b.minLat, b.maxLat, v);
    OverhangBounds(b.minLng, b.maxLng, w);
    ScaleBounds(b.minLat, b.maxLat, v);
    ScaleBounds(b.minLng, b.maxLng, w);
    match SideOf(rand(base + 3 * t))
    case North => (b.maxLat + Overhang(b.minLat, b.maxLat, v), Scale(b.minLng, b.maxLng, w))
    case South => (b.minLat - Overhang(b.minLat, b.maxLat, v), Scale(b.minLng, b.maxLng, w))
    case East => (Scale(b.minLat, b.maxLat, v), b.maxLng + Overhang(b.minLng, b.maxLng, w))
    case West => (Scale(b.minLat, b.maxLat, v), b.minLng - Overhang(b.minLng, b.maxLng, w))
  }

  /** The band of a side: beyond its edge by at most 30% of the box's extent,
      and within the box along the edge. */
  predicate InBand(b: Box, side: Side, lat: real, lng: real)
  {
    var h, w := b.maxLat - b.minLat, b.maxLng - b.minLng;
    match side
    case North => b.maxLat <= lat <= b.maxLat + h * 0.3 && b.minLng <= lng <= b.maxLng
    case South => b.minLat - h * 0.3 <= lat <= b.minLat && b.minLng <= lng <= b.maxLng
    case East => b.minLat <= lat <= b.maxLat && b.maxLng <= lng <= b.maxLng + w * 0.3
    case West => b.minLat <= lat <= b.maxLat && b.minLng - w * 0.3 <= lng <= b.minLng
  }

  lemma ExteriorCandidateInBand(f: Frame, rand: nat -> real, base: nat, t: nat)
    requires ValidFrame(f) && ValidStream(rand)
    ensures var p := ExteriorCandidate(f, rand, base, t);
            InBand(f.box, SideOf(rand(base + 3 * t)), p.0, p.1)
  {
    FrameBoxOrdered(f);
  }

  /** The point lies in at least one of the four bands. */
  predicate InSomeBand(b: Box, lat: real, lng: real)
  {
    InBand(b, North, lat, lng) || InBand(b, South, lat, lng) || InBand(b, East, lat, lng) || InBand(b, West, lat, lng)
  }

  /** Two different bands share only points of the box's edges; the corner
      `(minLat, minLng)`, for one, is in both the south and the west band. */
  lemma BandsMeetOnlyOnEdges(b: Box, s1: Side, s2: Side, lat: real, lng: real)
    requires s1 != s2
    requires InBand(b, s1, lat, lng) && InBand(b, s2, lat, lng)
    ensures lat == b.minLat || lat == b.maxLat || lng == b.minLng || lng == b.maxLng
  {
  }

  lemma BandsOverlapAtCorner(b: Box)
    requires b.minLat <= b.maxLat && b.minLng <= b.maxLng
    ensures InBand(b, South, b.minLat, b.minLng) && InBand(b, West, b.minLat, b.minLng)
  {
  }

  /** North and east candidates never pass the ray-casting test: no vertex
      lies above the box's top edge or east of its right edge. */
  lemma NorthAndEastNeverInside(f: Frame, side: Side, lat: real, lng: real)
    requires ValidFrame(f)
    requires side == North || side == East
    requires InBand(f.box, side, lat, lng)
    ensures !Inside(f, lat, lng)
  {
    if side == North {
      assert forall k :: 0 <= k < |f.ring| ==> InBox(f.box, f.ring[k].y, f.ring[k].x);
      AboveAllOutside(Pos(lng, lat), f.ring);
    } else {
      assert forall k :: 0 <= k < |f.ring| ==> InBox(f.box, f.ring[k].y, f.ring[k].x);
      EastOfAllOutside(Pos(lng, lat), f.ring);
    }
  }

  /** `Math.min(...coords.map(c => Dist(lat, lng, c[1], c[0])))`: the distance to the nearest vertex. */
  function DistToRing(f: Frame, dist: DistFn, lat: real, lng: real): (m: real)
    ensures |f.ring| > 0 ==> forall k :: 0 <= k < |f.ring| ==> m <= dist(lat, lng, f.ring[k].y, f.ring[k].x)
    ensures |f.ring| > 0 ==> exists k :: 0 <= k < |f.ring| && m == dist(lat, lng, f.ring[k].y, f.ring[k].x)
  {
    if |f.ring| == 0 then 0.0
    else
      var ds := seq(|f.ring|, k requires 0 <= k < |f.ring| => dist(lat, lng, f.ring[k].y, f.ring[k].x));
      assert forall k :: 0 <= k < |ds| ==> ds[k] == dist(lat, lng, f.ring[k].y, f.ring[k].x);
      MinOf(ds)
  }

  function ExteriorHits(f: Frame, rand: nat -> real, base: nat): nat -> bool
  {
    (t: nat) => var p := ExteriorCandidate(f, rand, base, t); !Inside(f, p.0, p.1)
  }

  function ExteriorDraws(f: Frame, rand: nat -> real, dist: DistFn, base: nat): nat -> Sample
  {
    (t: nat) => var p := ExteriorCandidate(f, rand, base, t); Sample(p.0, p.1, DistToRing(f, dist, p.0, p.1))
  }

  /** The exterior sampler, reading the stream from draw `base` on. */
  function SampleExterior(f: Frame, rand: nat -> real, dist: DistFn, base: nat): (r: Run)
    ensures r.trials <= MaxTrials && |r.points| <= MaxPoints && |r.points| <= r.trials
  {
    RunSampler(ExteriorHits(f, rand, base), ExteriorDraws(f, rand, dist, base), 0, [])
  }

  /** Every accepted exterior point fails the ray-casting test, lies in one of
      the four bands, and is keyed by its distance to the nearest vertex. */
  lemma SampleExteriorPoints(f: Frame, rand: nat -> real, dist: DistFn, base: nat)
    requires ValidFrame(f) && ValidStream(rand)
    ensures var r := SampleExterior(f, rand, dist, base);
            forall k :: 0 <= k < |r.points| ==>
              && !Inside(f, r.points[k].lat, r.points[k].lng)
              && InSomeBand(f.box, r.points[k].lat, r.points[k].lng)
              && r.points[k].key == DistToRing(f, dist, r.points[k].lat, r.points[k].lng)
  {
    var hit, draw := ExteriorHits(f, rand, base), ExteriorDraws(f, rand, dist, base);
    var P := (s: Sample) =>
      && !Inside(f, s.lat, s.lng)
      && InSomeBand(f.box, s.lat, s.lng)
      && s.key == DistToRing(f, dist, s.lat, s.lng);
    forall u: nat | hit(u)
      ensures P(draw(u))
    {
      ExteriorCandidateInBand(f, rand, base, u);
    }
    RunSamplerPointsSatisfy(hit, draw, P, 0, []);
  }

  /** Every north or east trial the sampler runs is accepted. */
  lemma NorthAndEastTrialsKept(f: Frame, rand: nat -> real, dist: DistFn, base: nat, t: nat)
    requires ValidFrame(f) && ValidStream(rand)
    requires t < SampleExterior(f, rand, dist, base).trials
    requires SideOf(rand(base + 3 * t)) in {North, East}
    ensures ExteriorDraws(f, rand, dist, base)(t) in SampleExterior(f, rand, dist, base).points
  {
    var p := ExteriorCandidate(f, rand, base, t);
    ExteriorCandidateInBand(f, rand, base, t);
    NorthAndEastNeverInside(f, SideOf(rand(base + 3 * t)), p.0, p.1);
    RunSamplerKeepsHits(ExteriorHits(f, rand, base), ExteriorDraws(f, rand, dist, base), 0, []);
  }

  /** `exclusionPoints.sort(...).slice(0, 10)`: the ten points nearest the boundary. */
  function TopExclusions(points: seq<Sample>): (top: seq<Sample>)
    ensures Seqs.SortedByKey(top, Key)
    ensures |top| == if |points| < MaxPoints then |points| else MaxPoints
    ensures multiset(top) <= multiset(points)
    ensures Seqs.KeepsLeast(top, points, Key)
  {
    var sorted := Seqs.SortByKey(points, Key);
    var n := if |sorted| < MaxPoints then |sorted| else MaxPoints;
    Seqs.SortedPrefixKeepsLeast(sorted, points, Key, n);
    sorted[..n]
  }

  /** The sampler never holds more than ten points, so the cut drops nothing. */
  lemma TopExclusionsKeepsAll(points: seq<Sample>)
    requires |points| <= MaxPoints
    ensures multiset(TopExclusions(points)) == multiset(points)
  {
    var sorted := Seqs.SortByKey(points, Key);
    assert sorted[..|sorted|] == sorted;
  }

  // ---------------------------------------------------------------------------
  // What survives the spacing filter and the cut

  /** An interior sample's place: in the box and inside the ring. */
  ghost predicate InteriorPoint(f: Frame, p: Sample)
  {
    InBox(f.box, p.lat, p.lng) && Inside(f, p.lat, p.lng)
  }

  /** An exterior sample's place: outside the ring, in one of the bands. */
  ghost predicate ExteriorPoint(f: Frame, p: Sample)
  {
    !Inside(f, p.lat, p.lng) && InSomeBand(f.box, p.lat, p.lng)
  }

  /** The distributed inclusions are interior samples: in the box and inside the ring. */
  lemma DistributedInside(f: Frame, rand: nat -> real, dist: DistFn, size: real)
    requires ValidFrame(f) && ValidStream(rand)
    ensures forall i :: 0 <= i < |DistributeInclusions(SampleInterior(f, rand, dist).points, size, dist)| ==>
              InteriorPoint(f, DistributeInclusions(SampleInterior(f, rand, dist).points, size, dist)[i])
  {
    var points := SampleInterior(f, rand, dist).points;
    var P := (s: Sample) => InteriorPoint(f, s);
    SampleInteriorPoints(f, rand, dist);
    forall k | 0 <= k < |points|
      ensures P(points[k])
    {
    }
    DistributeKeeps(points, size, dist, P);
  }

  /** Whatever holds of every candidate holds of every distributed point. */
  lemma DistributeKeeps(points: seq<Sample>, size: real, dist: DistFn, P: Sample -> bool)
    requires forall k :: 0 <= k < |points| ==> P(points[k])
    ensures var d := DistributeInclusions(points, size, dist);
            forall i :: 0 <= i < |d| ==> P(d[i])
  {
    var sorted := Seqs.SortByKey(points, Key);
    var d := DistributeInclusions(points, size, dist);
    Seqs.SubMultisetKeeps(sorted, points, P);
    DistributeInclusionsIsSortedSubsequence(points, size, dist);
    var idx :| Seqs.Embedding(d, sorted, idx);
    Seqs.EmbeddingKeeps(d, sorted, idx, P);
  }

  /** The ten exclusions kept are exterior samples: outside the ring, each in a band. */
  lemma TopOutside(f: Frame, rand: nat -> real, dist: DistFn, base: nat)
    requires ValidFrame(f) && ValidStream(rand)
    ensures forall j :: 0 <= j < |TopExclusions(SampleExterior(f, rand, dist, base).points)| ==>
              ExteriorPoint(f, TopExclusions(SampleExterior(f, rand, dist, base).points)[j])
  {
    var points := SampleExterior(f, rand, dist, base).points;
    var P := (s: Sample) => ExteriorPoint(f, s);
    SampleExteriorPoints(f, rand, dist, base);
    forall k | 0 <= k < |points|
      ensures P(points[k])
    {
    }
    Seqs.SubMultisetKeeps(TopExclusions(points), points, P);
  }
}

=== FILE: seqs.dfy ===
/** Sequence vocabulary shared by the model: order-preserving subsequences,
    filtering, sorting by a numeric key and sorted lists of distinct values. */
module Seqs {

  /** `idx` lists, in strictly increasing order, the positions of `b` from which
      the elements of `a` are taken. */
  ghost predicate Embedding<T>(a: seq<T>, b: seq<T>, idx: seq<int>)
  {
    && |idx| == |a|
    && (forall k :: 0 <= k < |idx| ==> 0 <= idx[k] < |b| && a[k] == b[idx[k]])
    && (forall k, l :: 0 <= k < l < |idx| ==> idx[k] < idx[l])
  }

  /** `a` is an order-preserving subsequence of `b`. */
  ghost predicate IsSubsequence<T>(a: seq<T>, b: seq<T>)
  {
    exists idx :: Embedding(a, b, idx)
  }

  /** What holds of every element of `b` holds of every element of a subsequence of `b`. */
  lemma EmbeddingKeeps<T>(a: seq<T>, b: seq<T>, idx: seq<int>, P: T -> bool)
    requires Embedding(a, b, idx)
    requires forall k :: 0 <= k < |b| ==> P(b[k])
    ensures forall k :: 0 <= k < |a| ==> P(a[k])
  {
    forall k | 0 <= k < |a|
      ensures P(a[k])
    {
      assert a[k] == b[idx[k]];
    }
  }

  /** What holds of every element of `b` holds of every element of a sub-multiset of `b`. */
  lemma SubMultisetKeeps<T>(a: seq<T>, b: seq<T>, P: T -> bool)
    requires multiset(a) <= multiset(b)
    requires forall k :: 0 <= k < |b| ==> P(b[k])
    ensures forall k :: 0 <= k < |a| ==> P(a[k])
  {
    forall k | 0 <= k < |a|
      ensures P(a[k])
    {
      assert a[k] in multiset(a);
      assert a[k] in b;
      var m :| 0 <= m < |b| && b[m] == a[k];
    }
  }

  // ---------------------------------------------------------------------------
  // Filtering

  /** `Array.prototype.filter`: the elements satisfying `p`, in their original order. */
  function Filter<T>(s: seq<T>, p: T -> bool): (r: seq<T>)
    ensures |r| <= |s|
    ensures forall k :: 0 <= k < |r| ==> p(r[k])
    ensures forall x :: x in s && p(x) ==> x in r
    ensures forall x :: x in r ==> x in s
  {
    if |s| == 0 then []
    else if p(s[0]) then [s[0]] + Filter(s[1..], p)
    else Filter(s[1..], p)
  }

  /** `Filter` one element at a time, from the front. */
  lemma FilterCons<T>(x: T, s: seq<T>, p: T -> bool)
    ensures Filter([x] + s, p) == if p(x) then [x] + Filter(s, p) else Filter(s, p)
  {
    assert ([x] + s)[1..] == s;
  }

  /** Every position moved by `d`. */
  ghost function Shift(idx: seq<int>, d: int): (r: seq<int>)
    ensures |r| == |idx|
    ensures forall k :: 0 <= k < |r| ==> r[k] == idx[k] + d
  {
    seq(|idx|, k requires 0 <= k < |idx| => idx[k] + d)
  }

  lemma ShiftMembership(idx: seq<int>, d: int, j: int)
    ensures j in Shift(idx, d) <==> j - d in idx
  {
    if j - d in idx {
      var k :| 0 <= k < |idx| && idx[k] == j - d;
      assert Shift(idx, d)[k] == j;
    }
  }

  /** An embedding into the tail of `b` is an embedding into `b`, one position later. */
  lemma EmbeddingSkip<T>(a: seq<T>, b: seq<T>, it: seq<int>)
    requires |b| > 0
    requires Embedding(a, b[1..], it)
    ensures Embedding(a, b, Shift(it, 1))
  {
  }

  /** Taking the head of `b` as well extends the embedding with position 0. */
  lemma EmbeddingCons<T>(a: seq<T>, b: seq<T>, it: seq<int>)
    requires |b| > 0
    requires Embedding(a, b[1..], it)
    ensures Embedding([b[0]] + a, b, [0] + Shift(it, 1))
  {
    var idx := [0] + Shift(it, 1);
    forall k | 0 <= k < |idx|
      ensures 0 <= idx[k] < |b| && ([b[0]] + a)[k] == b[idx[k]]
    {
      if k > 0 {
        assert idx[k] == it[k - 1] + 1;
      }
    }
  }

  /** Taking `b[0]` after the first `n` elements of `r`: the rest of `r`
      embeds into `b` when what follows embeds into `b[1..]`. */
  lemma EmbeddingTake<T>(r: seq<T>, n: nat, b: seq<T>, it: seq<int>)
    requires |b| > 0 && n < |r| && r[n] == b[0]
    requires Embedding(r[n + 1..], b[1..], it)
    ensures Embedding(r[n..], b, [0] + Shift(it, 1))
  {
    EmbeddingCons(r[n + 1..], b, it);
    assert r[n..] == [b[0]] + r[n + 1..];
  }

  /** Joining an embedding into `b[..m + 1]` that ends at position `m` with an
      embedding into `b[m..]`, sharing the element at `m`, embeds into `b`. */
  lemma EmbeddingJoin<T>(left: seq<T>, right: seq<T>, b: seq<T>, m: nat, il: seq<int>, ir: seq<int>)
    requires m < |b|
    requires Embedding(left, b[..m + 1], il) && |il| > 0 && il[|il| - 1] == m
    requires Embedding(right, b[m..], ir)
    ensures Embedding(left[..|left| - 1] + right, b, il[..|il| - 1] + Shift(ir, m))
  {
    var front, back := il[..|il| - 1], Shift(ir, m);
    var a, idx := left[..|left| - 1] + right, front + back;
    forall k | 0 <= k < |front|
      ensures 0 <= front[k] < m && a[k] == b[front[k]]
    {
      assert il[k] < il[|il| - 1];
    }
    forall k | |front| <= k < |idx|
      ensures m <= idx[k] < |b| && a[k] == b[idx[k]]
    {
      var k' := k - |front|;
      assert a[k] == right[k'] && idx[k] == ir[k'] + m;
    }
  }

  /** `idx` embeds `Filter(s, p)` into `s` and holds exactly the positions whose element satisfies `p`. */
  ghost predicate FilterPositions<T>(s: seq<T>, p: T -> bool, idx: seq<int>)
  {
    && Embedding(Filter(s, p), s, idx)
    && forall j :: 0 <= j < |s| ==> (p(s[j]) <==> j in idx)
  }

  /** The positions for `s` from those for its tail: shifted, with 0 added when the head is kept. */
  ghost function ConsPositions<T>(s: seq<T>, p: T -> bool, it: seq<int>): seq<int>
    requires |s| > 0
  {
    if p(s[0]) then [0] + Shift(it, 1) else Shift(it, 1)
  }

  lemma FilterEmbeddingStep<T>(s: seq<T>, p: T -> bool, tail: seq<T>, it: seq<int>)
    requires |s| > 0 && tail == s[1..]
    requires Embedding(Filter(tail, p), tail, it)
    ensures Embedding(Filter(s, p), s, ConsPositions(s, p, it))
  {
    if p(s[0]) {
      EmbeddingCons(Filter(tail, p), s, it);
    } else {
      EmbeddingSkip(Filter(tail, p), s, it);
    }
  }

  lemma FilterMembershipStep<T>(s: seq<T>, p: T -> bool, tail: seq<T>, it: seq<int>)
    requires |s| > 0 && tail == s[1..]
    requires forall k :: 0 <= k < |it| ==> 0 <= it[k]
    requires forall j :: 0 <= j < |tail| ==> (p(tail[j]) <==> j in it)
    ensures forall j :: 0 <= j < |s| ==> (p(s[j]) <==> j in ConsPositions(s, p, it))
  {
    var idx := ConsPositions(s, p, it);
    assert 0 !in Shift(it, 1) by {
      ShiftMembership(it, 1, 0);
    }
    forall j | 0 <= j < |s|
      ensures p(s[j]) <==> j in idx
    {
      if j > 0 {
        ShiftMembership(it, 1, j);
        assert s[j] == tail[j - 1];
      }
    }
  }

  /** Exactly the positions of `s` whose element satisfies `p` are kept, in order. */
  lemma {:induction false} FilterSelectsExactly<T>(s: seq<T>, p: T -> bool)
    ensures exists idx :: Embedding(Filter(s, p), s, idx)
                          && forall j :: 0 <= j < |s| ==> (p(s[j]) <==> j in idx)
  {
    if |s| == 0 {
      var idx: seq<int> := [];
      assert Embedding(Filter(s, p), s, idx);
    } else {
      var tail := s[1..];
      FilterSelectsExactly(tail, p);
      var it :| Embedding(Filter(tail, p), tail, it)
                && forall j :: 0 <= j < |tail| ==> (p(tail[j]) <==> j in it);
      FilterEmbeddingStep(s, p, tail, it);
      FilterMembershipStep(s, p, tail, it);
      assert FilterPositions(s, p, ConsPositions(s, p, it));
    }
  }

  // ---------------------------------------------------------------------------
  // Sorting by a numeric key

  /** Ascending by `key`, the order `(a, b) => key(a) - key(b)` sorts into. */
  ghost predicate SortedByKey<T>(s: seq<T>, key: T -> real)
  {
    forall i, j :: 0 <= i < j < |s| ==> key(s[i]) <= key(s[j])
  }

  /** A sorted list stays sorted under a new head no greater than any of its keys. */
  lemma SortedCons<T>(h: T, s: seq<T>, key: T -> real)
    requires SortedByKey(s, key)
    requires forall k :: 0 <= k < |s| ==> key(h) <= key(s[k])
    ensures SortedByKey([h] + s, key)
  {
    var r := [h] + s;
    forall i, j | 0 <= i < j < |r|
      ensures key(r[i]) <= key(r[j])
    {
      assert r[j] == s[j - 1];
      if i > 0 {
        assert r[i] == s[i - 1];
      }
    }
  }

  /** A lower bound on the keys of `s` and on `key(x)` bounds every element of a
      list drawn from `s` and `x`. */
  lemma DrawnKeepsBound<T>(x: T, s: seq<T>, r: seq<T>, key: T -> real, lo: real)
    requires lo <= key(x)
    requires forall k :: 0 <= k < |s| ==> lo <= key(s[k])
    requires forall k :: 0 <= k < |r| ==> r[k] == x || r[k] in s
    ensures forall k :: 0 <= k < |r| ==> lo <= key(r[k])
  {
    forall k | 0 <= k < |r|
      ensures lo <= key(r[k])
    {
      if r[k] != x {
        var m :| 0 <= m < |s| && s[m] == r[k];
      }
    }
  }

  /** A subsequence of a sorted list is sorted. */
  lemma EmbeddingKeepsSorted<T>(a: seq<T>, b: seq<T>, idx: seq<int>, key: T -> real)
    requires Embedding(a, b, idx)
    requires SortedByKey(b, key)
    ensures SortedByKey(a, key)
  {
    forall i, j | 0 <= i < j < |a|
      ensures key(a[i]) <= key(a[j])
    {
      assert a[i] == b[idx[i]] && a[j] == b[idx[j]] && idx[i] < idx[j];
    }
  }

  /** Inserts `x` before the first element whose key is not smaller, so that
      `x`, which came earlier in the input, stays ahead of equal keys. */
  function InsertByKey<T>(x: T, s: seq<T>, key: T -> real): (r: seq<T>)
    requires SortedByKey(s, key)
    ensures SortedByKey(r, key)
    ensures multiset(r) == multiset(s) + multiset{x}
    ensures |r| == |s| + 1
    ensures forall k :: 0 <= k < |r| ==> r[k] == x || r[k] in s
  {
    if |s| == 0 then [x]
    else if key(x) <= key(s[0]) then [x] + s
    else
      var tail := s[1..];
      assert forall k :: 0 <= k < |tail| ==> key(s[0]) <= key(tail[k]) by {
        forall k | 0 <= k < |tail|
          ensures key(s[0]) <= key(tail[k])
        {
          assert tail[k] == s[k + 1];
        }
      }
      var rest := InsertByKey(x, tail, key);
      DrawnKeepsBound(x, tail, rest, key, key(s[0]));
      SortedCons(s[0], rest, key);
      assert s == [s[0]] + tail;
      [s[0]] + rest
  }

  /** The stable sort of `Array.prototype.sort` with a numeric-difference comparator. */
  function SortByKey<T>(s: seq<T>, key: T -> real): (r: seq<T>)
    ensures SortedByKey(r, key)
    ensures multiset(r) == multiset(s)
    ensures |r| == |s|
  {
    if |s| == 0 then []
    else
      assert s == [s[0]] + s[1..];
      InsertByKey(s[0], SortByKey(s[1..], key), key)
  }

  /** `kept` is drawn from `all` and holds its least keys: nothing left out
      has a smaller key than anything kept. */
  ghost predicate KeepsLeast<T>(kept: seq<T>, all: seq<T>, key: T -> real)
  {
    && multiset(kept) <= multiset(all)
    && forall x :: x in multiset(all) - multiset(kept) ==>
         forall k :: 0 <= k < |kept| ==> key(kept[k]) <= key(x)
  }

  /** A prefix of a sorted list holds its least keys. */
  lemma SortedPrefixKeepsLeast<T>(sorted: seq<T>, all: seq<T>, key: T -> real, n: nat)
    requires SortedByKey(sorted, key) && n <= |sorted|
    requires multiset(sorted) == multiset(all)
    ensures SortedByKey(sorted[..n], key)
    ensures KeepsLeast(sorted[..n], all, key)
  {
    assert sorted == sorted[..n] + sorted[n..];
    assert multiset(sorted) - multiset(sorted[..n]) == multiset(sorted[n..]);
    forall x | x in multiset(all) - multiset(sorted[..n])
      ensures forall k :: 0 <= k < n ==> key(sorted[k]) <= key(x)
    {
      assert x in sorted[n..];
      var m :| 0 <= m < |sorted[n..]| && sorted[n..][m] == x;
      assert x == sorted[n + m];
    }
  }

  /** Holds of the elements whose key is `v`. */
  function HasKey<T>(key: T -> real, v: real): T -> bool
  {
    x => key(x) == v
  }

  /** Inserting `x` keeps it ahead of the elements with its key: the elements
      of any one key come out as they would after putting `x` in front. */
  lemma {:induction false} InsertByKeyStable<T>(x: T, s: seq<T>, key: T -> real, v: real)
    requires SortedByKey(s, key)
    ensures Filter(InsertByKey(x, s, key), HasKey(key, v)) == Filter([x] + s, HasKey(key, v))
  {
    if |s| > 0 && key(x) > key(s[0]) {
      var p := HasKey(key, v);
      var tail := s[1..];
      var rest := InsertByKey(x, tail, key);
      assert s == [s[0]] + tail;
      assert InsertByKey(x, s, key) == [s[0]] + rest;
      InsertByKeyStable(x, tail, key, v);
      FilterCons(s[0], rest, p);
      FilterCons(s[0], tail, p);
      FilterCons(x, tail, p);
      FilterCons(x, s, p);
      if p(x) {
        assert !p(s[0]);
        assert Filter([s[0]] + rest, p) == [x] + Filter(tail, p);
      } else {
        assert Filter(rest, p) == Filter(tail, p);
      }
    }
  }

  /** `SortByKey` is stable: the elements of any one key keep their input order. */
  lemma {:induction false} SortByKeyStable<T>(s: seq<T>, key: T -> real, v: real)
    ensures Filter(SortByKey(s, key), HasKey(key, v)) == Filter(s, HasKey(key, v))
  {
    if |s| > 0 {
      var sortedTail := SortByKey(s[1..], key);
      assert SortByKey(s, key) == InsertByKey(s[0], sortedTail, key);
      SortByKeyStable(s[1..], key, v);
      InsertByKeyStable(s[0], sortedTail, key, v);
      FilterCons(s[0], sortedTail, HasKey(key, v));
      FilterCons(s[0], s[1..], HasKey(key, v));
      assert s == [s[0]] + s[1..];
    }
  }

  // ---------------------------------------------------------------------------
  // Sorted lists of distinct values (`[...new Set(xs)].sort(...)`)

  ghost predicate StrictTotalOrder<T(!new)>(lt: (T, T) -> bool)
  {
    && (forall a :: !lt(a, a))
    && (forall a, b, c :: lt(a, b) && lt(b, c) ==> lt(a, c))
    && (forall a, b :: a != b ==> lt(a, b) || lt(b, a))
  }

  ghost predicate StrictlyIncreasing<T>(s: seq<T>, lt: (T, T) -> bool)
  {
    forall i, j :: 0 <= i < j < |s| ==> lt(s[i], s[j])
  }

  function InsertUnique<T(==,!new)>(x: T, s: seq<T>, lt: (T, T) -> bool): (r: seq<T>)
    requires StrictTotalOrder(lt)
    requires StrictlyIncreasing(s, lt)
    ensures StrictlyIncreasing(r, lt)
    ensures forall y :: y in r <==> y in s || y == x
  {
    if |s| == 0 then [x]
    else if x == s[0] then s
    else if lt(x, s[0]) then [x] + s
    else
      assert lt(s[0], x);
      var rest := InsertUnique(x, s[1..], lt);
      assert forall y :: y in s <==> y == s[0] || y in s[1..];
      assert forall k :: 0 <= k < |rest| ==> lt(s[0], rest[k]) by {
        forall k | 0 <= k < |rest|
          ensures lt(s[0], rest[k])
        {
          assert rest[k] in rest;
          if rest[k] != x {
            assert rest[k] in s[1..];
            var m :| 0 <= m < |s[1..]| && s[1..][m] == rest[k];
            assert s[m + 1] == rest[k];
          }
        }
      }
      [s[0]] + rest
  }

  /** The distinct elements of `xs`, each once, in increasing order. */
  function SortedDistinct<T(==,!new)>(xs: seq<T>, lt: (T, T) -> bool): (r: seq<T>)
    requires StrictTotalOrder(lt)
    ensures StrictlyIncreasing(r, lt)
    ensures forall y :: y in r <==> y in xs
  {
    if |xs| == 0 then []
    else
      assert forall y :: y in xs <==> y in xs[..|xs| - 1] || y == xs[|xs| - 1];
      InsertUnique(xs[|xs| - 1], SortedDistinct(xs[..|xs| - 1], lt), lt)
  }

  /** A strictly increasing list holds no value twice. */
  lemma StrictlyIncreasingIsDistinct<T(!new)>(s: seq<T>, lt: (T, T) -> bool)
    requires StrictTotalOrder(lt)
    requires StrictlyIncreasing(s, lt)
    ensures forall i, j :: 0 <= i < j < |s| ==> s[i] != s[j]
  {
    forall i, j | 0 <= i < j < |s|
      ensures s[i] != s[j]
    {
      assert lt(s[i], s[j]);
    }
  }

  /** `<` on integers, as a function value for `SortedDistinct`. */
  predicate IntLess(a: int, b: int) { a < b }

  lemma IntLessIsStrictTotalOrder()
    ensures StrictTotalOrder(IntLess)
  {
  }
}

=== FILE: simplify.dfy ===
/** Polygon simplification from `lib/geo-utils.ts`: the point-to-segment
    distance, recursive Douglas-Peucker and the tolerance search that aims at
    a target vertex count.

    Distances here are planar and SQUARED: the source takes a square root at
    the end of `perpendicularDistance` and compares the roots. Because the root
    is strictly increasing on non-negative reals, `sqrt(a) > sqrt(b)` iff
    `a > b`, and `sqrt(a) > tolerance` iff `a > tolerance * tolerance` for a
    non-negative tolerance, so every decision is the same. */
module Simplify {
  import opened Types
  import Seqs

  function Sq(v: real): (s: real)
    ensures s >= 0.0
  {
    v * v
  }

  function Mul(u: real, v: real): real
  {
    u * v
  }

  function SqDist(p: Pos, q: Pos): (d: real)
    ensures d >= 0.0
    ensures p == q ==> d == 0.0
  {
    Sq(p.x - q.x) + Sq(p.y - q.y)
  }

  /** The point a fraction `t` of the way from `a` to `b`. */
  function Lerp(a: Pos, b: Pos, t: real): Pos
  {
    Pos(a.x + t * (b.x - a.x), a.y + t * (b.y - a.y))
  }

  /** Dot product of `p - a` with `b - a`. */
  function Dot(p: Pos, a: Pos, b: Pos): real
  {
    Mul(p.x - a.x, b.x - a.x) + Mul(p.y - a.y, b.y - a.y)
  }

  /** Squared length of the segment. */
  function LenSq(a: Pos, b: Pos): real
  {
    Sq(b.x - a.x) + Sq(b.y - a.y)
  }

  /** The projection parameter `param`: -1 for a zero-length segment. */
  function Param(p: Pos, a: Pos, b: Pos): real
  {
    if LenSq(a, b) != 0.0 then Dot(p, a, b) / LenSq(a, b) else -1.0
  }

  /** The point of the segment `a`-`b` that `perpendicularDistance` measures
      to: `a` when the projection parameter is negative (which includes a
      zero-length segment), `b` when it exceeds 1, the foot of the
      perpendicular otherwise. */
  function NearestOnSegment(p: Pos, a: Pos, b: Pos): Pos
  {
    var param := Param(p, a, b);
    if param < 0.0 then a
    else if param > 1.0 then b
    else Lerp(a, b, param)
  }

  /** `perpendicularDistance(point, lineStart, lineEnd)`, squared. */
  function PerpendicularDistance(p: Pos, a: Pos, b: Pos): (d: real)
    ensures d >= 0.0
    ensures p == a ==> d == 0.0
  {
    SqDist(p, NearestOnSegment(p, a, b))
  }

  // ---------------------------------------------------------------------------
  // The perpendicular distance is the distance to the nearest point of the segment

  /** `base - 2 t dot + t^2 lenSq`: squared distance from the point at parameter `t`. */
  function Quadratic(base: real, dot: real, lenSq: real, t: real): real
  {
    base - 2.0 * t * dot + t * t * lenSq
  }

  lemma SquareOfDifference(u: real, v: real, t: real)
    ensures (u - t * v) * (u - t * v) == u * u - 2.0 * t * (u * v) + t * t * (v * v)
  {
  }

  lemma Distribute(k: real, x: real, y: real)
    ensures k * x + k * y == k * (x + y)
  {
  }

  /** The expansion behind `SqDistAlongSegment`, on the coordinate differences
      `A, B` (point minus start) and `C, D` (end minus start). */
  lemma ExpandAlongSegment(A: real, B: real, C: real, D: real, t: real)
    ensures Sq(A - t * C) + Sq(B - t * D) == Quadratic(Sq(A) + Sq(B), Mul(A, C) + Mul(B, D), Sq(C) + Sq(D), t)
  {
    SquareOfDifference(A, C, t);
    SquareOfDifference(B, D, t);
    Distribute(2.0 * t, A * C, B * D);
    Distribute(t * t, C * C, D * D);
  }

  /** Squared distance to a point of the segment, as a quadratic in `t`. */
  lemma SqDistAlongSegment(p: Pos, a: Pos, b: Pos, t: real)
    ensures SqDist(p, Lerp(a, b, t)) == Quadratic(SqDist(p, a), Dot(p, a, b), LenSq(a, b), t)
  {
    var q := Lerp(a, b, t);
    var A, B, C, D := p.x - a.x, p.y - a.y, b.x - a.x, b.y - a.y;
    assert p.x - q.x == A - t * C && p.y - q.y == B - t * D;
    assert SqDist(p, q) == Sq(A - t * C) + Sq(B - t * D);
    assert SqDist(p, a) == Sq(A) + Sq(B);
    assert LenSq(a, b) == Sq(C) + Sq(D);
    assert Dot(p, a, b) == Mul(A, C) + Mul(B, D);
    ExpandAlongSegment(A, B, C, D, t);
  }

  lemma QuadraticMinAtStart(base: real, dot: real, lenSq: real, t: real)
    requires lenSq >= 0.0 && dot <= 0.0 && 0.0 <= t
    ensures Quadratic(base, dot, lenSq, 0.0) == base <= Quadratic(base, dot, lenSq, t)
  {
    assert t * t * lenSq >= 0.0;
    assert t * dot <= 0.0;
  }

  lemma QuadraticMinAtEnd(base: real, dot: real, lenSq: real, t: real)
    requires lenSq >= 0.0 && dot >= lenSq && t <= 1.0
    ensures Quadratic(base, dot, lenSq, 1.0) <= Quadratic(base, dot, lenSq, t)
  {
    var g := 2.0 * dot - (1.0 + t) * lenSq;
    assert Quadratic(base, dot, lenSq, t) - Quadratic(base, dot, lenSq, 1.0) == (1.0 - t) * g;
    assert (1.0 + t) * lenSq <= 2.0 * lenSq;
    assert g >= 0.0;
    assert (1.0 - t) * g >= 0.0;
  }

  lemma QuadraticMinAtVertex(base: real, dot: real, lenSq: real, param: real, t: real)
    requires lenSq > 0.0 && param * lenSq == dot
    ensures Quadratic(base, dot, lenSq, param) <= Quadratic(base, dot, lenSq, t)
  {
    assert Quadratic(base, dot, lenSq, t) - Quadratic(base, dot, lenSq, param)
        == lenSq * ((t - param) * (t - param));
    assert (t - param) * (t - param) >= 0.0;
  }

  lemma SquarePositive(c: real)
    requires c != 0.0
    ensures c * c > 0.0
  {
    if c < 0.0 {
      var d := -c;
      assert d * d > 0.0;
      assert d * d == c * c;
    }
  }

  lemma SquareNonNegative(c: real)
    ensures c * c >= 0.0
  {
    if c != 0.0 {
      SquarePositive(c);
    }
  }

  lemma SumOfSquaresPositive(c: real, d: real)
    requires c != 0.0 || d != 0.0
    ensures c * c + d * d > 0.0
  {
    if c != 0.0 {
      SquarePositive(c);
      SquareNonNegative(d);
    } else {
      SquarePositive(d);
      SquareNonNegative(c);
    }
  }

  /** Distinct ends make a segment of positive length, so `param` is a true projection. */
  lemma DistinctEndsPositiveLength(a: Pos, b: Pos)
    requires a != b
    ensures LenSq(a, b) > 0.0
  {
    var C, D := b.x - a.x, b.y - a.y;
    assert a.x != b.x || a.y != b.y;
    SumOfSquaresPositive(C, D);
    calc {
      LenSq(a, b);
    ==
      C * C + D * D;
    >
      0.0;
    }
  }

  /** With a positive length, the parameter's position against 0 and 1 is the
      dot product's position against 0 and the squared length. */
  lemma ParamSides(param: real, dot: real, lenSq: real)
    requires lenSq > 0.0 && param * lenSq == dot
    ensures param < 0.0 ==> dot < 0.0
    ensures param > 1.0 ==> dot > lenSq
  {
    assert dot - lenSq == (param - 1.0) * lenSq;
    assert param < 0.0 ==> param * lenSq < 0.0;
    assert param > 1.0 ==> (param - 1.0) * lenSq > 0.0;
  }

  /** With a positive length, `param` times the length is the dot product. */
  lemma ParamScaled(p: Pos, a: Pos, b: Pos)
    requires LenSq(a, b) > 0.0
    ensures Param(p, a, b) * LenSq(a, b) == Dot(p, a, b)
  {
  }

  /** A projection before the start has a negative dot product; one beyond the
      end, a dot product above the squared length. */
  lemma ParamSign(p: Pos, a: Pos, b: Pos)
    requires LenSq(a, b) > 0.0
    ensures Param(p, a, b) < 0.0 ==> Dot(p, a, b) < 0.0
    ensures Param(p, a, b) > 1.0 ==> Dot(p, a, b) > LenSq(a, b)
  {
    ParamScaled(p, a, b);
    ParamSides(Param(p, a, b), Dot(p, a, b), LenSq(a, b));
  }

  /** Projection before the start: the start is nearest. */
  lemma NearestBeforeStart(p: Pos, a: Pos, b: Pos, t: real)
    requires 0.0 <= t <= 1.0
    requires LenSq(a, b) > 0.0 && Param(p, a, b) < 0.0
    ensures PerpendicularDistance(p, a, b) <= SqDist(p, Lerp(a, b, t))
  {
    var base, dot, lenSq := SqDist(p, a), Dot(p, a, b), LenSq(a, b);
    ParamSign(p, a, b);
    assert NearestOnSegment(p, a, b) == a;
    SqDistAlongSegment(p, a, b, t);
    QuadraticMinAtStart(base, dot, lenSq, t);
  }

  /** Projection beyond the end: the end is nearest. */
  lemma NearestAfterEnd(p: Pos, a: Pos, b: Pos, t: real)
    requires 0.0 <= t <= 1.0
    requires LenSq(a, b) > 0.0 && Param(p, a, b) > 1.0
    ensures PerpendicularDistance(p, a, b) <= SqDist(p, Lerp(a, b, t))
  {
    var base, dot, lenSq := SqDist(p, a), Dot(p, a, b), LenSq(a, b);
    ParamSign(p, a, b);
    assert Lerp(a, b, 1.0) == b;
    assert PerpendicularDistance(p, a, b) == SqDist(p, Lerp(a, b, 1.0));
    SqDistAlongSegment(p, a, b, 1.0);
    SqDistAlongSegment(p, a, b, t);
    QuadraticMinAtEnd(base, dot, lenSq, t);
  }

  /** Projection within the segment: its foot is nearest. */
  lemma NearestAtFoot(p: Pos, a: Pos, b: Pos, t: real)
    requires LenSq(a, b) > 0.0 && 0.0 <= Param(p, a, b) <= 1.0
    ensures PerpendicularDistance(p, a, b) <= SqDist(p, Lerp(a, b, t))
  {
    var base, dot, lenSq, param := SqDist(p, a), Dot(p, a, b), LenSq(a, b), Param(p, a, b);
    ParamScaled(p, a, b);
    assert PerpendicularDistance(p, a, b) == SqDist(p, Lerp(a, b, param));
    SqDistAlongSegment(p, a, b, param);
    SqDistAlongSegment(p, a, b, t);
    QuadraticMinAtVertex(base, dot, lenSq, param, t);
  }

  /** No point of the segment is nearer than `PerpendicularDistance` says. */
  lemma PerpendicularDistanceIsMinimal(p: Pos, a: Pos, b: Pos, t: real)
    requires 0.0 <= t <= 1.0
    ensures PerpendicularDistance(p, a, b) <= SqDist(p, Lerp(a, b, t))
  {
    if a == b {
      assert Lerp(a, b, t) == a;
    } else {
      DistinctEndsPositiveLength(a, b);
      var param := Param(p, a, b);
      if param < 0.0 {
        NearestBeforeStart(p, a, b, t);
      } else if param > 1.0 {
        NearestAfterEnd(p, a, b, t);
      } else {
        NearestAtFoot(p, a, b, t);
      }
    }
  }

  /** The distance is attained at a point of the segment, so it is the minimum. */
  lemma PerpendicularDistanceIsAttained(p: Pos, a: Pos, b: Pos)
    ensures exists t :: 0.0 <= t <= 1.0 && PerpendicularDistance(p, a, b) == SqDist(p, Lerp(a, b, t))
  {
    var param := Param(p, a, b);
    if param < 0.0 {
      assert Lerp(a, b, 0.0) == a;
      assert PerpendicularDistance(p, a, b) == SqDist(p, Lerp(a, b, 0.0));
    } else if param > 1.0 {
      assert Lerp(a, b, 1.0) == b;
      assert PerpendicularDistance(p, a, b) == SqDist(p, Lerp(a, b, 1.0));
    } else {
      assert PerpendicularDistance(p, a, b) == SqDist(p, Lerp(a, b, param));
    }
  }

  /** The segment's far end is at distance zero too. */
  lemma PerpendicularDistanceAtEnd(a: Pos, b: Pos)
    ensures PerpendicularDistance(b, a, b) == 0.0
  {
    PerpendicularDistanceIsMinimal(b, a, b, 1.0);
    assert Lerp(a, b, 1.0) == b;
  }

  // ---------------------------------------------------------------------------
  // Douglas-Peucker

  /** How far a vertex lies from a chord (vertex, chord start, chord end). The
      recursion is stated over any such measure, so that its proofs never
      unfold the arithmetic; `DouglasPeucker` uses `PerpendicularDistance`. */
  type Measure = (Pos, Pos, Pos) -> real

  /** Deviation of interior vertex `k` from the chord between the first and last vertex. */
  function Deviation(pts: seq<Pos>, k: nat, measure: Measure): real
    requires k < |pts|
  {
    measure(pts[k], pts[0], pts[|pts| - 1])
  }

  /** The scan for the farthest interior vertex, from index `i` on. A later
      vertex replaces the best so far only when strictly farther. */
  function Farthest(pts: seq<Pos>, i: nat, best: real, bestIndex: nat, measure: Measure): (r: (real, nat))
    requires 1 <= i <= |pts| - 1
    decreases |pts| - i
    ensures r.0 >= best
    ensures forall k :: i <= k < |pts| - 1 ==> Deviation(pts, k, measure) <= r.0
    ensures (r.0 == best && r.1 == bestIndex)
            || (i <= r.1 < |pts| - 1 && r.0 == Deviation(pts, r.1, measure) && r.0 > best)
    ensures r.0 > best ==> forall k :: i <= k < r.1 ==> Deviation(pts, k, measure) < r.0
  {
    if i == |pts| - 1 then (best, bestIndex)
    else
      var d := Deviation(pts, i, measure);
      if d > best then Farthest(pts, i + 1, d, i, measure) else Farthest(pts, i + 1, best, bestIndex, measure)
  }

  /** The left half's output without its last vertex (the split vertex,
      which the right half's output starts with), then the right half's. */
  function Join(left: seq<Pos>, right: seq<Pos>): (r: seq<Pos>)
    requires |left| >= 2 && |right| >= 2
    ensures |r| == |left| - 1 + |right|
    ensures r[0] == left[0] && r[|r| - 1] == right[|right| - 1]
  {
    left[..|left| - 1] + right
  }

  /** The recursion of `douglasPeucker`: split at the farthest vertex when it
      lies beyond the tolerance, otherwise keep only the two ends. A negative
      tolerance can recurse forever on collinear input; the model admits only
      tolerances >= 0, for which a split index always lies strictly inside. */
  function Reduce(pts: seq<Pos>, tolerance: real, measure: Measure): (r: seq<Pos>)
    requires tolerance >= 0.0
    decreases |pts|
    ensures |pts| <= 2 ==> |r| == |pts|
    ensures |pts| > 2 ==> 2 <= |r| <= |pts|
    ensures |pts| > 2 ==> r[0] == pts[0] && r[|r| - 1] == pts[|pts| - 1]
  {
    if |pts| <= 2 then pts
    else
      var far := Farthest(pts, 1, 0.0, 0, measure);
      if far.0 > Sq(tolerance) then
        var m := far.1;
        assert 1 <= m < |pts| - 1;
        var left := Reduce(pts[..m + 1], tolerance, measure);
        var right := Reduce(pts[m..], tolerance, measure);
        Join(left, right)
      else
        [pts[0], pts[|pts| - 1]]
  }

  /** `douglasPeucker(points, tolerance)`, with the (squared) perpendicular distance. */
  function DouglasPeucker(pts: seq<Pos>, tolerance: real): (r: seq<Pos>)
    requires tolerance >= 0.0
    ensures |pts| <= 2 ==> r == pts
    ensures |pts| > 2 ==> 2 <= |r| <= |pts|
    ensures |pts| > 2 ==> r[0] == pts[0] && r[|r| - 1] == pts[|pts| - 1]
  {
    Reduce(pts, tolerance, PerpendicularDistance)
  }

  /** `idx` embeds `r` into `pts` and pins the first and last vertex. */
  ghost predicate AnchoredEmbedding(r: seq<Pos>, pts: seq<Pos>, idx: seq<int>)
  {
    && Seqs.Embedding(r, pts, idx)
    && (|pts| > 0 ==> |idx| > 0 && idx[0] == 0 && idx[|idx| - 1] == |pts| - 1)
  }

  /** The split step: the left half without its last vertex, then the right half. */
  lemma AnchoredSplit(pts: seq<Pos>, m: nat, left: seq<Pos>, right: seq<Pos>, il: seq<int>, ir: seq<int>)
    requires 1 <= m < |pts| - 1
    requires |left| >= 2
    requires AnchoredEmbedding(left, pts[..m + 1], il)
    requires AnchoredEmbedding(right, pts[m..], ir)
    ensures AnchoredEmbedding(left[..|left| - 1] + right, pts, il[..|il| - 1] + Seqs.Shift(ir, m))
  {
    Seqs.EmbeddingJoin(left, right, pts, m, il, ir);
  }

  /** Anchored embeddings of the two halves `lp` and `rp`, sharing vertex `m`,
      give one of the left output without its last vertex followed by the right output. */
  lemma AnchoredJoin(pts: seq<Pos>, m: nat, lp: seq<Pos>, rp: seq<Pos>, left: seq<Pos>, right: seq<Pos>, r: seq<Pos>)
    requires 1 <= m < |pts| - 1 && lp == pts[..m + 1] && rp == pts[m..]
    requires |left| >= 2 && |right| >= 2 && r == Join(left, right)
    requires exists il :: AnchoredEmbedding(left, lp, il)
    requires exists ir :: AnchoredEmbedding(right, rp, ir)
    ensures exists idx :: AnchoredEmbedding(r, pts, idx)
  {
    var il :| AnchoredEmbedding(left, lp, il);
    var ir :| AnchoredEmbedding(right, rp, ir);
    AnchoredSplit(pts, m, left, right, il, ir);
  }

  /** The output of `Reduce` on `pts` keeps vertices of `pts` in order and pins its ends. */
  ghost predicate ReduceAnchored(pts: seq<Pos>, tolerance: real, measure: Measure)
    requires tolerance >= 0.0
  {
    exists idx :: AnchoredEmbedding(Reduce(pts, tolerance, measure), pts, idx)
  }

  /** Two vertices or fewer are returned as they are. */
  lemma ReduceShortAnchored(pts: seq<Pos>, tolerance: real, measure: Measure)
    requires tolerance >= 0.0 && |pts| <= 2
    ensures ReduceAnchored(pts, tolerance, measure)
  {
    var idx := seq(|pts|, k requires 0 <= k < |pts| => k);
    assert AnchoredEmbedding(Reduce(pts, tolerance, measure), pts, idx);
  }

  /** Nothing beyond the tolerance: only the two ends are kept. */
  lemma ReduceEndsAnchored(pts: seq<Pos>, tolerance: real, measure: Measure)
    requires tolerance >= 0.0 && |pts| > 2
    requires Farthest(pts, 1, 0.0, 0, measure).0 <= Sq(tolerance)
    ensures ReduceAnchored(pts, tolerance, measure)
  {
    assert AnchoredEmbedding(Reduce(pts, tolerance, measure), pts, [0, |pts| - 1]);
  }

  /** Each half keeps at least its two ends. */
  lemma ReduceHalvesKeepEnds(pts: seq<Pos>, tolerance: real, measure: Measure, m: nat)
    requires tolerance >= 0.0 && 1 <= m < |pts| - 1
    ensures |Reduce(pts[..m + 1], tolerance, measure)| >= 2 && |Reduce(pts[m..], tolerance, measure)| >= 2
  {
    assert |pts[..m + 1]| >= 2 && |pts[m..]| >= 2;
  }

  /** A split joins the outputs of the two halves. */
  lemma ReduceSplitShape(pts: seq<Pos>, tolerance: real, measure: Measure, m: nat)
    requires tolerance >= 0.0 && |pts| > 2
    requires Farthest(pts, 1, 0.0, 0, measure).0 > Sq(tolerance)
    requires m == Farthest(pts, 1, 0.0, 0, measure).1 && 1 <= m < |pts| - 1
    ensures |Reduce(pts[..m + 1], tolerance, measure)| >= 2 && |Reduce(pts[m..], tolerance, measure)| >= 2
    ensures Reduce(pts, tolerance, measure)
            == Join(Reduce(pts[..m + 1], tolerance, measure), Reduce(pts[m..], tolerance, measure))
  {
    ReduceHalvesKeepEnds(pts, tolerance, measure, m);
  }

  /** A split: anchored halves make an anchored whole. */
  lemma ReduceSplitAnchored(pts: seq<Pos>, tolerance: real, measure: Measure, m: nat)
    requires tolerance >= 0.0 && |pts| > 2
    requires Farthest(pts, 1, 0.0, 0, measure).0 > Sq(tolerance)
    requires m == Farthest(pts, 1, 0.0, 0, measure).1 && 1 <= m < |pts| - 1
    requires ReduceAnchored(pts[..m + 1], tolerance, measure)
    requires ReduceAnchored(pts[m..], tolerance, measure)
    ensures ReduceAnchored(pts, tolerance, measure)
  {
    ReduceSplitShape(pts, tolerance, measure, m);
    var lp, rp := pts[..m + 1], pts[m..];
    AnchoredJoin(pts, m, lp, rp, Reduce(lp, tolerance, measure), Reduce(rp, tolerance, measure),
                 Reduce(pts, tolerance, measure));
  }

  /** The output keeps vertices of the input in their order, starting with its
      first and ending with its last vertex, whatever the measure. */
  lemma {:induction false} ReduceIsSubsequence(pts: seq<Pos>, tolerance: real, measure: Measure)
    requires tolerance >= 0.0
    decreases |pts|
    ensures exists idx :: AnchoredEmbedding(Reduce(pts, tolerance, measure), pts, idx)
  {
    if |pts| <= 2 {
      ReduceShortAnchored(pts, tolerance, measure);
    } else {
      var far := Farthest(pts, 1, 0.0, 0, measure);
      if far.0 > Sq(tolerance) {
        var m := far.1;
        assert 1 <= m < |pts| - 1;
        ReduceIsSubsequence(pts[..m + 1], tolerance, measure);
        ReduceIsSubsequence(pts[m..], tolerance, measure);
        ReduceSplitAnchored(pts, tolerance, measure, m);
      } else {
        ReduceEndsAnchored(pts, tolerance, measure);
      }
    }
  }

  /** The output keeps vertices of the input in their order, starting with its
      first and ending with its last vertex. */
  lemma DouglasPeuckerIsSubsequence(pts: seq<Pos>, tolerance: real)
    requires tolerance >= 0.0
    ensures exists idx :: AnchoredEmbedding(DouglasPeucker(pts, tolerance), pts, idx)
  {
    ReduceIsSubsequence(pts, tolerance, PerpendicularDistance);
    var idx :| AnchoredEmbedding(Reduce(pts, tolerance, PerpendicularDistance), pts, idx);
    assert AnchoredEmbedding(DouglasPeucker(pts, tolerance), pts, idx);
  }

  /** No interior vertex beyond the tolerance: only the two ends are kept. */
  lemma ReduceKeepsEndsWhenNear(pts: seq<Pos>, tolerance: real, measure: Measure)
    requires tolerance >= 0.0 && |pts| > 2
    requires forall k :: 1 <= k < |pts| - 1 ==> Deviation(pts, k, measure) <= Sq(tolerance)
    ensures Reduce(pts, tolerance, measure) == [pts[0], pts[|pts| - 1]]
  {
    var far := Farthest(pts, 1, 0.0, 0, measure);
    assert far.0 <= Sq(tolerance);
  }

  /** An interior vertex beyond the tolerance: the output keeps a third vertex. */
  lemma ReduceSplitsWhenFar(pts: seq<Pos>, tolerance: real, measure: Measure, k: nat)
    requires tolerance >= 0.0 && 1 <= k < |pts| - 1
    requires Deviation(pts, k, measure) > Sq(tolerance)
    ensures |Reduce(pts, tolerance, measure)| >= 3
  {
    var far := Farthest(pts, 1, 0.0, 0, measure);
    assert far.0 > Sq(tolerance);
    var m := far.1;
    assert 1 <= m < |pts| - 1;
    ReduceSplitShape(pts, tolerance, measure, m);
  }

  /** Collapse criterion: the output is just the two ends exactly when no
      interior vertex deviates from the chord by more than the tolerance. */
  lemma ReduceCollapses(pts: seq<Pos>, tolerance: real, measure: Measure)
    requires tolerance >= 0.0
    requires |pts| > 2
    ensures (forall k :: 1 <= k < |pts| - 1 ==> Deviation(pts, k, measure) <= Sq(tolerance))
            <==> Reduce(pts, tolerance, measure) == [pts[0], pts[|pts| - 1]]
  {
    if forall k :: 1 <= k < |pts| - 1 ==> Deviation(pts, k, measure) <= Sq(tolerance) {
      ReduceKeepsEndsWhenNear(pts, tolerance, measure);
    } else {
      var k :| 1 <= k < |pts| - 1 && Deviation(pts, k, measure) > Sq(tolerance);
      ReduceSplitsWhenFar(pts, tolerance, measure, k);
    }
  }

  /** `ReduceCollapses` for the perpendicular distance. */
  lemma DouglasPeuckerCollapses(pts: seq<Pos>, tolerance: real)
    requires tolerance >= 0.0
    requires |pts| > 2
    ensures (forall k :: 1 <= k < |pts| - 1 ==>
               PerpendicularDistance(pts[k], pts[0], pts[|pts| - 1]) <= Sq(tolerance))
            <==> DouglasPeucker(pts, tolerance) == [pts[0], pts[|pts| - 1]]
  {
    ReduceCollapses(pts, tolerance, PerpendicularDistance);
    assert forall k :: 1 <= k < |pts| - 1 ==>
             Deviation(pts, k, PerpendicularDistance) == PerpendicularDistance(pts[k], pts[0], pts[|pts| - 1]);
  }

  /** A vertex lying on the chord is dropped whatever the tolerance, zero
      included: the comparison with the tolerance is strict. */
  lemma ChordVertexDropped(a: Pos, b: Pos, t: real, tolerance: real)
    requires 0.0 <= t <= 1.0
    requires tolerance >= 0.0
    ensures DouglasPeucker([a, Lerp(a, b, t), b], tolerance) == [a, b]
  {
    var pts := [a, Lerp(a, b, t), b];
    PerpendicularDistanceIsMinimal(pts[1], a, b, t);
    assert PerpendicularDistance(pts[1], a, b) <= 0.0;
    DouglasPeuckerCollapses(pts, tolerance);
  }

  // ---------------------------------------------------------------------------
  // Tolerance search

  /** `simplifyPolygon(coordinates, targetPoints)`: raise the tolerance by
      half again (up to 20 times) until the result fits the target, then lower
      it by a fifth (while above 0.0001, up to 30 iterations in all) while the
      result is under 80% of the target. `calls` counts the runs of
      Douglas-Peucker; `tolerance` is the last one tried. */
  method SimplifyPolygon(coords: seq<Pos>, target: int) returns (simplified: seq<Pos>, tolerance: real, calls: nat)
    ensures |coords| <= target ==> simplified == coords && calls == 0
    ensures |coords| > target ==> 1 <= calls <= 31
    ensures |coords| > target ==> tolerance > 0.00008 && simplified == DouglasPeucker(coords, tolerance)
    ensures |simplified| <= |coords|
    ensures |coords| >= 2 ==> |simplified| >= 2
    ensures |coords| > 2 ==> simplified[0] == coords[0] && simplified[|simplified| - 1] == coords[|coords| - 1]
  {
    tolerance := 0.001;
    if |coords| <= target {
      return coords, tolerance, 0;
    }
    simplified := DouglasPeucker(coords, tolerance);
    calls := 1;
    var iterations := 0;
    while |simplified| > target && iterations < 20
      invariant 0 <= iterations <= 20
      invariant calls == iterations + 1
      invariant tolerance >= 0.001
      invariant simplified == DouglasPeucker(coords, tolerance)
      decreases 20 - iterations
    {
      tolerance := tolerance * 1.5;
      simplified := DouglasPeucker(coords, tolerance);
      calls := calls + 1;
      iterations := iterations + 1;
    }
    while (|simplified| as real) < (target as real) * 0.8 && tolerance > 0.0001 && iterations < 30
      invariant 0 <= iterations <= 30
      invariant calls == iterations + 1
      invariant tolerance > 0.00008
      invariant simplified == DouglasPeucker(coords, tolerance)
      decreases 30 - iterations
    {
      tolerance := tolerance * 0.8;
      simplified := DouglasPeucker(coords, tolerance);
      calls := calls + 1;
      iterations := iterations + 1;
    }
  }
}

=== FILE: targeting.dfy ===
/** `exportFacebookTargeting` as a pure function: from the selected clinic,
    the clinic list, the distance function, the random stream and the address
    oracle to the targeting document, or the reason there is none. */
module Targeting {
  import opened Wrappers
  import opened Types
  import opened Geo
  import opened GeoJson
  import opened Territory
  import opened Competitors
  import opened Sampling
  import opened RayCast
  import Decimal
  import Seqs

  datatype TerritoryInfo = TerritoryInfo(
    centerLatitude: real,
    centerLongitude: real,
    widthMiles: real,
    heightMiles: real,
    sizeMiles: real)

  datatype Summary = Summary(
    totalInclusions: nat,
    totalExclusions: nat,
    competingClinicsExcluded: nat,
    boundaryExclusions: nat,
    inclusionRadiiUsed: seq<int>,
    exclusionRadiiUsed: seq<int>,
    coverageStrategy: string)

  /** The document (`FacebookTargeting`); `generatedAt` is the caller's clock reading. */
  datatype Targeting = Targeting(
    clinicId: Text,
    clinicName: string,
    generatedAt: string,
    inclusions: seq<Location>,
    exclusions: seq<Location>,
    territory: TerritoryInfo,
    summary: Summary)

  /** `NoBoundary` is the early exit (an alert, nothing built); `BadShape` a
      failure while reading the ring; `Unreadable` the TypeError `getGeometry`
      throws on a primitive `raw_geojson`. The last two end in the export's
      catch, which alerts an export error. */
  datatype ExportError = NoBoundary | BadShape(reason: ShapeError) | Unreadable

  // ---------------------------------------------------------------------------
  // Labels and radii

  /** The coverage label, on the same thresholds as the radius tiers. */
  function CoverageStrategy(size: real): (strategy: string)
    ensures strategy == "Dense (small territory)" <==> size < 20.0
    ensures strategy == "Medium coverage" <==> 20.0 <= size < 40.0
    ensures strategy == "Wide coverage" <==> 40.0 <= size < 60.0
    ensures strategy == "Very wide coverage" <==> 60.0 <= size
  {
    if size < 20.0 then "Dense (small territory)"
    else if size < 40.0 then "Medium coverage"
    else if size < 60.0 then "Wide coverage"
    else "Very wide coverage"
  }

  /** The label and the radius table always agree on the tier. */
  lemma CoverageMatchesRadiusTier(size: real)
    ensures CoverageStrategy(size)
            == ["Dense (small territory)", "Medium coverage", "Wide coverage", "Very wide coverage"][SizeTier(size)]
  {
  }

  /** `radii[i] || fallback`: a missing entry or a zero falls back. */
  function RadiusOr(radii: seq<int>, i: nat, fallback: int): (r: int)
    ensures i < |radii| && radii[i] != 0 ==> r == radii[i]
    ensures i >= |radii| || radii[i] == 0 ==> r == fallback
  {
    if i < |radii| && radii[i] != 0 then radii[i] else fallback
  }

  /** The fallbacks never fire: `selectRadii` yields one positive radius per point when there are at most ten. */
  lemma RadiusFallbackUnreachable(size: real, count: nat, i: nat, fallback: int)
    requires i < count <= MaxPoints
    ensures RadiusOr(SelectRadii(size, count), i, fallback) == SelectRadii(size, count)[i]
  {
  }

  // ---------------------------------------------------------------------------
  // Numbered locations

  /** Point `i` as location `prefix (i + 1)`, with its radius and looked-up address. */
  function NumberedLocation(prefix: string, fallbackRadius: int, p: Sample, i: nat, radii: seq<int>,
                            addr: (real, real) -> Option<string>): Location
  {
    Location(prefix + Decimal.Decimal(i + 1), AddressOr(addr(p.lat, p.lng), "Address not found"),
             p.lat, p.lng, RadiusOr(radii, i, fallbackRadius), "mile", None, None)
  }

  /** The loop building `inclusions` or `boundaryExclusions`. */
  function NumberedLocations(prefix: string, fallbackRadius: int, points: seq<Sample>, radii: seq<int>,
                             addr: (real, real) -> Option<string>): (locs: seq<Location>)
    ensures |locs| == |points|
    ensures forall i :: 0 <= i < |locs| ==>
              && locs[i].name == prefix + Decimal.Decimal(i + 1)
              && locs[i].latitude == points[i].lat && locs[i].longitude == points[i].lng
              && locs[i].radius == RadiusOr(radii, i, fallbackRadius)
              && locs[i].distanceUnit == "mile"
    ensures forall i :: 0 <= i < |locs| ==>
              && locs[i].address == AddressOr(addr(points[i].lat, points[i].lng), "Address not found")
              && locs[i].distanceMiles.None? && locs[i].driveTimeMin.None?
  {
    seq(|points|, i requires 0 <= i < |points| => NumberedLocation(prefix, fallbackRadius, points[i], i, radii, addr))
  }

  /** No two numbered locations share a name. */
  lemma NumberedNamesDistinct(prefix: string, fallbackRadius: int, points: seq<Sample>, radii: seq<int>,
                              addr: (real, real) -> Option<string>, i: nat, j: nat)
    requires i < j < |points|
    ensures NumberedLocations(prefix, fallbackRadius, points, radii, addr)[i].name
            != NumberedLocations(prefix, fallbackRadius, points, radii, addr)[j].name
  {
    Decimal.OrdinalNamesDistinct(prefix, i + 1, j + 1);
  }

  function Radii(locs: seq<Location>): (rs: seq<int>)
    ensures |rs| == |locs|
    ensures forall i :: 0 <= i < |locs| ==> rs[i] == locs[i].radius
  {
    seq(|locs|, i requires 0 <= i < |locs| => locs[i].radius)
  }

  /** `[...new Set(locs.map(l => l.radius))].sort((a, b) => a - b)`. */
  function RadiiUsed(locs: seq<Location>): (used: seq<int>)
    ensures forall i, j :: 0 <= i < j < |used| ==> used[i] < used[j]
    ensures forall r :: r in used <==> exists i :: 0 <= i < |locs| && locs[i].radius == r
  {
    Seqs.IntLessIsStrictTotalOrder();
    var rs := Radii(locs);
    var used := Seqs.SortedDistinct(rs, Seqs.IntLess);
    assert forall r :: r in rs <==> exists i :: 0 <= i < |locs| && locs[i].radius == r by {
      forall r | r in rs
        ensures exists i :: 0 <= i < |locs| && locs[i].radius == r
      {
        var i :| 0 <= i < |rs| && rs[i] == r;
      }
      forall r | exists i :: 0 <= i < |locs| && locs[i].radius == r
        ensures r in rs
      {
        var i :| 0 <= i < |locs| && locs[i].radius == r;
        assert rs[i] == r;
      }
    }
    used
  }

  // ---------------------------------------------------------------------------
  // Assembly

  /** The inclusions: one per distributed sample, numbered from 1. */
  function Inclusions(distributed: seq<Sample>, size: real, addr: (real, real) -> Option<string>): (locs: seq<Location>)
    ensures forall i :: 0 <= i < |locs| ==> locs[i].radius > 0
  {
    NumberedLocations("Inclusion ", 5, distributed, SelectRadii(size, |distributed|), addr)
  }

  /** The exclusions: the competitor exclusions, then one per kept exterior
      sample, numbered from 1. */
  function Exclusions(competitors: seq<Location>, top: seq<Sample>, size: real,
                      addr: (real, real) -> Option<string>): seq<Location>
  {
    competitors + NumberedLocations("Boundary Exclusion ", 10, top, SelectRadii(size, |top|), addr)
  }

  /** The inclusions sit at the distributed samples, in order, named
      `Inclusion 1`, `Inclusion 2`, ..., each with its scheduled radius. */
  lemma InclusionsLayout(distributed: seq<Sample>, size: real, addr: (real, real) -> Option<string>)
    requires |distributed| <= MaxPoints
    ensures var locs := Inclusions(distributed, size, addr);
            && |locs| == |distributed|
            && forall i :: 0 <= i < |locs| ==>
                 && locs[i].name == "Inclusion " + Decimal.Decimal(i + 1)
                 && locs[i].latitude == distributed[i].lat && locs[i].longitude == distributed[i].lng
                 && locs[i].radius == SelectRadii(size, |distributed|)[i]
  {
  }

  /** The competitor exclusions come first, unchanged; the boundary exclusions
      follow at the kept exterior samples, in order, named `Boundary Exclusion 1`,
      `Boundary Exclusion 2`, ..., each with its scheduled radius. */
  lemma ExclusionsLayout(competitors: seq<Location>, top: seq<Sample>, size: real,
                         addr: (real, real) -> Option<string>)
    requires |top| <= MaxPoints
    ensures var locs := Exclusions(competitors, top, size, addr);
            && |locs| == |competitors| + |top|
            && locs[..|competitors|] == competitors
            && forall j :: 0 <= j < |top| ==>
                 && locs[|competitors| + j].name == "Boundary Exclusion " + Decimal.Decimal(j + 1)
                 && locs[|competitors| + j].latitude == top[j].lat
                 && locs[|competitors| + j].longitude == top[j].lng
                 && locs[|competitors| + j].radius == SelectRadii(size, |top|)[j]
  {
    var boundary := NumberedLocations("Boundary Exclusion ", 10, top, SelectRadii(size, |top|), addr);
    assert (competitors + boundary)[..|competitors|] == competitors;
  }

  /** With positive competitor radii, every exclusion has a positive radius. */
  lemma ExclusionRadiiPositive(competitors: seq<Location>, top: seq<Sample>, size: real,
                               addr: (real, real) -> Option<string>)
    requires forall k :: 0 <= k < |competitors| ==> competitors[k].radius > 0
    ensures var locs := Exclusions(competitors, top, size, addr);
            forall k :: 0 <= k < |locs| ==> locs[k].radius > 0
  {
    var boundary := NumberedLocations("Boundary Exclusion ", 10, top, SelectRadii(size, |top|), addr);
    var locs := competitors + boundary;
    forall k | 0 <= k < |locs|
      ensures locs[k].radius > 0
    {
      if k >= |competitors| {
        assert locs[k] == boundary[k - |competitors|];
      }
    }
  }

  /** The document, once the samples and the competitor exclusions are known:
      the counts, the territory and the labels. */
  function Document(selected: Clinic, generatedAt: string, lat: real, lng: real, extent: Extent,
                    competitors: seq<Location>, distributed: seq<Sample>, top: seq<Sample>,
                    addr: (real, real) -> Option<string>): (t: Targeting)
    ensures t.clinicId == selected.clinicId && t.clinicName == selected.clinicName
    ensures t.generatedAt == generatedAt
    ensures t.inclusions == Inclusions(distributed, extent.size, addr)
    ensures t.exclusions == Exclusions(competitors, top, extent.size, addr)
    ensures t.summary.totalInclusions == |t.inclusions| == |distributed|
    ensures t.summary.totalExclusions == |t.exclusions|
    ensures t.summary.totalExclusions == t.summary.competingClinicsExcluded + t.summary.boundaryExclusions
    ensures t.summary.competingClinicsExcluded == |competitors|
    ensures t.summary.boundaryExclusions == |top|
    ensures t.territory == TerritoryInfo(lat, lng, extent.width, extent.height, extent.size)
    ensures t.summary.coverageStrategy == CoverageStrategy(extent.size)
    ensures t.summary.inclusionRadiiUsed == RadiiUsed(t.inclusions)
    ensures t.summary.exclusionRadiiUsed == RadiiUsed(t.exclusions)
  {
    var inclusions := Inclusions(distributed, extent.size, addr);
    var all := Exclusions(competitors, top, extent.size, addr);
    Targeting(
      selected.clinicId, selected.clinicName, generatedAt, inclusions, all,
      TerritoryInfo(lat, lng, extent.width, extent.height, extent.size),
      Summary(|inclusions|, |all|, |competitors|, |top|,
              RadiiUsed(inclusions), RadiiUsed(all), CoverageStrategy(extent.size)))
  }

  /** The sampling frame of the territory: its outer ring, box and centre. */
  function FrameOf(ring: seq<Pos>, lat: real, lng: real): (f: Frame)
    requires |ring| > 0
    ensures ValidFrame(f)
    ensures f.ring == ring && f.lat == lat && f.lng == lng
  {
    Frame(ring, BoundingBox(ring), lat, lng)
  }

  /** The inclusion points: the interior samples spread over the territory
      measured around the clinic. */
  function InclusionSamples(ring: seq<Pos>, lat: real, lng: real, dist: DistFn, rand: nat -> real)
    : (s: seq<Sample>)
    requires |ring| > 0
    ensures |s| <= MaxPoints
  {
    var frame := FrameOf(ring, lat, lng);
    DistributeInclusions(SampleInterior(frame, rand, dist).points, MeasureExtent(frame.box, lat, lng, dist).size, dist)
  }

  /** The boundary-exclusion points: the exterior samples nearest the
      boundary, drawn from
      the random stream after the interior sampler's draws. */
  function BoundarySamples(ring: seq<Pos>, lat: real, lng: real, dist: DistFn, rand: nat -> real)
    : (s: seq<Sample>)
    requires |ring| > 0
    ensures |s| <= MaxPoints
  {
    var frame := FrameOf(ring, lat, lng);
    TopExclusions(SampleExterior(frame, rand, dist, 2 * SampleInterior(frame, rand, dist).trials).points)
  }

  /** Everything after the ring is known: `(lat, lng)` is the selected clinic's
      position. The competitor exclusions are computed before the samples, as
      in the source, but nothing depends on that order. */
  function Assemble(selected: Clinic, clinics: seq<Clinic>, ring: seq<Pos>, lat: real, lng: real,
                    dist: DistFn, rand: nat -> real, addr: (real, real) -> Option<string>,
                    generatedAt: string): (t: Targeting)
    requires |ring| > 0
    ensures t.clinicId == selected.clinicId && t.clinicName == selected.clinicName
    ensures t.generatedAt == generatedAt
    ensures t.territory.centerLatitude == lat && t.territory.centerLongitude == lng
  {
    Document(selected, generatedAt, lat, lng, MeasureExtent(BoundingBox(ring), lat, lng, dist),
             CompetitorExclusions(clinics, selected, lat, lng, dist, addr),
             InclusionSamples(ring, lat, lng, dist, rand), BoundarySamples(ring, lat, lng, dist, rand), addr)
  }

  /** The document's header and counts: the selected clinic, at most ten
      inclusions and ten boundary exclusions, exclusions counted as competitors
      plus boundary points, and the territory measured around the clinic. */
  lemma AssembleSummary(selected: Clinic, clinics: seq<Clinic>, ring: seq<Pos>, lat: real, lng: real,
                        dist: DistFn, rand: nat -> real, addr: (real, real) -> Option<string>,
                        generatedAt: string)
    requires |ring| > 0
    ensures var t := Assemble(selected, clinics, ring, lat, lng, dist, rand, addr, generatedAt);
            && t.clinicId == selected.clinicId && t.clinicName == selected.clinicName
            && t.summary.totalInclusions == |t.inclusions| <= MaxPoints
            && t.summary.totalExclusions == |t.exclusions|
               == t.summary.competingClinicsExcluded + t.summary.boundaryExclusions
            && t.summary.competingClinicsExcluded == |CompetitorExclusions(clinics, selected, lat, lng, dist, addr)|
            && t.summary.boundaryExclusions <= MaxPoints
            && t.territory.centerLatitude == lat && t.territory.centerLongitude == lng
            && t.territory.sizeMiles == MeasureExtent(BoundingBox(ring), lat, lng, dist).size
            && t.summary.coverageStrategy == CoverageStrategy(t.territory.sizeMiles)
  {
  }

  /** The competitor exclusions come first among the exclusions, unchanged and
      in clinic-list order. */
  lemma AssembleCompetitorsFirst(selected: Clinic, clinics: seq<Clinic>, ring: seq<Pos>, lat: real, lng: real,
                                 dist: DistFn, rand: nat -> real, addr: (real, real) -> Option<string>,
                                 generatedAt: string)
    requires |ring| > 0
    ensures var t := Assemble(selected, clinics, ring, lat, lng, dist, rand, addr, generatedAt);
            var competitors := CompetitorExclusions(clinics, selected, lat, lng, dist, addr);
            |competitors| <= |t.exclusions| && t.exclusions[..|competitors|] == competitors
  {
    ExclusionsLayout(CompetitorExclusions(clinics, selected, lat, lng, dist, addr),
                     BoundarySamples(ring, lat, lng, dist, rand), MeasureExtent(BoundingBox(ring), lat, lng, dist).size, addr);
  }

  /** The export. The selected clinic's coordinates must be finite numbers. */
  function Export(selected: Clinic, clinics: seq<Clinic>, dist: DistFn, rand: nat -> real,
                  addr: (real, real) -> Option<string>, generatedAt: string): (r: Result<Targeting, ExportError>)
    requires selected.latitude.Some? && selected.longitude.Some?
    ensures r == Failure(Unreadable) <==> GetGeometry(selected.rawGeojson).Failure?
    ensures r == Failure(NoBoundary) <==> GetGeometry(selected.rawGeojson) == Success(None)
    ensures r.Failure? && r.error.BadShape? <==>
              && GetGeometry(selected.rawGeojson).Success? && GetGeometry(selected.rawGeojson).value.Some?
              && OuterRing(GetGeometry(selected.rawGeojson).value.value).Failure?
    ensures r.Success? ==>
              && GetGeometry(selected.rawGeojson).Success? && GetGeometry(selected.rawGeojson).value.Some?
              && var ring := OuterRing(GetGeometry(selected.rawGeojson).value.value);
                 ring.Success? &&
                 r.value == Assemble(selected, clinics, ring.value, selected.latitude.value, selected.longitude.value,
                                     dist, rand, addr, generatedAt)
  {
    match GetGeometry(selected.rawGeojson)
    case Failure(_) => Failure(Unreadable)
    case Success(None) => Failure(NoBoundary)
    case Success(Some(geometry)) =>
      match OuterRing(geometry)
      case Failure(e) => Failure(BadShape(e))
      case Success(ring) =>
        Success(Assemble(selected, clinics, ring, selected.latitude.value, selected.longitude.value,
                         dist, rand, addr, generatedAt))
  }

  // ---------------------------------------------------------------------------
  // Where the exported locations lie

  /** The inclusion points are accepted interior samples. */
  lemma InclusionSamplesInside(ring: seq<Pos>, lat: real, lng: real, dist: DistFn, rand: nat -> real)
    requires |ring| > 0 && ValidStream(rand)
    ensures var s := InclusionSamples(ring, lat, lng, dist, rand);
            forall i :: 0 <= i < |s| ==> InteriorPoint(FrameOf(ring, lat, lng), s[i])
  {
    var frame := FrameOf(ring, lat, lng);
    DistributedInside(frame, rand, dist, MeasureExtent(frame.box, lat, lng, dist).size);
  }

  /** The boundary-exclusion points are accepted exterior samples. */
  lemma BoundarySamplesOutside(ring: seq<Pos>, lat: real, lng: real, dist: DistFn, rand: nat -> real)
    requires |ring| > 0 && ValidStream(rand)
    ensures var s := BoundarySamples(ring, lat, lng, dist, rand);
            forall j :: 0 <= j < |s| ==> ExteriorPoint(FrameOf(ring, lat, lng), s[j])
  {
    var frame := FrameOf(ring, lat, lng);
    TopOutside(frame, rand, dist, 2 * SampleInterior(frame, rand, dist).trials);
  }

  /** Inclusions built from interior samples sit inside the ring and its box. */
  lemma InclusionsAtInteriorPoints(f: Frame, distributed: seq<Sample>, size: real,
                                   addr: (real, real) -> Option<string>)
    requires |distributed| <= MaxPoints
    requires forall i :: 0 <= i < |distributed| ==> InteriorPoint(f, distributed[i])
    ensures var locs := Inclusions(distributed, size, addr);
            forall i :: 0 <= i < |locs| ==>
              PointInPolygon(Pos(locs[i].longitude, locs[i].latitude), f.ring)
              && InBox(f.box, locs[i].latitude, locs[i].longitude)
  {
    InclusionsLayout(distributed, size, addr);
    var locs := Inclusions(distributed, size, addr);
    forall i | 0 <= i < |locs|
      ensures PointInPolygon(Pos(locs[i].longitude, locs[i].latitude), f.ring)
      ensures InBox(f.box, locs[i].latitude, locs[i].longitude)
    {
      assert InteriorPoint(f, distributed[i]);
    }
  }

  /** Boundary exclusions built from exterior samples sit outside the ring, in
      a band around its box; the competitor exclusions before them are not
      constrained. */
  lemma ExclusionsAtExteriorPoints(f: Frame, competitors: seq<Location>, top: seq<Sample>, size: real,
                                   addr: (real, real) -> Option<string>)
    requires |top| <= MaxPoints
    requires forall j :: 0 <= j < |top| ==> ExteriorPoint(f, top[j])
    ensures var locs := Exclusions(competitors, top, size, addr);
            forall j :: |competitors| <= j < |locs| ==>
              !PointInPolygon(Pos(locs[j].longitude, locs[j].latitude), f.ring)
              && InSomeBand(f.box, locs[j].latitude, locs[j].longitude)
  {
    ExclusionsLayout(competitors, top, size, addr);
    var locs := Exclusions(competitors, top, size, addr);
    forall j | |competitors| <= j < |locs|
      ensures !PointInPolygon(Pos(locs[j].longitude, locs[j].latitude), f.ring)
      ensures InSomeBand(f.box, locs[j].latitude, locs[j].longitude)
    {
      var p := top[j - |competitors|];
      assert ExteriorPoint(f, p);
      assert locs[|competitors| + (j - |competitors|)].latitude == p.lat;
      assert locs[|competitors| + (j - |competitors|)].longitude == p.lng;
    }
  }

  /** Every inclusion is an accepted interior sample: inside the outer ring and
      its bounding box. */
  lemma InclusionsInsideTerritory(selected: Clinic, clinics: seq<Clinic>, ring: seq<Pos>, lat: real, lng: real,
                                  dist: DistFn, rand: nat -> real, addr: (real, real) -> Option<string>,
                                  generatedAt: string)
    requires |ring| > 0 && ValidStream(rand)
    ensures var t := Assemble(selected, clinics, ring, lat, lng, dist, rand, addr, generatedAt);
            forall i :: 0 <= i < |t.inclusions| ==>
              PointInPolygon(Pos(t.inclusions[i].longitude, t.inclusions[i].latitude), ring)
              && InBox(BoundingBox(ring), t.inclusions[i].latitude, t.inclusions[i].longitude)
  {
    InclusionSamplesInside(ring, lat, lng, dist, rand);
    InclusionsAtInteriorPoints(FrameOf(ring, lat, lng), InclusionSamples(ring, lat, lng, dist, rand),
                               MeasureExtent(BoundingBox(ring), lat, lng, dist).size, addr);
  }

  /** Every boundary exclusion is an accepted exterior sample: outside the outer
      ring, in one of the four bands around its box. */
  lemma BoundaryExclusionsOutsideTerritory(selected: Clinic, clinics: seq<Clinic>, ring: seq<Pos>, lat: real, lng: real,
                                           dist: DistFn, rand: nat -> real, addr: (real, real) -> Option<string>,
                                           generatedAt: string)
    requires |ring| > 0 && ValidStream(rand)
    ensures var t := Assemble(selected, clinics, ring, lat, lng, dist, rand, addr, generatedAt);
            forall j :: t.summary.competingClinicsExcluded <= j < |t.exclusions| ==>
              !PointInPolygon(Pos(t.exclusions[j].longitude, t.exclusions[j].latitude), ring)
              && InSomeBand(BoundingBox(ring), t.exclusions[j].latitude, t.exclusions[j].longitude)
  {
    BoundarySamplesOutside(ring, lat, lng, dist, rand);
    ExclusionsAtExteriorPoints(FrameOf(ring, lat, lng), CompetitorExclusions(clinics, selected, lat, lng, dist, addr),
                               BoundarySamples(ring, lat, lng, dist, rand),
                               MeasureExtent(BoundingBox(ring), lat, lng, dist).size, addr);
  }

  /** Every inclusion the document carries has a positive radius. */
  lemma InclusionsRadiusPositive(selected: Clinic, clinics: seq<Clinic>, ring: seq<Pos>, lat: real, lng: real,
                                 dist: DistFn, rand: nat -> real, addr: (real, real) -> Option<string>,
                                 generatedAt: string)
    requires |ring| > 0
    ensures var t := Assemble(selected, clinics, ring, lat, lng, dist, rand, addr, generatedAt);
            forall i :: 0 <= i < |t.inclusions| ==> t.inclusions[i].radius > 0
  {
  }

  /** Every exclusion the document carries has a positive radius: competitor
      radii are 5 to 25 miles. */
  lemma ExclusionsRadiusPositive(selected: Clinic, clinics: seq<Clinic>, ring: seq<Pos>, lat: real, lng: real,
                                 dist: DistFn, rand: nat -> real, addr: (real, real) -> Option<string>,
                                 generatedAt: string)
    requires |ring| > 0
    ensures var t := Assemble(selected, clinics, ring, lat, lng, dist, rand, addr, generatedAt);
            forall k :: 0 <= k < |t.exclusions| ==> t.exclusions[k].radius > 0
  {
    var competitors := CompetitorExclusions(clinics, selected, lat, lng, dist, addr);
    assert forall k :: 0 <= k < |competitors| ==> competitors[k].radius > 0;
    ExclusionRadiiPositive(competitors, BoundarySamples(ring, lat, lng, dist, rand),
                           MeasureExtent(BoundingBox(ring), lat, lng, dist).size, addr);
  }
}

=== FILE: territory.dfy ===
/** The bounding box of the outer ring and the territory's extent
    (`exportFacebookTargeting`, before any sampling). */
module Territory {
  import opened Types
  import opened Geo

  /** `Math.min(...xs)` of a non-empty list. */
  function MinOf(xs: seq<real>): (m: real)
    requires |xs| > 0
    ensures forall k :: 0 <= k < |xs| ==> m <= xs[k]
    ensures exists k :: 0 <= k < |xs| && xs[k] == m
  {
    if |xs| == 1 then xs[0]
    else
      var rest := MinOf(xs[1..]);
      if xs[0] <= rest then xs[0] else rest
  }

  /** `Math.max(...xs)` of a non-empty list. */
  function MaxOf(xs: seq<real>): (m: real)
    requires |xs| > 0
    ensures forall k :: 0 <= k < |xs| ==> xs[k] <= m
    ensures exists k :: 0 <= k < |xs| && xs[k] == m
  {
    if |xs| == 1 then xs[0]
    else
      var rest := MaxOf(xs[1..]);
      if xs[0] >= rest then xs[0] else rest
  }

  /** `coords.map(c => c[1])`. */
  function Lats(ring: seq<Pos>): (ys: seq<real>)
    ensures |ys| == |ring|
    ensures forall k :: 0 <= k < |ring| ==> ys[k] == ring[k].y
  {
    seq(|ring|, k requires 0 <= k < |ring| => ring[k].y)
  }

  /** `coords.map(c => c[0])`. */
  function Lngs(ring: seq<Pos>): (xs: seq<real>)
    ensures |xs| == |ring|
    ensures forall k :: 0 <= k < |ring| ==> xs[k] == ring[k].x
  {
    seq(|ring|, k requires 0 <= k < |ring| => ring[k].x)
  }

  datatype Box = Box(minLat: real, maxLat: real, minLng: real, maxLng: real)

  predicate InBox(b: Box, lat: real, lng: real)
  {
    b.minLat <= lat <= b.maxLat && b.minLng <= lng <= b.maxLng
  }

  /** The ring's bounding box: it holds every vertex and each side touches one. */
  function BoundingBox(ring: seq<Pos>): (b: Box)
    requires |ring| > 0
    ensures forall k :: 0 <= k < |ring| ==> InBox(b, ring[k].y, ring[k].x)
    ensures exists k :: 0 <= k < |ring| && ring[k].y == b.minLat
    ensures exists k :: 0 <= k < |ring| && ring[k].y == b.maxLat
    ensures exists k :: 0 <= k < |ring| && ring[k].x == b.minLng
    ensures exists k :: 0 <= k < |ring| && ring[k].x == b.maxLng
  {
    Box(MinOf(Lats(ring)), MaxOf(Lats(ring)), MinOf(Lngs(ring)), MaxOf(Lngs(ring)))
  }

  /** No smaller box holds the ring: any box holding every vertex holds this one. */
  lemma BoundingBoxIsSmallest(ring: seq<Pos>, other: Box)
    requires |ring| > 0
    requires forall k :: 0 <= k < |ring| ==> InBox(other, ring[k].y, ring[k].x)
    ensures var b := BoundingBox(ring);
            other.minLat <= b.minLat && b.maxLat <= other.maxLat
            && other.minLng <= b.minLng && b.maxLng <= other.maxLng
  {
    var b := BoundingBox(ring);
    var i :| 0 <= i < |ring| && ring[i].y == b.minLat;
    var j :| 0 <= j < |ring| && ring[j].y == b.maxLat;
    var k :| 0 <= k < |ring| && ring[k].x == b.minLng;
    var l :| 0 <= l < |ring| && ring[l].x == b.maxLng;
    assert InBox(other, ring[i].y, ring[i].x) && InBox(other, ring[j].y, ring[j].x);
    assert InBox(other, ring[k].y, ring[k].x) && InBox(other, ring[l].y, ring[l].x);
  }

  /** The territory's width (east-west through the clinic's latitude), height
      (north-south through its longitude) and size, the larger of the two. */
  datatype Extent = Extent(width: real, height: real, size: real)

  function MeasureExtent(b: Box, lat: real, lng: real, dist: DistFn): (e: Extent)
    ensures e.width == dist(lat, b.minLng, lat, b.maxLng)
    ensures e.height == dist(b.minLat, lng, b.maxLat, lng)
    ensures e.size >= e.width && e.size >= e.height
    ensures e.size == e.width || e.size == e.height
  {
    var width := dist(lat, b.minLng, lat, b.maxLng);
    var height := dist(b.minLat, lng, b.maxLat, lng);
    Extent(width, height, if width >= height then width else height)
  }
}

=== FILE: types.dfy ===
/** The records of `lib/types.ts`, over reals instead of floating point.
    Only fields the modelled code reads or writes are kept. */
module Types {
  import opened Wrappers

  /** A string-valued JSON field as JavaScript sees it: missing (`undefined`),
      `null`, or a string. The two empty values differ under `===` and when
      printed, and both are falsy, as is the empty string. */
  datatype Text = Undefined | Null | Str(value: string)

  /** A value `||` keeps: a non-empty string. */
  predicate Truthy(t: Text)
  {
    t.Str? && t.value != ""
  }

  /** `String(v)`, as a template literal prints it. */
  function Show(t: Text): (s: string)
    ensures t.Str? ==> s == t.value
    ensures t == Undefined <==> s == "undefined" && !t.Str?
    ensures t == Null <==> s == "null" && !t.Str?
  {
    match t
    case Undefined => "undefined"
    case Null => "null"
    case Str(v) => v
  }

  /** A GeoJSON position `[x, y]`: x is the longitude, y the latitude. */
  datatype Pos = Pos(x: real, y: real)

  /** A parsed GeoJSON geometry; the variant fixes `type` and the nesting of `coordinates`. */
  datatype Geometry =
    | Point(position: Pos)
    | LineString(positions: seq<Pos>)
    | Polygon(rings: seq<seq<Pos>>)
    | MultiPolygon(polygons: seq<seq<seq<Pos>>>)

  /** A feature; `None` is a missing or null `geometry`. */
  datatype Feature = Feature(geometry: Option<Geometry>)

  /** What `raw_geojson` parses to, when that is truthy (a clinic holds `None`
      for text that does not parse and for a falsy value). `Unrecognised` is any
      other JSON object; `Primitive` is a truthy value that is not an object: a
      non-zero number, `true`, or a string such as doubly encoded GeoJSON. */
  datatype RawGeoJson =
    | FeatureCollection(features: seq<Option<Feature>>)
    | SingleFeature(feature: Feature)
    | BareGeometry(geometry: Geometry)
    | Unrecognised
    | Primitive

  /** A clinic after the territory/location merge. `None` coordinates stand for
      values that do not convert to a finite number. */
  datatype Clinic = Clinic(
    clinicId: Text,
    clinicName: string,
    state: Text,
    city: Text,
    address: Text,
    latitude: Option<real>,
    longitude: Option<real>,
    rawGeojson: Option<RawGeoJson>,
    metroType: string)

  /** One custom location of a targeting document (`ExclusionLocation`). Every
      location the export builds carries an address, so it is not optional here;
      only competitor exclusions carry the distance and drive time. */
  datatype Location = Location(
    name: string,
    address: string,
    latitude: real,
    longitude: real,
    radius: int,
    distanceUnit: string,
    distanceMiles: Option<real>,
    driveTimeMin: Option<real>)
}

=== FILE: wrappers.dfy ===
/** Optional values and results with an error, as used throughout the model.
    `None` stands for JavaScript's `null`/`undefined`. */
module Wrappers {

  datatype Option<+T> = None | Some(value: T) {

    /** The value, or `default` when there is none. */
    function GetOr(default: T): T {
      match this
      case Some(v) => v
      case None => default
    }
  }

  datatype Result<+R, +E> = Success(value: R) | Failure(error: E)
}
